=== FILE: README.md ===
# django-serverless in Dafny

This project models the core of django-serverless, which runs a Django and graphene backend
on AWS Lambda behind AppSync (GraphQL) and API Gateway (REST). It covers three parts.

**The adapter** (`appsync_to_wsgi.py`) turns an invocation event into a Django-style request.
It runs the request through the Django middleware chain and calls the resolver through the
graphene resolution middlewares, bridged by promise-like holders. It then projects the result
through AppSync's flat `selectionSetList` into a sparse nested response. The model covers:

- `resolve_fields` with its default resolver and value serialisation
- `camel_to_snake` and `snake_to_camel`
- `CaseInsensitiveDict`
- the warm-up short-circuit
- argument key translation
- list and paginated shaping
- the REST `JsonResponse` envelope
- both handlers end to end

**The stack wiring** (`api_stack.py`):

- queries and mutations become AppSync resolvers on Lambda data sources
- every other operation becomes a method on an API Gateway resource, reached by walking `rest_path` one segment at a time from the longest registered prefix
- the generated schema has its graphene scalar names rewritten for AppSync

**The handler generators** (`handler_append.py`, `handler_prepend.py`) fill code templates with
a resolver's configuration and encode them as UTF-8.

Modules, in dependency order:

| module | file | contents |
|---|---|---|
| `Wrappers` | wrappers.dfy | `Option` and `Result` |
| `Strings` | strings.dfy | prefixes, occurrence, `str.replace`, `split`/`join`, ASCII case |
| `Naming` | naming.dfy | camel and snake case |
| `Headers` | headers.dfy | `CaseInsensitiveDict` |
| `Formats` | formats.dfy | `strftime` dates and `str(UUID)` |
| `Values` | values.dfy | the Python values the adapter handles |
| `Fields` | fields.dfy | `resolve_fields` |
| `Chains` | chains.dfy | middleware chains as terms, and running them |
| `Promises` | promises.dfy | `execute_resolver_with_middlewares` |
| `Transport` | transport.dfy | `wrap_handler_with_middlewares` |
| `Adapter` | adapter.dfy | the two Lambda handlers |
| `Config` | config.dfy | `ResolverConfig` |
| `RestApi` | restapi.dfy | `_create_resolvers` and `_get_rest_resource` |
| `Schema` | schema.dfy | `_clean_schema` |
| `Utf8` | utf8.dfy | `str.encode('utf-8')` |
| `Templates` | templates.dfy | `generate_append` and `generate_prepend` |

A middleware chain is a term of layer names (`Chains.Chain`). Running it takes the layers'
behaviour as function parameters, so the order of execution can be stated without comparing
functions. Resolver hooks, the resolver itself, the middlewares' behaviour, multipart parsing
and date coercion are all parameters. Python exceptions are the `Failure` side of a `Result`.

Two orderings in the code are worth noting:

- **Resolution middleware order.** The graphene resolution middlewares are folded in declaration order, so the last declared is outermost. The Django middlewares are folded over the reversed list, so the first declared is outermost.
- **AppSync header case.** The AppSync handler keeps its headers in a plain dict. Only the REST handler uses `CaseInsensitiveDict`, so `RawHost` looks up `host` case-sensitively for AppSync.

## Model

| member | source | states |
|---|---|---|
| Naming.CamelToSnake | src/backend/resources/packages/django_serverless/appsync_to_wsgi.py:244-248 | the result has no uppercase letter, and its length grows by exactly one `_` per non-initial uppercase letter |
| Naming.SnakeToCamel | src/backend/resources/packages/django_serverless/appsync_to_wsgi.py:251-253 | no `_` survives in the result, and a name without `_` is only lower-cased (the round trips with `camel_to_snake` are `Naming.CamelRoundTrip` and `Naming.SnakeRoundTrip`) |
| Naming.CamelToSnakeOfLower | src/backend/resources/packages/django_serverless/appsync_to_wsgi.py:244-248 | a name without uppercase letters is left unchanged |
| Naming.CamelToSnakeIdempotent | src/backend/resources/packages/django_serverless/appsync_to_wsgi.py:244-248 | converting twice is the same as converting once |
| Naming.CamelRoundTrip | src/backend/resources/packages/django_serverless/appsync_to_wsgi.py:244-253 | for a letters-only camel-case name with a lowercase first letter, `snake_to_camel(camel_to_snake(x)) == x` |
| Naming.SnakeRoundTrip | src/backend/resources/packages/django_serverless/appsync_to_wsgi.py:244-253 | for non-empty lowercase words joined by `_`, `camel_to_snake(snake_to_camel(s)) == s` |
| Headers.Key | src/backend/resources/packages/django_serverless/appsync_to_wsgi.py:105-107 | the stored key is the lowercased key: same length, no uppercase |
| Headers.KeyIdempotent | src/backend/resources/packages/django_serverless/appsync_to_wsgi.py:105-107 | lowercasing a stored key changes nothing |
| Headers.FromDict | src/backend/resources/packages/django_serverless/appsync_to_wsgi.py:109-141 | the key conversion loop leaves only lowercase keys and yields the reference merge: a spelling with uppercase letters overwrites its lowercase entry, while an already lowercase key only fills a gap |
| Headers.SingleSpelling | src/backend/resources/packages/django_serverless/appsync_to_wsgi.py:109-141 | a header given under one spelling is found under any casing, with its value |
| Headers.Index | src/backend/resources/packages/django_serverless/appsync_to_wsgi.py:113-114 | `d[key]` succeeds iff the lowercased key is stored, and otherwise raises `KeyError` for the lowercased key |
| Headers.Get | src/backend/resources/packages/django_serverless/appsync_to_wsgi.py:128-129 | `get` finds a value iff `[]` would, and then the same value |
| Headers.GetOr | src/backend/resources/packages/django_serverless/appsync_to_wsgi.py:128-129 | `get(key, default)` gives the stored value, or the default when the key is absent |
| Headers.Set | src/backend/resources/packages/django_serverless/appsync_to_wsgi.py:116-117 | after `d[key] = v`, every casing of `key` reads `v`, and all other keys read as before |
| Headers.Del | src/backend/resources/packages/django_serverless/appsync_to_wsgi.py:119-120 | `del` succeeds iff the key is present under some casing; afterwards it is absent and other keys are unchanged |
| Headers.Pop | src/backend/resources/packages/django_serverless/appsync_to_wsgi.py:125-126 | `pop` raises iff the key is absent and no default is given; it returns the stored value or the default, removes the key and leaves every other key's value unchanged |
| Headers.SetDefault | src/backend/resources/packages/django_serverless/appsync_to_wsgi.py:131-132 | `setdefault` returns the stored value and keeps the dict when present; otherwise it stores and returns the default, which is the value type's `None` in the one-argument form |
| Headers.AnyCasing | src/backend/resources/packages/django_serverless/appsync_to_wsgi.py:113-132 | two casings of one key give the same answer to `[]`, `get` and `in` |
| Headers.Overwrite | src/backend/resources/packages/django_serverless/appsync_to_wsgi.py:135-136 | `dict.update`: the keys of both, with the new dict's values winning |
| Headers.UpdateAsWritten | src/backend/resources/packages/django_serverless/appsync_to_wsgi.py:134-136 | `update` as written fails exactly when no positional mapping is passed, because `CaseInsensitiveDict(None)` raises; the failure is a `TypeError` |
| Headers.UpdateWithKeywordsOnlyFails | src/backend/resources/packages/django_serverless/appsync_to_wsgi.py:134-136 | `d.update(Accept='text/html')` fails |
| Headers.Update | src/backend/resources/packages/django_serverless/appsync_to_wsgi.py:134-136 | corrected `update`: the keys afterwards are the old, positional and keyword keys; keyword values win over positional ones, which win over old ones; it agrees with the code whenever a mapping is passed |
| Formats.NumeralRoundTrip | src/backend/resources/packages/django_serverless/appsync_to_wsgi.py:296-303 | a zero-padded numeral reads back as its number |
| Formats.NumeralWidth | src/backend/resources/packages/django_serverless/appsync_to_wsgi.py:299-303 | a number below `base^width` is padded to exactly `width` digits |
| Formats.FormatDate | src/backend/resources/packages/django_serverless/appsync_to_wsgi.py:302-303 | with `%Y` zero-padded to four digits, a date with a year up to 9999 renders as ten characters with `-` at positions 4 and 7 (its inverse is `Formats.DateRoundTrip`) |
| Formats.FormatDateTime | src/backend/resources/packages/django_serverless/appsync_to_wsgi.py:299-300 | for fields in range, `%Y-%m-%dT%H:%M:%SZ` is twenty characters with `T`, `:`, `:` and `Z` in place (its inverse is `Formats.DateTimeRoundTrip`) |
| Formats.FormatUuid | src/backend/resources/packages/django_serverless/appsync_to_wsgi.py:296-297 | for a 128-bit value, 36 characters with hyphens at positions 8, 13, 18 and 23 (its inverse is `Formats.UuidRoundTrip`) |
| Formats.DateRoundTrip | src/backend/resources/packages/django_serverless/appsync_to_wsgi.py:302-303 | `%Y-%m-%d` parses back to the date's fields |
| Formats.DateTimeRoundTrip | src/backend/resources/packages/django_serverless/appsync_to_wsgi.py:299-300 | `%Y-%m-%dT%H:%M:%SZ` parses back to all six fields |
| Formats.DateTimeExtendsDate | src/backend/resources/packages/django_serverless/appsync_to_wsgi.py:299-303 | a datetime's rendering starts with its date's rendering |
| Formats.UuidRoundTrip | src/backend/resources/packages/django_serverless/appsync_to_wsgi.py:296-297 | `str(UUID(int=n))` parses back to `n` |
| Values.DictOf | src/backend/resources/packages/django_serverless/appsync_to_wsgi.py:428-431 | a dict built from entries is well formed, and its keys are exactly the entries' keys |
| Values.DictOfLastWins | src/backend/resources/packages/django_serverless/appsync_to_wsgi.py:428-431 | a key takes the value of its last entry |
| Values.GetAttr | src/backend/resources/packages/django_serverless/appsync_to_wsgi.py:290-291 | `getattr` succeeds iff the object has the attribute, returning its value, and otherwise raises `AttributeError` for that name |
| Fields.SubSelection | src/backend/resources/packages/django_serverless/appsync_to_wsgi.py:270-275 | `x` is in the child selection iff `f/x` is selected; the child selection is strictly shorter than a selection containing `f` |
| Fields.DefaultResolver | src/backend/resources/packages/django_serverless/appsync_to_wsgi.py:279-292 | a dict gives `get(snake)`, None when missing; only the reverse-linked type's hook can raise; with no dict, hook or attribute the placeholder is returned |
| Fields.FieldValue | src/backend/resources/packages/django_serverless/appsync_to_wsgi.py:279-310 | lookup order: the type's `resolve_` hook, then `dict.get` (None when missing), then the reverse type's hook, then the attribute, else the `Missing` placeholder |
| Fields.Serialize | src/backend/resources/packages/django_serverless/appsync_to_wsgi.py:295-308 | no UUID, date, datetime or generator survives; a generator becomes a list of its items in order; everything else passes unchanged |
| Fields.SerializeIdempotent | src/backend/resources/packages/django_serverless/appsync_to_wsgi.py:295-308 | serialising a serialised value changes nothing |
| Fields.SerializeReadsBack | src/backend/resources/packages/django_serverless/appsync_to_wsgi.py:295-303 | a serialised datetime (checked before date), date or UUID parses back to the original fields |
| Fields.ResolveFields | src/backend/resources/packages/django_serverless/appsync_to_wsgi.py:256-332 | None resolves to None; otherwise the keys are exactly the selected entries without `/`; with total hooks it never fails |
| Fields.ResolveField | src/backend/resources/packages/django_serverless/appsync_to_wsgi.py:312-330 | no child selection gives a leaf; a None value stays None; list-like values give one nested result per item, in order; others give one nested mapping; children get no type |
| Fields.ResolveEach | src/backend/resources/packages/django_serverless/appsync_to_wsgi.py:324-328 | one result per item in order, or the failure of some item |
| Fields.ResolvedFieldsAgree | src/backend/resources/packages/django_serverless/appsync_to_wsgi.py:262-330 | each selected field holds its own resolution; `__typename` holds the type's name, or None without a type |
| Fields.LeafField | src/backend/resources/packages/django_serverless/appsync_to_wsgi.py:310-313 | a field with no sub-selection holds its serialised field value |
| Promises.WrapAsPromise | src/backend/resources/packages/django_serverless/appsync_to_wsgi.py:192-209 | exactly one of fulfilled and rejected is set; `value` and `reason` are the same object: the result, or the exception |
| Promises.Unwrap | src/backend/resources/packages/django_serverless/appsync_to_wsgi.py:228-237 | raises iff the promise is rejected, raising its reason; otherwise returns its value |
| Promises.UnwrapWrap | src/backend/resources/packages/django_serverless/appsync_to_wsgi.py:192-237 | unwrapping a wrapped outcome gives back the same value or the same exception |
| Promises.FoldResolutionMiddlewares | src/backend/resources/packages/django_serverless/appsync_to_wsgi.py:215-225 | the chain lists the middlewares in reverse declaration order, so the last declared is outermost |
| Promises.Execute | src/backend/resources/packages/django_serverless/appsync_to_wsgi.py:189-241 | with no resolution middleware the pipeline returns the resolver's value or raises its exception (`Promises.ExecuteTransparent` and `Promises.ExecuteRejected` cover middlewares) |
| Promises.ExecuteTransparent | src/backend/resources/packages/django_serverless/appsync_to_wsgi.py:189-241 | middlewares that pass calls through leave the resolver's outcome |
| Promises.ExecuteRejected | src/backend/resources/packages/django_serverless/appsync_to_wsgi.py:228-235 | an outermost middleware that returns a rejected promise makes the pipeline raise its reason |
| Chains.Run | src/backend/resources/packages/django_serverless/appsync_to_wsgi.py:145-241 | layers that pass requests and responses through unchanged leave the core's answer; the order of the layers is `Transport.RequestOrder` |
| Transport.WrapHandler | src/backend/resources/packages/django_serverless/appsync_to_wsgi.py:145-170 | succeeds iff every factory returns a handler, with the first declared outermost; otherwise it raises `ImproperlyConfigured` for the last declared factory that returned None |
| Transport.RequestOrder | src/backend/resources/packages/django_serverless/appsync_to_wsgi.py:145-170 | a request enters the middlewares in declaration order, reaches the handler once, and leaves them in reverse |
| Adapter.WithWarmup | src/backend/resources/packages/django_serverless/appsync_to_wsgi.py:335-344 | a warm-up event returns None; any other event goes to the handler |
| Adapter.WarmupIgnoresHandler | src/backend/resources/packages/django_serverless/appsync_to_wsgi.py:335-344 | on a warm-up event the handler is never consulted |
| Adapter.RawHost | src/backend/resources/packages/django_serverless/appsync_to_wsgi.py:377-420 | the raw host succeeds iff both `host` and `x-forwarded-port` are present (case-insensitively for REST, exactly for AppSync) and is then the pair of their values |
| Adapter.SnakeCaseKeys | src/backend/resources/packages/django_serverless/appsync_to_wsgi.py:428-435 | the new keys are exactly the snake-cased old keys, none with an uppercase letter |
| Adapter.SnakeCaseValue | src/backend/resources/packages/django_serverless/appsync_to_wsgi.py:428-431 | a key keeps its value under its snake-cased name unless a later key collides |
| Adapter.CoerceFrom | src/backend/resources/packages/django_serverless/appsync_to_wsgi.py:444-449 | coercion succeeds iff every field coerces |
| Adapter.CoerceStopsAtFirst | src/backend/resources/packages/django_serverless/appsync_to_wsgi.py:444-449 | a failed coercion raises the exception of the first field that fails to coerce |
| Adapter.CoercedKeys | src/backend/resources/packages/django_serverless/appsync_to_wsgi.py:444-449 | a successful coercion keeps exactly the input's keys |
| Adapter.CoercedValue | src/backend/resources/packages/django_serverless/appsync_to_wsgi.py:444-449 | after coercing from field `i` on, earlier fields keep their values and later ones hold their coerced values |
| Adapter.TranslateArguments | src/backend/resources/packages/django_serverless/appsync_to_wsgi.py:427-449 | top-level keys and one level of `input` keys are snake-cased; other values are kept; a non-mapping `input` raises; without an input type, `input` is only re-keyed; a non-mapping `arguments` gives `{}` when it iterates nothing (`[]`, `""`) and `TypeError` otherwise |
| Adapter.CoercedInput | src/backend/resources/packages/django_serverless/appsync_to_wsgi.py:444-449 | each input field holds its coerced value |
| Adapter.RootOf | src/backend/resources/packages/django_serverless/appsync_to_wsgi.py:426 | the root is None iff the parent type is `query` or `mutation` in any case, else True; a missing parent type raises |
| Adapter.RootOfExamples | src/backend/resources/packages/django_serverless/appsync_to_wsgi.py:426 | `Query` and `MUTATION` parents give the None root, `Film` gives True, and an event without a parent type raises `AttributeError` |
| Adapter.Iterate | src/backend/resources/packages/django_serverless/appsync_to_wsgi.py:469-482 | Python iteration: lists and generators give their items, strings their characters, dicts their keys, and anything else raises |
| Adapter.PairOf | src/backend/resources/packages/django_serverless/appsync_to_wsgi.py:109-110 | an item of `dict(v)` is accepted iff it iterates to exactly two items with a string first; otherwise `TypeError`, or `ValueError` for the wrong length |
| Adapter.PairsOf | src/backend/resources/packages/django_serverless/appsync_to_wsgi.py:109-110 | all items are pairs, kept in order, or the failure is that of some item |
| Adapter.DictFrom | src/backend/resources/packages/django_serverless/appsync_to_wsgi.py:109-110 | `dict(v)`: a dict is copied; an empty iterable gives `{}`; a non-iterable gives `TypeError`; otherwise it succeeds iff every item is a pair, building the dictionary from them |
| Adapter.DictFromEmpty | src/backend/resources/packages/django_serverless/appsync_to_wsgi.py:109-110 | `dict([])` and `dict("")` are `{}` |
| Adapter.DictFromString | src/backend/resources/packages/django_serverless/appsync_to_wsgi.py:109-110 | `dict("ab")` raises `ValueError` |
| Adapter.DictFromNone | src/backend/resources/packages/django_serverless/appsync_to_wsgi.py:109-110 | `dict(None)` raises `TypeError` |
| Adapter.DictFromPairList | src/backend/resources/packages/django_serverless/appsync_to_wsgi.py:109-110 | `dict([["Host", "x"]])` is `{"Host": "x"}` |
| Adapter.PaginatedSelectionAsWritten | src/backend/resources/packages/django_serverless/appsync_to_wsgi.py:475-479 | the paginated selection as written is never longer than the selection |
| Adapter.PaginationMangles | src/backend/resources/packages/django_serverless/appsync_to_wsgi.py:475-479 | `data/metadata/title` becomes `metatitle` as written, and `metadata/title` when corrected |
| Adapter.NestedDataMangled | src/backend/resources/packages/django_serverless/appsync_to_wsgi.py:475-479 | for any entry `data/x` + `data/` + `t` with no `data/` in `t`, the code selects `x` + `t`, while the correction selects `x` + `data/` + `t` |
| Adapter.PaginatedSelection | src/backend/resources/packages/django_serverless/appsync_to_wsgi.py:475-479 | the corrected paginated selection is never longer than the selection |
| Adapter.PaginatedSelectionMembers | src/backend/resources/packages/django_serverless/appsync_to_wsgi.py:475-479 | `x` is kept iff `data/x` is selected, or `x` is selected, is not under `data/` and is not a page field |
| Adapter.PaginatedSelectionAgrees | src/backend/resources/packages/django_serverless/appsync_to_wsgi.py:475-479 | the code and the correction agree when no entry repeats `data/` after its prefix |
| Adapter.ShapeResult | src/backend/resources/packages/django_serverless/appsync_to_wsgi.py:468-487 | a list result gives one resolution per element in order; a paginated one gives exactly `data` and `totalResults`; otherwise the result is resolved whole |
| Adapter.ListBeforePaginated | src/backend/resources/packages/django_serverless/appsync_to_wsgi.py:468-474 | `is_list` takes precedence over `is_paginated` |
| Adapter.Envelope | src/backend/resources/packages/django_serverless/appsync_to_wsgi.py:384-389 | a `JsonResponse` becomes a dict of `statusCode`, `body` and the payload's keys; other results pass through |
| Adapter.EnvelopeDefaults | src/backend/resources/packages/django_serverless/appsync_to_wsgi.py:384-389 | with no overriding keys, `statusCode` is 200 and `body` is `{}` |
| Adapter.EnvelopeKeepsContent | src/backend/resources/packages/django_serverless/appsync_to_wsgi.py:384-389 | each payload key keeps its value, overriding the defaults |
| Adapter.SpreadKeepsEntry | src/backend/resources/packages/django_serverless/appsync_to_wsgi.py:384-389 | in `{**defaults, **payload}` each payload key is present with the payload's value |
| Adapter.SelectionOf | src/backend/resources/packages/django_serverless/appsync_to_wsgi.py:453 | the selection is the event's `selectionSetList` item for item, in order, and empty when missing; it fails with `TypeError` exactly when the value is not iterable or holds a non-string |
| Adapter.AppSyncPrepare | src/backend/resources/packages/django_serverless/appsync_to_wsgi.py:409-449 | the request is a POST to `/graphql` with the event's headers; root, field name, operation, arguments and selection are as the event gives them; a `request` that is not a dict raises |
| Adapter.AppSyncCore | src/backend/resources/packages/django_serverless/appsync_to_wsgi.py:451-463 | the resolution pipeline's exception comes before a bad selection set is noticed, and with no resolution middleware it is the resolver's own exception |
| Adapter.AppSyncHandler | src/backend/resources/packages/django_serverless/appsync_to_wsgi.py:186-497 | a factory returning None fails at import, before any event; otherwise a warm-up event returns None and a malformed event fails with its exception |
| Adapter.AppSyncTransparent | src/backend/resources/packages/django_serverless/appsync_to_wsgi.py:451-497 | with pass-through middlewares, the handler returns the resolver's result shaped through the selection, and fails with the resolver's or the selection's error |
| Adapter.RestPrepare | src/backend/resources/packages/django_serverless/appsync_to_wsgi.py:351-379 | headers are `CaseInsensitiveDict(event.get("headers", {}))`, failing as `dict()` does on a non-mapping; method, path and body from the event with their defaults; null path parameters become `{}`; files present iff the content type is multipart |
| Adapter.RestCore | src/backend/resources/packages/django_serverless/appsync_to_wsgi.py:381-396 | the resolver's result is enveloped, and its exception is passed on |
| Adapter.RestHandler | src/backend/resources/packages/django_serverless/appsync_to_wsgi.py:186-401 | a factory returning None fails at import, before any event; otherwise a warm-up event returns None and a bad event fails with the preparation's error |
| Adapter.RestNullHeaders | src/backend/resources/packages/django_serverless/appsync_to_wsgi.py:351 | an event whose `headers` is null fails: with `TypeError` once the import succeeded, with the import's error otherwise |
| Adapter.RestTransparent | src/backend/resources/packages/django_serverless/appsync_to_wsgi.py:381-399 | with pass-through middlewares, the handler returns the enveloped resolver result |
| Adapter.RestHostAnyCasing | src/backend/resources/packages/django_serverless/appsync_to_wsgi.py:351-377 | the REST raw host finds `Host` and `X-Forwarded-Port` under any casing, whatever form `dict()` accepted the headers in |
| RestApi.Scan | src/backend/stacks/api_stack.py:111-116 | the scan finds the longest registered proper prefix, trying lengths n-1 down to 1 |
| RestApi.FoundDepth | src/backend/stacks/api_stack.py:107-117 | the depth found is the longest registered prefix of the path, the whole path included |
| RestApi.GetRestResource | src/backend/stacks/api_stack.py:107-117 | returns the registered resource of the longest registered prefix, or the root and `''` |
| RestApi.LeadingSlashNeverAdvances | src/backend/stacks/api_stack.py:88-96 | from `''`, a path starting with `/` steps to `''` again, so the walk never ends |
| RestApi.AddRestResource | src/backend/stacks/api_stack.py:85-98 | the walk ends at the path's resource; old entries are kept; exactly the prefixes longer than the found one are added; prefix-closure is preserved |
| RestApi.AllPrefixes | src/backend/stacks/api_stack.py:88-98 | in a registry built by the walks, every prefix of a registered path is registered |
| RestApi.DataSourceName | src/backend/stacks/api_stack.py:70-75 | the data source name contains no `-` |
| RestApi.EveryConfigWired | src/backend/stacks/api_stack.py:68-84 | every configuration gets exactly one AppSync resolver or one REST method |
| RestApi.CreateResolvers | src/backend/stacks/api_stack.py:66-105 | queries and mutations get resolvers in order, all else gets methods in order, and every REST path is registered with its prefixes |
| Schema.CleanSchema | src/backend/stacks/api_stack.py:119-129 | no `GenericScalar` is left in any cleaned schema; the per-name effects are the lemmas below |
| Schema.AppSyncSchemaUnchanged | src/backend/stacks/api_stack.py:124-129 | a schema without the five patterns is unchanged |
| Schema.UuidBecomesId | src/backend/stacks/api_stack.py:125 | for every schema holding no ` Date`, `Decimal` or `GenericScalar`, the cleaned schema is the original with every `UUID` replaced by `ID`: the inserted `ID`s create none of the later names, not even `Decimal` after a `UUI` |
| Schema.DateBecomesAwsDate | src/backend/stacks/api_stack.py:126 | for every schema holding no `UUID`, `Decimal` or `GenericScalar`, the cleaned schema is the original with every ` Date` replaced by ` AWSDate` |
| Schema.DecimalBecomesFloat | src/backend/stacks/api_stack.py:127 | for every schema holding no `UUID`, ` Date` or `GenericScalar`, the cleaned schema is the original with every `Decimal` replaced by `Float` |
| Schema.GenericDeclarationDropped | src/backend/stacks/api_stack.py:128 | a `scalar GenericScalar` declaration standing on its own line between lines free of the five names is removed, and those lines are kept exactly |
| Schema.GenericBecomesAwsJson | src/backend/stacks/api_stack.py:129 | for every schema holding no `UUID`, ` Date`, `Decimal` or declaration, the cleaned schema is the original with every `GenericScalar` replaced by `AWSJSON` |
| Utf8.EncodeChar | src/backend/resources/handler_append.py:61 | a character encodes to 1 to 4 bytes, 1 iff it is ASCII, with continuation bytes after the first |
| Utf8.Encode | src/backend/resources/handler_append.py:61 | the encoding is at least as long as the text (its inverse is `Utf8.DecodeEncode`) |
| Utf8.DecodeEncode | src/backend/resources/handler_append.py:61 | strict UTF-8 decoding of the encoding gives back the text |
| Utf8.EncodeAscii | src/backend/resources/handler_prepend.py:28 | ASCII text encodes byte for byte |
| Utf8.EncodeConcat | src/backend/resources/handler_prepend.py:28 | encoding distributes over concatenation |
| Templates.ReplaceRender | src/backend/resources/handler_append.py:53-60 | replacing a placeholder in a rendered template fills its slots and nothing else |
| Templates.SubstituteRender | src/backend/resources/handler_append.py:53-60 | the chain of replacements fills every slot with its value, provided no value carries a later placeholder |
| Templates.ChainedPlaceholder | src/backend/resources/handler_append.py:53-60 | a value that is the next placeholder is itself rewritten by the next replacement |
| Templates.TypeNameRewritten | src/backend/resources/handler_append.py:53-55 | a query whose graphene type is `IS_LIST` comes out naming `str(is_list)` instead |
| Templates.AppendTemplateSound | src/backend/resources/handler_append.py:3-43 | the three templates' text contains no placeholder |
| Templates.FinalBindings | src/backend/resources/handler_append.py:53-60 | each placeholder gets its value: `str(bool)` for the flags, `''` or `<model>.objects.first()` for the connection |
| Templates.AppendRenders | src/backend/resources/handler_append.py:53-60 | with clean values the output is the template with each slot filled |
| Templates.RestAppendText | src/backend/resources/handler_append.py:31-61 | the REST handler text, spelled out |
| Templates.QueryAppendText | src/backend/resources/handler_append.py:3-61 | the query handler text, spelled out |
| Templates.MutationAppendText | src/backend/resources/handler_append.py:17-61 | the mutation handler text, spelled out |
| Templates.AppendTemplateAsWritten | src/backend/resources/handler_append.py:47-51 | as written, the REST template goes to exactly `GET` and `POST`, the mutation template to exactly `Mutation`, and every other operation, `Query` included, gets the query template |
| Templates.AppendTemplate | src/backend/resources/handler_append.py:47-51 | the corrected choice; `Templates.RestTemplateIffRest` characterises it |
| Templates.AppendText | src/backend/resources/handler_append.py:46-60 | the filled template; `Templates.AppendRenders` characterises it for clean values and `Templates.TypeNameRewritten` for one unclean case |
| Templates.GenerateAppend | src/backend/resources/handler_append.py:46-61 | the bytes decode back to the filled text |
| Templates.GenerateAppendAsWritten | src/backend/resources/handler_append.py:46-61 | `generate_append` with the code's template choice; the bytes decode back to the filled text |
| Templates.GenerateAppendAgrees | src/backend/resources/handler_append.py:46-61 | for `Query`, `Mutation`, `GET` and `POST` the bytes as written and corrected are the same |
| Templates.AppendTemplateAgrees | src/backend/resources/handler_append.py:47-51 | for `Query`, `Mutation`, `GET` and `POST` the code's choice is the corrected one |
| Templates.PutGetsAppSyncWrapper | src/backend/resources/handler_append.py:47-51 | a `PUT` resolver is served over REST, yet gets the AppSync query template |
| Templates.RestTemplateIffRest | src/backend/resources/handler_append.py:47-51 | the corrected choice gives the REST template iff the operation is neither `Query` nor `Mutation`, and the mutation template iff it is `Mutation` |
| Templates.PrependInert | src/backend/resources/handler_prepend.py:3-22 | the prepend text contains no `PERSISTENT_CONNECTION` outside its one slot |
| Templates.PrependRenders | src/backend/resources/handler_prepend.py:3-27 | the output is the bootstrap with `60` or `None` in the slot and the rest unchanged |
| Templates.PrependText | src/backend/resources/handler_prepend.py:25-27 | the filled bootstrap; `Templates.PrependRenders` spells it out |
| Templates.GeneratePrepend | src/backend/resources/handler_prepend.py:25-28 | the bytes decode back to the filled text |
| Config.NewResolverConfig | src/backend/dataclasses/__init__.py:55-66 | the four required fields as given and every other field at its dataclass default; `function` is not an init parameter and stays unset in the source, modelled as the empty alias |
| Config.WithAlias | src/backend/stacks/lambdas_stack.py:115 | `config.function = alias` sets the alias and changes no other field |

## Left out

- I/O: file reads and writes in `_clean_schema`, `call_command('graphql_schema')`, and every `print`, including the `printme` wrapper that replaces `middleware.__call__`.
- CDK construct creation: `LambdaDataSource`, `Resolver`, `add_method`, `LambdaIntegration`, the API objects and IAM. The model keeps records of the resolvers, methods and resources created.
- The deployment environment name that `with_env` appends is a parameter.
- `lambda_warmer.py`, `lambdas_stack.py`, `backend_stack.py`, `app.py` and `setup.py`: network calls and wiring, with no logic this model needs.
- The module-global `request_wrapper.initial_request_hook`. The AppSync request handler is passed to the chain explicitly.
- Django and graphene services: `settings.MIDDLEWARE`, `settings.GRAPHENE`, `import_string`, `HttpRequest.get_host`, `HttpResponseBase`. They are parameters, or are reduced to the values the adapter reads.
- Multipart parsing (`base64.b64decode`, `cgi.FieldStorage`) is a function parameter. FILES is an optional value.
- Adapter.RestPrepare: the multipart parse is a function of the body alone. The source's `FieldStorage` also reads the headers, the method and the content type with its boundary (appsync_to_wsgi.py:365-366); the model does not pass those to the parse.
- `datetime.strptime` date coercion, the graphene input type inspection and the `AttrDict` class patching: the coercion is a function parameter applied per input field.
- `str(event_info)` for the request body: the body holds the info value itself, not Python's `repr` of it.
- Fields.ResolveFields: the Django `RelatedManager`/`ManyRelatedManager` classes are one `Manager` value whose `.all()` gives a `QuerySet`. The class-name tests become constructor tests.
- Formats.DateRoundTrip: `%Y` is modelled as four zero-padded digits. Below year 1000 this varies by platform, so the round trip is stated for years up to 9999 only.
- Headers.Key: non-string keys are not modelled. Every header key is a string. Lowercasing is ASCII only: Python's `str.lower` also maps non-ASCII letters (`'İ'` to two characters, for instance). HTTP header names are ASCII, so this case does not arise for them.
- Naming.CamelToSnake: the case tests and mappings are ASCII only, whereas Python's `isupper`, `lower` and `title` are Unicode-aware. GraphQL names are ASCII (`[_A-Za-z][_0-9A-Za-z]*`), so every field and argument name the handlers see is covered; the same holds for Naming.SnakeToCamel.
- RestApi.CreateResolvers: requires every REST `rest_path` to be empty or to start with a non-empty segment. For a leading `/` the first segment is empty; with the CDK resource calls abstracted, the walk makes no progress from there, as `RestApi.LeadingSlashNeverAdvances` states. What CDK itself does with an empty path part is not modelled.
- Templates.AppendRenders: requires clean values, meaning the graphene type and input type carry no later placeholder name. `Templates.TypeNameRewritten` covers one case where that fails; other overlapping values are not described.
- Templates.AppendText uses the corrected template choice (see Findings). `Templates.AppendTemplateAsWritten` is the code's choice.
- Templates.GenerateAppend: encodes the corrected choice, so for operations other than `Query`, `Mutation`, `GET` and `POST` (`PUT`, `DELETE`, …) it emits the REST wrapper where the code emits the AppSync query wrapper. `Templates.GenerateAppendAsWritten` is the code's output, and `Templates.GenerateAppendAgrees` gives the operations on which the two agree.
- Schema.CleanSchema: nothing similar holds for the other names. Deleting `scalar GenericScalar` can join the halves of `UUID`, `Decimal` or ` Date`, so the result may still contain them.
- Fields.ResolveFields: the response dictionary is a map (`Fields.Out`'s `OObject`), so the insertion order of the source's dict, which follows the selection, is not kept. The keys and values are.
- Adapter.SelectionOf: a `selectionSetList` that is not iterable or holds a non-string makes the AppSync handler fail with `TypeError` after the resolver ran. The source fails only where `resolve_fields` or the pagination first touches the bad entry, so outside pagination it does not fail when the result is None or an empty list. Its exception can also differ: `startswith` on a non-string raises `AttributeError`.
- Adapter.ShapeResult: the paginated branch uses the corrected selection (see Findings). It agrees with the code whenever no entry under `data/` contains `data/` again (`Adapter.PaginatedSelectionAgrees`). `Adapter.PaginatedSelectionAsWritten` is the code's selection.
- Adapter.AppSyncHandler: its paginated responses follow the corrected selection, as Adapter.ShapeResult does.
- Adapter.AppSyncTransparent: the shaped result is Adapter.ShapeResult's, so the corrected selection for paginated responses.
- Fields.FieldValue: the `input` argument is an `AttrDict`, whose `get(key)` without a default raises `KeyError` for a missing key. The model's dictionaries all behave like a plain dict, so a missing field of an `input` value gives None instead.
- Adapter.TranslateArguments: `input` becomes a plain dictionary, not an `AttrDict`, so the `KeyError` that `AttrDict.get` raises for a missing key when the default resolver reads it is not modelled (see the Fields.FieldValue line). Its attribute access and the patched `model`, `fields` and `to_model` class attributes are left out too.
- Adapter.PairOf: Python accepts any hashable key in `dict()` (numbers, booleans, None). The model's dictionaries have string keys, so a pair with a non-string key fails with `TypeError`.
- Utf8.DecodeEncode: Python strings can hold lone surrogates, whose encoding raises. Dafny characters are Unicode scalar values, so that error is not modelled.

## Findings

| source | as written | input that shows it | evidently intended | confidence | as-written member | corrected member |
|---|---|---|---|---|---|---|
| src/backend/resources/packages/django_serverless/appsync_to_wsgi.py:476 | `replace('data/', '')` removes every `data/` from an entry under `data/` | selection entry `data/metadata/title` becomes `metatitle` | strip only the leading `data/`, giving `metadata/title` | medium, not executed | Adapter.PaginatedSelectionAsWritten, Adapter.PaginationMangles, Adapter.NestedDataMangled | Adapter.PaginatedSelection, Adapter.PaginatedSelectionMembers |
| src/backend/resources/packages/django_serverless/appsync_to_wsgi.py:134-136 | `update(E=None, **F)` always builds `CaseInsensitiveDict(E)`, and `dict(None)` raises `TypeError` | `headers.update(Accept='text/html')` | skip the positional mapping when it is omitted, as `dict.update` does | high, not executed | Headers.UpdateAsWritten, Headers.UpdateWithKeywordsOnlyFails | Headers.Update |
| src/backend/resources/handler_append.py:47-51 | only `GET` and `POST` get the REST template, although `api_stack.py:69-105` serves every operation other than `Query`/`Mutation` over REST | a `PUT` resolver gets the AppSync query wrapper | the REST template for every operation other than `Query` and `Mutation` | medium, not executed | Templates.AppendTemplateAsWritten, Templates.PutGetsAppSyncWrapper, Templates.GenerateAppendAsWritten | Templates.AppendTemplate, Templates.RestTemplateIffRest |

=== FILE: adapter.dfy ===
/**
 * The Lambda entry points: `return_none_if_is_warmup`, the API Gateway handler built by
 * `apigateway_to_wsgi` and the AppSync handler built by `appsync_to_wsgi_of`. Each turns an
 * event into a request, sends it through the Django request middlewares to a handler that
 * calls the application's resolver, and shapes what the resolver returns.
 */
module Adapter {
  import opened Wrappers
  import opened Strings
  import opened Values
  import opened Chains
  import opened Fields
  import Naming
  import Headers
  import Promises
  import Transport

  /** A Lambda event: a JSON object. */
  type Event = map<string, Value>

  /** `event.get(key, default)`. */
  function EventGet(event: Event, key: string, default: Value): Value {
    if key in event then event[key] else default
  }

  // ---------------------------------------------------------------------------
  // Warm-up events

  const WarmFlag: string := "is_test_payload_to_warm_lambda"

  /** `event.get('is_test_payload_to_warm_lambda', False)` is truthy. */
  predicate IsWarmup(event: Event) {
    Truthy(EventGet(event, WarmFlag, Bool(false)))
  }

  /**
   * `return_none_if_is_warmup(f)`: a warm-up event answers `None` without running the handler;
   * any other event is passed to the handler.
   */
  function WithWarmup<P>(none: P, handler: Event --> Result<P, Exn>, event: Event): (r: Result<P, Exn>)
    requires !IsWarmup(event) ==> handler.requires(event)
    ensures IsWarmup(event) ==> r == Success(none)
    ensures !IsWarmup(event) ==> r == handler(event)
  {
    if IsWarmup(event) then Success(none) else handler(event)
  }

  /** Whatever the wrapped handler would do, a warm-up event never reaches it. */
  lemma WarmupIgnoresHandler<P>(none: P, h1: Event --> Result<P, Exn>, h2: Event --> Result<P, Exn>, event: Event)
    requires IsWarmup(event)
    ensures WithWarmup(none, h1, event) == WithWarmup(none, h2, event) == Success(none)
  {
  }

  // ---------------------------------------------------------------------------
  // Requests

  /**
   * The headers a request carries: the event's own value for AppSync (a plain dictionary, or
   * whatever the event holds), or the case-insensitive dictionary built for API Gateway.
   */
  datatype HeaderStore = Plain(v: Value) | Folded(m: map<string, Value>)

  /**
   * `RequestHolder`. The body is `str(event_info)`; the model keeps `event_info` itself.
   * `files` is the `'file'` entry of `FILES`, if any.
   */
  datatype Request = Request(headers: HeaderStore, httpMethod: Value, body: Value, path: Value, files: Option<Value>)

  /**
   * `_get_raw_host`: the `host` and `x-forwarded-port` headers (joined with `:` by the
   * f-string). A plain dictionary is indexed case-sensitively, the API Gateway headers in any
   * casing.
   */
  function RawHost(req: Request): (r: Result<(Value, Value), Exn>)
    ensures req.headers.Plain? ==>
      (r.Success? <==> req.headers.v.Dict? && "host" in req.headers.v.vals && "x-forwarded-port" in req.headers.v.vals)
    ensures req.headers.Folded? ==>
      (r.Success? <==> Headers.Contains(req.headers.m, "host") && Headers.Contains(req.headers.m, "x-forwarded-port"))
    ensures r.Success? && req.headers.Folded? ==>
      r.value == (Headers.Index(req.headers.m, "host").value, Headers.Index(req.headers.m, "x-forwarded-port").value)
    ensures r.Success? && req.headers.Plain? ==>
      r.value == (req.headers.v.vals["host"], req.headers.v.vals["x-forwarded-port"])
  {
    match req.headers
    case Plain(h) =>
      if !h.Dict? then Failure(TypeError("headers are not subscriptable"))
      else if "host" !in h.vals then Failure(KeyError("host"))
      else if "x-forwarded-port" !in h.vals then Failure(KeyError("x-forwarded-port"))
      else Success((h.vals["host"], h.vals["x-forwarded-port"]))
    case Folded(m) =>
      match Headers.Index(m, "host")
      case Failure(e) => Failure(KeyError(e.key))
      case Success(host) =>
        match Headers.Index(m, "x-forwarded-port")
        case Failure(e) => Failure(KeyError(e.key))
        case Success(port) => Success((host, port))
  }

  // ---------------------------------------------------------------------------
  // AppSync arguments

  /** The entries of a dictionary with each key converted by `camel_to_snake`, in order. */
  function SnakeEntries(d: Value): seq<(string, Value)>
    requires d.Dict?
  {
    seq(|d.keys|, j requires 0 <= j < |d.keys| => (Naming.CamelToSnake(d.keys[j]), DictGet(d, d.keys[j])))
  }

  /**
   * `{camel_to_snake(key): d[key] for key in d}`: every key of the result is the snake form of
   * a key of `d`, and every key of `d` has its snake form in the result.
   */
  function SnakeCaseKeys(d: Value): (r: Value)
    requires d.Dict?
    ensures r.Dict? && WellFormedDict(r)
    ensures forall k :: k in r.vals ==> NoUpper(k)
    ensures forall k :: k in r.vals <==> exists j :: 0 <= j < |d.keys| && Naming.CamelToSnake(d.keys[j]) == k
  {
    var es := SnakeEntries(d);
    var r := DictOf(es);
    assert forall k :: k in r.vals <==> exists j :: 0 <= j < |d.keys| && Naming.CamelToSnake(d.keys[j]) == k by {
      forall k ensures k in r.vals <==> exists j :: 0 <= j < |d.keys| && Naming.CamelToSnake(d.keys[j]) == k {
        if k in r.vals {
          var j :| 0 <= j < |es| && es[j].0 == k;
        } else {
          forall j | 0 <= j < |d.keys| ensures Naming.CamelToSnake(d.keys[j]) != k {
            assert es[j].0 == Naming.CamelToSnake(d.keys[j]);
          }
        }
      }
    }
    r
  }

  /**
   * A key whose snake form no later key shares keeps its value; when two spellings collide the
   * later one wins.
   */
  lemma SnakeCaseValue(d: Value, j: nat)
    requires d.Dict? && WellFormedDict(d) && j < |d.keys|
    requires forall k :: j < k < |d.keys| ==> Naming.CamelToSnake(d.keys[k]) != Naming.CamelToSnake(d.keys[j])
    ensures Naming.CamelToSnake(d.keys[j]) in SnakeCaseKeys(d).vals
    ensures SnakeCaseKeys(d).vals[Naming.CamelToSnake(d.keys[j])] == d.vals[d.keys[j]]
  {
    DictOfLastWins(SnakeEntries(d), j);
  }

  /**
   * The graphene input type of a mutation: each field it declares, and whether that field is a
   * `graphene.Date`.
   */
  datatype InputType = InputType(fields: map<string, bool>)

  /**
   * One iteration of the input-coercion loop: `None` is skipped; a field the input type does not
   * declare raises `AttributeError` (from `getattr`); a date field is parsed by `coerce` (the
   * `strptime(raw, '%Y-%m-%d').date()` call); any other field is left alone.
   */
  function CoerceField(ty: InputType, name: string, raw: Value, coerce: Value -> Result<Value, Exn>): Result<Value, Exn> {
    if raw == Null then Success(raw)
    else if name !in ty.fields then Failure(AttributeError(name))
    else if ty.fields[name] then coerce(raw)
    else Success(raw)
  }

  /** `d.keys[j]` is the first key from position `i` whose coercion raises `e`. */
  predicate FirstFailure(ty: InputType, d: Value, coerce: Value -> Result<Value, Exn>, i: nat, j: nat, e: Exn)
    requires d.Dict? && i <= j < |d.keys|
  {
    && CoerceField(ty, d.keys[j], DictGet(d, d.keys[j]), coerce) == Failure(e)
    && forall k :: i <= k < j ==> CoerceField(ty, d.keys[k], DictGet(d, d.keys[k]), coerce).Success?
  }

  /**
   * The loop `for input_field_name, raw_value in snake_case_input_dict.items()` from position
   * `i`: the values of the input dictionary after the remaining fields are coerced. The first
   * field that raises stops the loop.
   */
  function CoerceFrom(ty: InputType, d: Value, i: nat, coerce: Value -> Result<Value, Exn>): (r: Result<map<string, Value>, Exn>)
    requires d.Dict? && i <= |d.keys|
    ensures r.Success? <==> forall j :: i <= j < |d.keys| ==> CoerceField(ty, d.keys[j], DictGet(d, d.keys[j]), coerce).Success?
    decreases |d.keys| - i
  {
    if i == |d.keys| then Success(d.vals)
    else
      var k := d.keys[i];
      var c := CoerceField(ty, k, DictGet(d, k), coerce);
      var rest := CoerceFrom(ty, d, i + 1, coerce);
      if c.Failure? then Failure(c.error)
      else if rest.Failure? then Failure(rest.error)
      else Success(rest.value[k := c.value])
  }

  /** A failed coercion raises the error of the first field from position `i` that fails. */
  lemma {:induction false} CoerceStopsAtFirst(ty: InputType, d: Value, i: nat, coerce: Value -> Result<Value, Exn>)
    requires d.Dict? && i <= |d.keys|
    requires CoerceFrom(ty, d, i, coerce).Failure?
    ensures exists j :: i <= j < |d.keys| && FirstFailure(ty, d, coerce, i, j, CoerceFrom(ty, d, i, coerce).error)
    decreases |d.keys| - i
  {
    var k := d.keys[i];
    var c := CoerceField(ty, k, DictGet(d, k), coerce);
    var e := CoerceFrom(ty, d, i, coerce).error;
    if c.Failure? {
      assert FirstFailure(ty, d, coerce, i, i, e);
    } else {
      CoerceStopsAtFirst(ty, d, i + 1, coerce);
      var j :| i + 1 <= j < |d.keys| && FirstFailure(ty, d, coerce, i + 1, j, e);
      assert FirstFailure(ty, d, coerce, i, j, e);
    }
  }

  /** A successful coercion keeps exactly the keys of the input dictionary. */
  lemma {:induction false} CoercedKeys(ty: InputType, d: Value, i: nat, coerce: Value -> Result<Value, Exn>)
    requires d.Dict? && WellFormedDict(d) && i <= |d.keys|
    ensures CoerceFrom(ty, d, i, coerce).Success? ==> CoerceFrom(ty, d, i, coerce).value.Keys == d.vals.Keys
    decreases |d.keys| - i
  {
    if i < |d.keys| && CoerceFrom(ty, d, i, coerce).Success? {
      CoercedKeys(ty, d, i + 1, coerce);
      assert d.keys[i] in d.vals;
    }
  }

  /**
   * After a successful coercion from position `i`, a field from `i` on holds its coerced value
   * and an earlier one keeps its own.
   */
  lemma {:induction false} CoercedValue(ty: InputType, d: Value, i: nat, coerce: Value -> Result<Value, Exn>, j: nat)
    requires d.Dict? && WellFormedDict(d) && i <= |d.keys| && j < |d.keys|
    requires CoerceFrom(ty, d, i, coerce).Success?
    ensures d.keys[j] in CoerceFrom(ty, d, i, coerce).value
    ensures j < i ==> CoerceFrom(ty, d, i, coerce).value[d.keys[j]] == d.vals[d.keys[j]]
    ensures i <= j ==>
      CoerceFrom(ty, d, i, coerce).value[d.keys[j]] == CoerceField(ty, d.keys[j], DictGet(d, d.keys[j]), coerce).value
    decreases |d.keys| - i
  {
    if i == |d.keys| {
      assert d.keys[j] in d.vals;
    } else if j != i {
      CoercedValue(ty, d, i + 1, coerce, j);
      if j < i {
        KeysDistinct(d, j, i);
      } else {
        KeysDistinct(d, i, j);
      }
    }
  }

  lemma KeysDistinct(d: Value, a: nat, b: nat)
    requires d.Dict? && WellFormedDict(d) && a < b < |d.keys|
    ensures d.keys[a] != d.keys[b]
  {
  }

  /**
   * The keyword arguments of the resolver: the event's `arguments` with snake-case keys and,
   * when there is an `input` argument, that dictionary with snake-case keys too, its date fields
   * coerced when an input type is configured.
   */
  function TranslateArguments(args: Value, inputType: Option<InputType>, coerce: Value -> Result<Value, Exn>): (r: Result<Value, Exn>)
    ensures !args.Dict? ==> (r.Success? <==> Iterate(args) == Success([]))
    ensures !args.Dict? && r.Success? ==> r.value == EmptyDict
    ensures !args.Dict? && r.Failure? ==> r.error.TypeError?
    ensures r.Success? && args.Dict? ==> r.value.Dict? && r.value.keys == SnakeCaseKeys(args).keys
    ensures r.Success? && args.Dict? ==> r.value.vals.Keys == SnakeCaseKeys(args).vals.Keys
    ensures r.Success? && args.Dict? ==> forall k :: k in r.value.vals && k != "input" ==> r.value.vals[k] == SnakeCaseKeys(args).vals[k]
    ensures r.Success? && args.Dict? && "input" in r.value.vals ==>
      var raw := SnakeCaseKeys(args).vals["input"];
      && raw.Dict?
      && r.value.vals["input"].Dict?
      && r.value.vals["input"].keys == SnakeCaseKeys(raw).keys
      && r.value.vals["input"].vals.Keys == SnakeCaseKeys(raw).vals.Keys
      && (inputType.None? ==> r.value.vals["input"] == SnakeCaseKeys(raw))
    ensures args.Dict? && "input" in SnakeCaseKeys(args).vals && !SnakeCaseKeys(args).vals["input"].Dict? ==>
      r == Failure(AttributeError("items"))
  {
    if !args.Dict? then
      var items :- Iterate(args);
      if |items| == 0 then Success(EmptyDict) else Failure(TypeError("arguments is not a mapping"))
    else
      var snake := SnakeCaseKeys(args);
      if "input" !in snake.vals then Success(snake)
      else
        var raw := snake.vals["input"];
        if !raw.Dict? then Failure(AttributeError("items"))
        else
          var input := SnakeCaseKeys(raw);
          var vals :- if inputType.Some? then CoercedKeys(inputType.value, input, 0, coerce); CoerceFrom(inputType.value, input, 0, coerce)
                      else Success(input.vals);
          Success(Dict(snake.keys, snake.vals["input" := Dict(input.keys, vals)]))
  }

  /**
   * A date field of the input holds the coerced value; a `None` field and a field that is not
   * a date keep what the event sent.
   */
  lemma CoercedInput(args: Value, ty: InputType, coerce: Value -> Result<Value, Exn>, name: string)
    requires TranslateArguments(args, Some(ty), coerce).Success?
    requires "input" in TranslateArguments(args, Some(ty), coerce).value.vals
    requires name in SnakeCaseKeys(SnakeCaseKeys(args).vals["input"]).vals
    ensures var raw := SnakeCaseKeys(SnakeCaseKeys(args).vals["input"]).vals[name];
            var got := TranslateArguments(args, Some(ty), coerce).value.vals["input"];
            && name in got.vals
            && CoerceField(ty, name, raw, coerce).Success?
            && got.vals[name] == CoerceField(ty, name, raw, coerce).value
  {
    TranslatedInput(args, ty, coerce);
    var input := SnakeCaseKeys(SnakeCaseKeys(args).vals["input"]);
    var j :| 0 <= j < |input.keys| && input.keys[j] == name;
    CoercedValue(ty, input, 0, coerce, j);
  }

  /** A translated `input` is the snake-cased event input with its coerced values. */
  lemma TranslatedInput(args: Value, ty: InputType, coerce: Value -> Result<Value, Exn>)
    requires TranslateArguments(args, Some(ty), coerce).Success?
    requires "input" in TranslateArguments(args, Some(ty), coerce).value.vals
    ensures args.Dict? && "input" in SnakeCaseKeys(args).vals && SnakeCaseKeys(args).vals["input"].Dict?
    ensures var input := SnakeCaseKeys(SnakeCaseKeys(args).vals["input"]);
            && CoerceFrom(ty, input, 0, coerce).Success?
            && TranslateArguments(args, Some(ty), coerce).value.vals["input"] == Dict(input.keys, CoerceFrom(ty, input, 0, coerce).value)
  {
  }

  /**
   * `None if event_info.get('parentTypeName').lower() in ['query', 'mutation'] else True`: the
   * root value of a top-level field is `None`; a missing or non-string parent type raises.
   */
  function RootOf(info: Value): (r: Result<Value, Exn>)
    requires info.Dict?
    ensures r.Success? <==> DictGet(info, "parentTypeName").Str?
    ensures r.Failure? ==> r.error == AttributeError("lower")
    ensures r.Success? ==> (r.value == Null <==> LowerStr(DictGet(info, "parentTypeName").s) in {"query", "mutation"})
    ensures r.Success? ==> r.value == Null || r.value == Bool(true)
  {
    var p := DictGet(info, "parentTypeName");
    if !p.Str? then Failure(AttributeError("lower"))
    else Success(if LowerStr(p.s) in {"query", "mutation"} then Null else Bool(true))
  }

  /**
   * AppSync's `Query` and `Mutation` parents, in any casing, give the `None` root; a type's own
   * name gives `True`; an event without a parent type raises.
   */
  lemma RootOfExamples()
    ensures RootOf(Dict(["parentTypeName"], map["parentTypeName" := Str("Query")])) == Success(Null)
    ensures RootOf(Dict(["parentTypeName"], map["parentTypeName" := Str("MUTATION")])) == Success(Null)
    ensures RootOf(Dict(["parentTypeName"], map["parentTypeName" := Str("Film")])) == Success(Bool(true))
    ensures RootOf(EmptyDict) == Failure(AttributeError("lower"))
  {
    assert LowerStr("Query") == "query";
    assert LowerStr("MUTATION") == "mutation";
    assert LowerStr("Film")[0] == 'f';
  }

  // ---------------------------------------------------------------------------
  // Shaping the resolver's result

  /**
   * `for x in v`: the items of a list or generator, the characters of a string, the keys of a
   * dictionary; anything else is not iterable.
   */
  function Iterate(v: Value): (r: Result<seq<Value>, Exn>)
    ensures r.Success? <==> v.Seq? || v.Generator? || v.Str? || v.Dict?
    ensures (v.Seq? || v.Generator?) ==> r == Success(v.items)
    ensures v.Str? ==> r.Success? && |r.value| == |v.s| && forall k :: 0 <= k < |v.s| ==> r.value[k] == Str([v.s[k]])
    ensures v.Dict? ==> r.Success? && |r.value| == |v.keys| && forall k :: 0 <= k < |v.keys| ==> r.value[k] == Str(v.keys[k])
  {
    match v
    case Seq(_, items) => Success(items)
    case Generator(items) => Success(items)
    case Str(s) => Success(seq(|s|, k requires 0 <= k < |s| => Str([s[k]])))
    case Dict(keys, _) => Success(seq(|keys|, k requires 0 <= k < |keys| => Str(keys[k])))
    case _ => Failure(TypeError("object is not iterable"))
  }

  /**
   * One element of `dict(v)`'s sequence form: it must iterate exactly a key and a value. A
   * non-iterable element raises `TypeError`, one of another length `ValueError`.
   */
  function PairOf(item: Value): (r: Result<(string, Value), Exn>)
    ensures Iterate(item).Failure? ==> r.Failure? && r.error.TypeError?
    ensures Iterate(item).Success? && |Iterate(item).value| != 2 ==> r.Failure? && r.error.ValueError?
    ensures r.Success? <==> Iterate(item).Success? && |Iterate(item).value| == 2 && Iterate(item).value[0].Str?
    ensures r.Success? ==> Str(r.value.0) == Iterate(item).value[0] && r.value.1 == Iterate(item).value[1]
  {
    var kv :- Iterate(item);
    if |kv| != 2 then Failure(ValueError("dictionary update sequence element has the wrong length"))
    else if !kv[0].Str? then Failure(TypeError("dictionary key is not a string"))
    else Success((kv[0].s, kv[1]))
  }

  /** The elements as pairs, in order, or the failure of the first element that is not one. */
  function PairsOf(items: seq<Value>): (r: Result<seq<(string, Value)>, Exn>)
    ensures r.Success? <==> forall k :: 0 <= k < |items| ==> PairOf(items[k]).Success?
    ensures r.Success? ==> |r.value| == |items| && forall k :: 0 <= k < |items| ==> r.value[k] == PairOf(items[k]).value
    ensures r.Failure? ==> exists k :: 0 <= k < |items| && PairOf(items[k]) == Failure(r.error)
                                       && forall j :: 0 <= j < k ==> PairOf(items[j]).Success?
    decreases |items|
  {
    if |items| == 0 then Success([])
    else
      var p :- PairOf(items[0]);
      var rest := PairsOf(items[1..]);
      if rest.Failure? then
        var k :| 0 <= k < |items| - 1 && PairOf(items[1..][k]) == Failure(rest.error)
                 && forall j :: 0 <= j < k ==> PairOf(items[1..][j]).Success?;
        assert PairOf(items[k + 1]) == Failure(rest.error);
        Failure(rest.error)
      else
        Success([p] + rest.value)
  }

  /**
   * `dict(v)`: a dictionary is copied; anything else must iterate key-value pairs, and the
   * dictionary is built from them in order, a repeated key taking its last value.
   */
  function DictFrom(v: Value): (r: Result<Value, Exn>)
    ensures v.Dict? ==> r == Success(v)
    ensures !v.Dict? && Iterate(v).Failure? ==> r.Failure? && r.error.TypeError?
    ensures !v.Dict? && Iterate(v).Success? ==>
      var items := Iterate(v).value;
      && (r.Success? <==> forall k :: 0 <= k < |items| ==> PairOf(items[k]).Success?)
      && (r.Success? ==> r.value == DictOf(PairsOf(items).value))
      && (r.Failure? ==> exists k :: 0 <= k < |items| && PairOf(items[k]) == Failure(r.error))
    ensures !v.Dict? && Iterate(v) == Success([]) ==> r == Success(EmptyDict)
    ensures r.Success? ==> r.value.Dict? && (!v.Dict? ==> WellFormedDict(r.value))
  {
    if v.Dict? then Success(v)
    else
      var items :- Iterate(v);
      var entries :- PairsOf(items);
      Success(DictOf(entries))
  }

  /** `dict([])` and `dict('')` are empty. */
  lemma DictFromEmpty()
    ensures DictFrom(Seq(List, [])) == Success(EmptyDict)
    ensures DictFrom(Str("")) == Success(EmptyDict)
  {
  }

  /** `dict('ab')` raises `ValueError`: each character is an element of length one. */
  lemma DictFromString()
    ensures DictFrom(Str("ab")).Failure? && DictFrom(Str("ab")).error.ValueError?
  {
    assert Iterate(Str("ab")).value[0] == Str("a");
    assert Iterate(Str("a")).value == [Str("a")];
  }

  /** `dict(None)` raises `TypeError`. */
  lemma DictFromNone()
    ensures DictFrom(Null).Failure? && DictFrom(Null).error.TypeError?
  {
  }

  /** `dict([['Host', 'x']])` is `{'Host': 'x'}`. */
  lemma DictFromPairList()
    ensures DictFrom(Seq(List, [Seq(List, [Str("Host"), Str("x")])])) == Success(Dict(["Host"], map["Host" := Str("x")]))
  {
    var pair := Seq(List, [Str("Host"), Str("x")]);
    var e := [("Host", Str("x"))];
    OnePair(pair, "Host", Str("x"));
    assert e[..|e| - 1] == [];
    assert DictOf(e) == Dict(["Host"], map["Host" := Str("x")]);
  }

  lemma OnePair(pair: Value, k: string, v: Value)
    requires PairOf(pair) == Success((k, v))
    ensures PairsOf([pair]) == Success([(k, v)])
  {
    var r := PairsOf([pair]);
    assert [pair][0] == pair;
    assert r.Success? && |r.value| == 1 && r.value[0] == (k, v);
    assert r.value == [(k, v)];
  }

  /** The selection entries a paginated response drops: the wrapper's own fields. */
  const PageFields: set<string> := {"data", "total_results", "totalResults"}

  const DataPrefix: string := "data/"

  /**
   * The selection of a paginated field as the source computes it: the wrapper's own fields
   * are dropped and every entry under `data/` has `replace('data/', '')` applied, which removes
   * every occurrence of `data/`, not only the leading one.
   */
  function PaginatedSelectionAsWritten(sel: seq<string>): (r: seq<string>)
    ensures |r| <= |sel|
    decreases |sel|
  {
    if |sel| == 0 then []
    else
      var s := sel[0];
      var rest := PaginatedSelectionAsWritten(sel[1..]);
      if s in PageFields then rest
      else [if IsPrefix(DataPrefix, s) then ReplaceAll(s, DataPrefix, "") else s] + rest
  }

  /**
   * The selection of a paginated field as intended: the wrapper's own fields are dropped and
   * the leading `data/` is stripped from the entries under `data`.
   */
  function PaginatedSelection(sel: seq<string>): (r: seq<string>)
    ensures |r| <= |sel|
    decreases |sel|
  {
    if |sel| == 0 then []
    else
      var s := sel[0];
      var rest := PaginatedSelection(sel[1..]);
      if s in PageFields then rest
      else [if IsPrefix(DataPrefix, s) then s[|DataPrefix|..] else s] + rest
  }

  /**
   * An entry is selected for each item iff it was selected under `data/`, or selected at the
   * top level and is neither under `data/` nor one of the wrapper's fields.
   */
  lemma {:induction false} PaginatedSelectionMembers(sel: seq<string>, x: string)
    ensures x in PaginatedSelection(sel) <==>
      (DataPrefix + x in sel) || (x in sel && !IsPrefix(DataPrefix, x) && x !in PageFields)
    decreases |sel|
  {
    if |sel| > 0 {
      var s := sel[0];
      PaginatedSelectionMembers(sel[1..], x);
      assert x in sel <==> x == s || x in sel[1..];
      assert DataPrefix + x in sel <==> DataPrefix + x == s || DataPrefix + x in sel[1..];
      var px := DataPrefix + x;
      assert IsPrefix(DataPrefix, px) && px[|DataPrefix|..] == x;
      assert px[0] == 'd' && |px| >= 5;
      if IsPrefix(DataPrefix, s) {
        assert s == DataPrefix + s[|DataPrefix|..];
      }
    }
  }

  /**
   * A field under `data/` whose own path mentions `data/` again loses that inner `data/` as
   * written, and keeps it when only the leading `data/` is stripped.
   */
  lemma NestedDataMangled(x: string, t: string)
    requires DataPrefix[0] !in x && !Occurs(DataPrefix, t) && |x| + |t| > 3
    ensures PaginatedSelectionAsWritten([DataPrefix + (x + DataPrefix + t)]) == [x + t]
    ensures PaginatedSelection([DataPrefix + (x + DataPrefix + t)]) == [x + DataPrefix + t]
  {
    var inner := x + DataPrefix + t;
    var s := DataPrefix + inner;
    DeleteBothCopies(x, t, DataPrefix);
    LongNotPageField(s);
    UnderData(inner);
    SelectionOfOne(s);
  }

  /** An entry `data/<inner>` is under `data/`, and stripping the prefix gives `inner` back. */
  lemma UnderData(inner: string)
    ensures IsPrefix(DataPrefix, DataPrefix + inner)
    ensures (DataPrefix + inner)[|DataPrefix|..] == inner
  {
  }

  /** The two selections of a single entry. */
  lemma SelectionOfOne(s: string)
    ensures PaginatedSelectionAsWritten([s])
      == if s in PageFields then [] else [if IsPrefix(DataPrefix, s) then ReplaceAll(s, DataPrefix, "") else s]
    ensures PaginatedSelection([s])
      == if s in PageFields then [] else [if IsPrefix(DataPrefix, s) then s[|DataPrefix|..] else s]
  {
    assert [s][1..] == [];
  }

  /** Counterexample: a field under `data/` whose own name contains `data/` loses it. */
  lemma PaginationMangles(s: string)
    requires s == "data/metadata/title"
    ensures PaginatedSelectionAsWritten([s]) == ["metatitle"]
    ensures PaginatedSelection([s]) == ["metadata/title"]
  {
    MangledPieces();
    MissingCharNeverOccurs(DataPrefix, "title", '/');
    NestedDataMangled("meta", "title");
  }

  lemma LongNotPageField(s: string)
    requires |s| > 13
    ensures s !in PageFields
  {
  }

  /** The counterexample entry, taken apart around its two copies of `data/`. */
  lemma MangledPieces()
    ensures "data/metadata/title" == DataPrefix + ("meta" + DataPrefix + "title")
    ensures DataPrefix[0] !in "meta" && '/' in DataPrefix && '/' !in "title"
    ensures "meta" + "title" == "metatitle"
    ensures "meta" + DataPrefix + "title" == "metadata/title"
  {
  }

  /** The two selections agree whenever no field under `data/` mentions `data/` again. */
  lemma {:induction false} PaginatedSelectionAgrees(sel: seq<string>)
    requires forall s :: s in sel && IsPrefix(DataPrefix, s) ==> !Occurs(DataPrefix, s[|DataPrefix|..])
    ensures PaginatedSelectionAsWritten(sel) == PaginatedSelection(sel)
    decreases |sel|
  {
    if |sel| > 0 {
      var s := sel[0];
      PaginatedSelectionAgrees(sel[1..]);
      if IsPrefix(DataPrefix, s) {
        ReplaceAbsent(s[|DataPrefix|..], DataPrefix, "");
        assert ReplaceAll(s, DataPrefix, "") == ReplaceAll(s[|DataPrefix|..], DataPrefix, "");
      }
    }
  }

  /**
   * How an AppSync handler is configured by `appsync_to_wsgi_of`: the graphene type of the
   * result, whether the resolver returns a list or a paginated wrapper, and the input type.
   */
  datatype AppSyncOptions = AppSyncOptions(graphene: TypeDesc, isList: bool, isPaginated: bool, inputType: Option<InputType>)

  /**
   * The response content built from the resolver's result: for a list, one projection per
   * item; for a paginated result, the projections of `result.data` under the stripped selection
   * with `result.total_results`; otherwise the projection of the result itself.
   */
  function ShapeResult(call: HookCall, opts: AppSyncOptions, sel: seq<string>, result: Value): (r: Result<Out, Exn>)
    ensures opts.isList && r.Success? ==>
      && Iterate(result).Success? && r.value.OList?
      && |r.value.items| == |Iterate(result).value|
      && forall k :: 0 <= k < |r.value.items| ==>
           ResolveFields(call, Iterate(result).value[k], Some(opts.graphene), sel) == Success(r.value.items[k])
    ensures opts.isList && Total(call) ==> (r.Success? <==> Iterate(result).Success?)
    ensures !opts.isList && opts.isPaginated && r.Success? ==>
      && result.Obj? && "data" in result.attrs && "total_results" in result.attrs
      && Iterate(result.attrs["data"]).Success?
      && r.value.OObject? && r.value.fields.Keys == {"data", "totalResults"}
      && r.value.fields["totalResults"] == OValue(result.attrs["total_results"])
      && r.value.fields["data"].OList?
      && |r.value.fields["data"].items| == |Iterate(result.attrs["data"]).value|
      && forall k :: 0 <= k < |r.value.fields["data"].items| ==>
           ResolveFields(call, Iterate(result.attrs["data"]).value[k], Some(opts.graphene), PaginatedSelection(sel))
             == Success(r.value.fields["data"].items[k])
    ensures !opts.isList && opts.isPaginated && Total(call) ==>
      (r.Success? <==> result.Obj? && "data" in result.attrs && "total_results" in result.attrs
                       && Iterate(result.attrs["data"]).Success?)
    ensures !opts.isList && !opts.isPaginated ==> r == ResolveFields(call, result, Some(opts.graphene), sel)
  {
    var ty := Some(opts.graphene);
    if opts.isList then
      var items :- Iterate(result);
      var outs :- ResolveEach(call, items, ty, sel);
      Success(OList(outs))
    else if opts.isPaginated then
      var data :- GetAttr(result, "data");
      var items :- Iterate(data);
      var outs :- ResolveEach(call, items, ty, PaginatedSelection(sel));
      var total :- GetAttr(result, "total_results");
      Success(OObject(map["data" := OList(outs), "totalResults" := OValue(total)]))
    else ResolveFields(call, result, ty, sel)
  }

  /** A list result wins over the paginated flag when both are set. */
  lemma ListBeforePaginated(call: HookCall, opts: AppSyncOptions, sel: seq<string>, result: Value)
    requires opts.isList && opts.isPaginated
    ensures ShapeResult(call, opts, sel, result) == ShapeResult(call, opts.(isPaginated := false), sel, result)
  {
  }

  // ---------------------------------------------------------------------------
  // API Gateway responses

  /** A dictionary's entries in insertion order. */
  function Entries(d: Value): seq<(string, Value)>
    requires d.Dict?
  {
    seq(|d.keys|, j requires 0 <= j < |d.keys| => (d.keys[j], DictGet(d, d.keys[j])))
  }

  const Defaults: seq<(string, Value)> := [("statusCode", Int(200)), ("body", Str("{}"))]

  /**
   * A `JsonResponse` from the resolver becomes `{'statusCode': 200, 'body': '{}', **content}`;
   * a content that is not a mapping cannot be spread and raises. Any other result is returned
   * as it is.
   */
  function Envelope(result: Value): (r: Result<Value, Exn>)
    ensures !result.JsonResp? ==> r == Success(result)
    ensures result.JsonResp? ==> (r.Success? <==> result.payload.Dict?)
    ensures result.JsonResp? && r.Success? ==>
      && r.value.Dict? && WellFormedDict(r.value)
      && forall k :: k in r.value.vals <==> k in {"statusCode", "body"} || k in result.payload.keys
  {
    if !result.JsonResp? then Success(result)
    else if !result.payload.Dict? then Failure(TypeError("argument after ** must be a mapping"))
    else
      var es := Defaults + Entries(result.payload);
      EntryKeysConcat(Defaults, Entries(result.payload));
      EntriesKeys(result.payload);
      assert EntryKeys(Defaults) == {"statusCode", "body"} by {
        assert Defaults[0].0 == "statusCode" && Defaults[1].0 == "body";
      }
      Success(DictOf(es))
  }

  lemma EntriesKeys(d: Value)
    requires d.Dict?
    ensures EntryKeys(Entries(d)) == set k | k in d.keys
  {
    var es := Entries(d);
    forall k | k in d.keys ensures k in EntryKeys(es) {
      var j :| 0 <= j < |d.keys| && d.keys[j] == k;
      assert es[j].0 == k;
    }
  }

  /** Fields the content does not set take the defaults: status 200 and an empty JSON body. */
  lemma EnvelopeDefaults(payload: Value)
    requires payload.Dict? && "statusCode" !in payload.keys && "body" !in payload.keys
    ensures Envelope(JsonResp(payload)).Success?
    ensures Envelope(JsonResp(payload)).value.vals["statusCode"] == Int(200)
    ensures Envelope(JsonResp(payload)).value.vals["body"] == Str("{}")
  {
    var es := Defaults + Entries(payload);
    assert forall k :: 0 < k < |es| ==> es[k].0 != "statusCode";
    assert forall k :: 1 < k < |es| ==> es[k].0 != "body";
    DictOfLastWins(es, 0);
    DictOfLastWins(es, 1);
  }

  /** Every field of the content, `statusCode` and `body` included, overrides the defaults. */
  lemma EnvelopeKeepsContent(payload: Value, j: nat)
    requires payload.Dict? && WellFormedDict(payload) && j < |payload.keys|
    ensures Envelope(JsonResp(payload)).Success?
    ensures Envelope(JsonResp(payload)).value.vals[payload.keys[j]] == payload.vals[payload.keys[j]]
  {
    assert Envelope(JsonResp(payload)) == Success(DictOf(Defaults + Entries(payload)));
    SpreadKeepsEntry(Defaults, payload, j);
  }

  /** Spreading a well-formed dictionary after some entries keeps each of its values. */
  lemma SpreadKeepsEntry(pre: seq<(string, Value)>, d: Value, j: nat)
    requires d.Dict? && WellFormedDict(d) && j < |d.keys|
    ensures d.keys[j] in DictOf(pre + Entries(d)).vals
    ensures DictOf(pre + Entries(d)).vals[d.keys[j]] == d.vals[d.keys[j]]
  {
    var es := pre + Entries(d);
    var at := |pre| + j;
    assert es[at] == (d.keys[j], DictGet(d, d.keys[j]));
    forall k | at < k < |es| ensures es[k].0 != es[at].0 {
      assert es[k] == Entries(d)[k - |pre|];
    }
    DictOfLastWins(es, at);
  }

  // ---------------------------------------------------------------------------
  // Handlers

  /**
   * The Django side: the request middlewares of `settings.MIDDLEWARE`, and what each one does
   * to a request on the way in (`enter`) and to the response content on the way out (`leave`).
   */
  datatype Django<!P> = Django(
    middlewares: seq<Transport.Middleware>,
    enter: (string, Request) -> Request,
    leave: (string, Request, Result<P, Exn>) -> Result<P, Exn>)

  /** `ResolveInfoHolder`: the field name, the lower-cased parent type and the request. */
  datatype Info = Info(fieldName: Value, operation: string, request: Request)

  /** The resolver's arguments `(root, info, **arguments)`. */
  datatype Call = Call(root: Value, info: Info, args: Value)

  /**
   * The graphene side: the `resolve_<field>` hooks of the types (which see the resolve info),
   * the resolution middlewares of `settings.GRAPHENE['MIDDLEWARE']` and what each one does to
   * the call on the way in and to the promise on the way out.
   */
  datatype Graphene = Graphene(
    hooks: Info -> HookCall,
    middlewares: seq<string>,
    before: (string, Call) -> Call,
    after: (string, Call, Result<Promises.Promise, Exn>) -> Result<Promises.Promise, Exn>)

  /**
   * Everything the AppSync handler reads from the event before the request enters the chain.
   * The selection is kept as read: a malformed one only fails once the result is shaped.
   */
  datatype AppSyncPrep = AppSyncPrep(request: Request, fieldName: Value, operation: string, root: Value, args: Value,
                                     selection: Result<seq<string>, Exn>)

  /**
   * `event_info.get('selectionSetList', [])`, as the field names the result is shaped by: a
   * missing list is empty, and a value that is not iterable or holds a non-string fails.
   */
  function SelectionOf(info: Value): (sel: Result<seq<string>, Exn>)
    requires info.Dict?
    ensures "selectionSetList" !in info.vals ==> sel == Success([])
    ensures "selectionSetList" in info.vals ==>
      var items := Iterate(info.vals["selectionSetList"]);
      && (sel.Success? <==> items.Success? && forall k :: 0 <= k < |items.value| ==> items.value[k].Str?)
      && (sel.Success? ==> |sel.value| == |items.value| && forall k :: 0 <= k < |sel.value| ==> Str(sel.value[k]) == items.value[k])
      && (sel.Failure? ==> sel.error.TypeError?)
  {
    if "selectionSetList" !in info.vals then Success([])
    else
      var items :- Iterate(info.vals["selectionSetList"]);
      if forall k :: 0 <= k < |items| ==> items[k].Str? then
        Success(seq(|items|, k requires 0 <= k < |items| => items[k].s))
      else
        Failure(TypeError("selection entry is not a string"))
  }

  /**
   * The first part of `appsync_handler`: the request, the field name, the root value and the
   * translated arguments, in the order the source evaluates them.
   */
  function AppSyncPrepare(event: Event, opts: AppSyncOptions, coerce: Value -> Result<Value, Exn>): (r: Result<AppSyncPrep, Exn>)
    ensures !EventGet(event, "request", EmptyDict).Dict? ==> r == Failure(AttributeError("get"))
    ensures r.Success? ==>
      var info := EventGet(event, "info", EmptyDict);
      && info.Dict?
      && RootOf(info) == Success(r.value.root)
      && r.value.fieldName == DictGet(info, "fieldName")
      && r.value.operation == LowerStr(DictGet(info, "parentTypeName").s)
      && TranslateArguments(EventGet(event, "arguments", EmptyDict), opts.inputType, coerce) == Success(r.value.args)
      && r.value.request.headers == Plain(DictGetOr(EventGet(event, "request", EmptyDict), "headers", EmptyDict))
      && r.value.request.httpMethod == Str("POST") && r.value.request.path == Str("/graphql")
      && r.value.selection == SelectionOf(info)
  {
    var reqv := EventGet(event, "request", EmptyDict);
    if !reqv.Dict? then Failure(AttributeError("get"))
    else
      var headers := DictGetOr(reqv, "headers", EmptyDict);
      var info := EventGet(event, "info", EmptyDict);
      if !info.Dict? then Failure(AttributeError("get"))
      else
        var fieldName := DictGet(info, "fieldName");
        var root :- RootOf(info);
        var args :- TranslateArguments(EventGet(event, "arguments", EmptyDict), opts.inputType, coerce);
        var request := Request(Plain(headers), Str("POST"), info, Str("/graphql"), None);
        Success(AppSyncPrep(request, fieldName, LowerStr(DictGet(info, "parentTypeName").s), root, args, SelectionOf(info)))
  }

  /**
   * `request_handler` of the AppSync handler, for the request the Django middlewares pass on:
   * run the resolver through the resolution middlewares and shape its result. The pipeline's
   * exception comes first, before a bad selection set is noticed; with no resolution
   * middleware that is the resolver's own exception.
   */
  function AppSyncCore(g: Graphene, resolver: Call -> Result<Value, Exn>, opts: AppSyncOptions, prep: AppSyncPrep, q: Request)
    : (r: Result<Out, Exn>)
    ensures var e := Promises.Execute(Promises.FoldResolutionMiddlewares(g.middlewares), resolver, g.before, g.after,
                                      Call(prep.root, Info(prep.fieldName, prep.operation, q), prep.args));
            && (e.Failure? ==> r == Failure(e.error))
            && (e.Success? && prep.selection.Failure? ==> r == Failure(prep.selection.error))
    ensures var v := resolver(Call(prep.root, Info(prep.fieldName, prep.operation, q), prep.args));
            g.middlewares == [] && v.Failure? ==> r == Failure(v.error)
  {
    var info := Info(prep.fieldName, prep.operation, q);
    var call := Call(prep.root, info, prep.args);
    var result :- Promises.Execute(Promises.FoldResolutionMiddlewares(g.middlewares), resolver, g.before, g.after, call);
    var selection :- prep.selection;
    ShapeResult(g.hooks(info), opts, selection, result)
  }

  /**
   * `appsync_to_wsgi_of(...)(resolver)` applied to an event. The Django middleware chain is built
   * when the module is imported, so a misconfigured middleware fails every invocation, warm-up
   * events included.
   */
  function AppSyncHandler(d: Django<Out>, g: Graphene, resolver: Call -> Result<Value, Exn>, opts: AppSyncOptions,
                          coerce: Value -> Result<Value, Exn>, event: Event): (r: Result<Out, Exn>)
    ensures Transport.WrapHandler(d.middlewares).Failure? ==> r == Failure(Transport.WrapHandler(d.middlewares).error)
    ensures Transport.WrapHandler(d.middlewares).Success? && IsWarmup(event) ==> r == Success(OValue(Null))
    ensures !IsWarmup(event) && AppSyncPrepare(event, opts, coerce).Failure? ==>
      r.Failure? && (Transport.WrapHandler(d.middlewares).Success? ==> r.error == AppSyncPrepare(event, opts, coerce).error)
  {
    var chain :- Transport.WrapHandler(d.middlewares);
    WithWarmup(OValue(Null),
      (e: Event) =>
        var prep :- AppSyncPrepare(e, opts, coerce);
        Run(chain, d.enter, d.leave, (q: Request) => AppSyncCore(g, resolver, opts, prep, q), prep.request),
      event)
  }

  /**
   * With middlewares that only pass calls through, the AppSync handler answers the shaped result
   * of one resolver call on the prepared arguments.
   */
  lemma AppSyncTransparent(d: Django<Out>, g: Graphene, resolver: Call -> Result<Value, Exn>, opts: AppSyncOptions,
                           coerce: Value -> Result<Value, Exn>, event: Event)
    requires !IsWarmup(event)
    requires forall k :: 0 <= k < |d.middlewares| ==> d.middlewares[k].returnsHandler
    requires forall n, q :: d.enter(n, q) == q
    requires forall n, q, p :: d.leave(n, q, p) == p
    requires forall n, c :: g.before(n, c) == c
    requires forall n, c, p :: g.after(n, c, p) == p
    requires AppSyncPrepare(event, opts, coerce).Success?
    ensures var prep := AppSyncPrepare(event, opts, coerce).value;
            var info := Info(prep.fieldName, prep.operation, prep.request);
            AppSyncHandler(d, g, resolver, opts, coerce, event)
              == (var result :- resolver(Call(prep.root, info, prep.args));
                  var selection :- prep.selection;
                  ShapeResult(g.hooks(info), opts, selection, result))
  {
    var prep := AppSyncPrepare(event, opts, coerce).value;
    var chain := Transport.WrapHandler(d.middlewares).value;
    var core := (q: Request) => AppSyncCore(g, resolver, opts, prep, q);
    var info := Info(prep.fieldName, prep.operation, prep.request);
    Promises.ExecuteTransparent(Promises.FoldResolutionMiddlewares(g.middlewares), resolver, g.before, g.after,
                                Call(prep.root, info, prep.args));
  }

  /** Everything the API Gateway handler reads from the event before the request enters the chain. */
  datatype RestPrep = RestPrep(request: Request, params: Value)

  /** The event's `headers`, when a dictionary, has the shape of a Python dictionary. */
  ghost predicate RestEvent(event: Event) {
    var h := EventGet(event, "headers", EmptyDict);
    h.Dict? ==> WellFormedDict(h)
  }

  /**
   * The first part of `apigateway_handler`: the case-insensitive headers, path, info, body,
   * path parameters (`None` read as `{}`) and method; a `multipart/` content type has the body
   * parsed into the uploaded file by `multipart`.
   */
  function RestPrepare(event: Event, multipart: Value -> Result<Value, Exn>): (r: Result<RestPrep, Exn>)
    requires RestEvent(event)
    ensures DictFrom(EventGet(event, "headers", EmptyDict)).Failure? ==>
      r == Failure(DictFrom(EventGet(event, "headers", EmptyDict)).error)
    ensures r.Success? ==>
      var h := DictFrom(EventGet(event, "headers", EmptyDict));
      && h.Success?
      && r.value.request.headers == Folded(Headers.Converted(Headers.Raw(h.value.keys, h.value.vals)))
      && r.value.request.httpMethod == EventGet(event, "httpMethod", Str("POST"))
      && r.value.request.path == EventGet(event, "path", Str(""))
      && r.value.request.body == EventGet(event, "info", EmptyDict)
      && (EventGet(event, "pathParameters", EmptyDict) == Null ==> r.value.params == EmptyDict)
      && (EventGet(event, "pathParameters", EmptyDict) != Null ==> r.value.params == EventGet(event, "pathParameters", EmptyDict))
      && var ct := Headers.GetOr(r.value.request.headers.m, "Content-Type", Str(""));
         ct.Str? && (r.value.request.files.Some? <==> IsPrefix("multipart/", ct.s))
  {
    var hv :- DictFrom(EventGet(event, "headers", EmptyDict));
    var headers := Headers.Converted(Headers.Raw(hv.keys, hv.vals));
    var path := EventGet(event, "path", Str(""));
    var info := EventGet(event, "info", EmptyDict);
    var body := EventGet(event, "body", Str(""));
    var params := EventGet(event, "pathParameters", EmptyDict);
    var params := if params == Null then EmptyDict else params;
    var verb := EventGet(event, "httpMethod", Str("POST"));
    var ct := Headers.GetOr(headers, "Content-Type", Str(""));
    if !ct.Str? then Failure(AttributeError("startswith"))
    else
      var files :- if IsPrefix("multipart/", ct.s) then (var f :- multipart(body); Success(Some(f))) else Success(None);
      Success(RestPrep(Request(Folded(headers), verb, info, path, files), params))
  }

  /** `request_handler` of the API Gateway handler: call the resolver with the path parameters. */
  function RestCore(resolver: (Request, Value) -> Result<Value, Exn>, params: Value, q: Request): (r: Result<Value, Exn>)
    ensures !params.Dict? ==> r.Failure? && r.error.TypeError?
    ensures params.Dict? && resolver(q, params).Failure? ==> r == Failure(resolver(q, params).error)
    ensures params.Dict? && resolver(q, params).Success? ==> r == Envelope(resolver(q, params).value)
  {
    if !params.Dict? then Failure(TypeError("argument after ** must be a mapping"))
    else
      var result :- resolver(q, params);
      Envelope(result)
  }

  /**
   * `apigateway_to_wsgi(resolver)` applied to an event. The handler lives in the module whose
   * import wraps the shared handler with the middlewares, so a factory returning `None` fails
   * before any event, warm-up included; the chain the handler builds for each call is the same.
   */
  function RestHandler(d: Django<Value>, resolver: (Request, Value) -> Result<Value, Exn>,
                       multipart: Value -> Result<Value, Exn>, event: Event): (r: Result<Value, Exn>)
    requires RestEvent(event)
    ensures Transport.WrapHandler(d.middlewares).Failure? ==> r == Failure(Transport.WrapHandler(d.middlewares).error)
    ensures Transport.WrapHandler(d.middlewares).Success? && IsWarmup(event) ==> r == Success(Null)
    ensures !IsWarmup(event) && RestPrepare(event, multipart).Failure? ==>
      r.Failure? && (Transport.WrapHandler(d.middlewares).Success? ==> r.error == RestPrepare(event, multipart).error)
  {
    var chain :- Transport.WrapHandler(d.middlewares);
    WithWarmup(Null,
      (e: Event) requires RestEvent(e) =>
        var prep :- RestPrepare(e, multipart);
        Run(chain, d.enter, d.leave, (q: Request) => RestCore(resolver, prep.params, q), prep.request),
      event)
  }

  /**
   * API Gateway may send `"headers": null`; the handler then raises `TypeError` before any
   * middleware runs, unless the import already failed.
   */
  lemma RestNullHeaders(d: Django<Value>, resolver: (Request, Value) -> Result<Value, Exn>,
                        multipart: Value -> Result<Value, Exn>, event: Event)
    requires !IsWarmup(event) && "headers" in event && event["headers"] == Null
    ensures RestHandler(d, resolver, multipart, event).Failure?
    ensures Transport.WrapHandler(d.middlewares).Success? ==> RestHandler(d, resolver, multipart, event).error.TypeError?
    ensures Transport.WrapHandler(d.middlewares).Failure? ==>
      RestHandler(d, resolver, multipart, event).error == Transport.WrapHandler(d.middlewares).error
  {
  }

  /**
   * With middlewares that only pass calls through, the API Gateway handler answers the
   * enveloped result of one resolver call on the prepared request.
   */
  lemma RestTransparent(d: Django<Value>, resolver: (Request, Value) -> Result<Value, Exn>,
                        multipart: Value -> Result<Value, Exn>, event: Event)
    requires RestEvent(event) && !IsWarmup(event)
    requires forall k :: 0 <= k < |d.middlewares| ==> d.middlewares[k].returnsHandler
    requires forall n, q :: d.enter(n, q) == q
    requires forall n, q, p :: d.leave(n, q, p) == p
    requires RestPrepare(event, multipart).Success?
    ensures var prep := RestPrepare(event, multipart).value;
            RestHandler(d, resolver, multipart, event) == RestCore(resolver, prep.params, prep.request)
  {
    var prep := RestPrepare(event, multipart).value;
    var chain := Transport.WrapHandler(d.middlewares).value;
  }

  /**
   * The host of an API Gateway request is found whatever casing the client used, provided the
   * header is sent under one spelling only.
   */
  lemma RestHostAnyCasing(event: Event, multipart: Value -> Result<Value, Exn>, i: nat, j: nat)
    requires RestEvent(event) && RestPrepare(event, multipart).Success?
    requires var h := DictFrom(EventGet(event, "headers", EmptyDict)).value;
      && i < |h.keys| && j < |h.keys|
      && Headers.Key(h.keys[i]) == "host" && Headers.Key(h.keys[j]) == "x-forwarded-port"
      && (forall k :: 0 <= k < |h.keys| && k != i ==> Headers.Key(h.keys[k]) != "host")
      && (forall k :: 0 <= k < |h.keys| && k != j ==> Headers.Key(h.keys[k]) != "x-forwarded-port")
    ensures var h := DictFrom(EventGet(event, "headers", EmptyDict)).value;
      RawHost(RestPrepare(event, multipart).value.request) == Success((h.vals[h.keys[i]], h.vals[h.keys[j]]))
  {
    var h := DictFrom(EventGet(event, "headers", EmptyDict)).value;
    var r := Headers.Raw(h.keys, h.vals);
    LowerStrIdentity("host");
    LowerStrIdentity("x-forwarded-port");
    Headers.SingleSpelling(r, i, "host");
    Headers.SingleSpelling(r, j, "x-forwarded-port");
  }
}

=== FILE: chains.dfy ===
/**
 * A chain of named middleware layers around a core handler. Both the Django request
 * middlewares and the graphene resolution middlewares form such a chain; only the order
 * in which they are folded differs.
 */
module Chains {

  /** `Layer(name, inner)` calls into `inner`; `Core` is the wrapped handler itself. */
  datatype Chain = Core | Layer(name: string, inner: Chain)

  /** The layer names from the outermost inwards. */
  function Names(c: Chain): (ns: seq<string>)
    ensures |ns| == Depth(c)
  {
    match c
    case Core => []
    case Layer(n, inner) => [n] + Names(inner)
  }

  function Depth(c: Chain): nat {
    match c
    case Core => 0
    case Layer(_, inner) => 1 + Depth(inner)
  }

  function Reverse<T>(s: seq<T>): (r: seq<T>)
    ensures |r| == |s|
    ensures forall k :: 0 <= k < |s| ==> r[k] == s[|s| - 1 - k]
  {
    if |s| == 0 then [] else Reverse(s[1..]) + [s[0]]
  }

  lemma {:induction false} ReverseSnoc<T>(s: seq<T>, x: T)
    ensures Reverse(s + [x]) == [x] + Reverse(s)
    decreases |s|
  {
    if |s| > 0 {
      ReverseSnoc(s[1..], x);
      assert (s + [x])[1..] == s[1..] + [x];
    }
  }

  /**
   * Running a request `q` through the chain: each layer may rewrite the request on the way in
   * (`before`) and the response on the way out (`after`); the core answers the request that
   * reaches it. Layers that pass requests and responses through unchanged leave the core's
   * answer.
   */
  function Run<Q(!new), P(!new)>(c: Chain, before: (string, Q) -> Q, after: (string, Q, P) -> P, core: Q -> P, q: Q): (r: P)
    ensures (forall n, x :: before(n, x) == x) && (forall n, x, p :: after(n, x, p) == p) ==> r == core(q)
  {
    match c
    case Core => core(q)
    case Layer(n, inner) => after(n, q, Run(inner, before, after, core, before(n, q)))
  }

  function Tagged(tag: string, ns: seq<string>): (r: seq<string>)
    ensures |r| == |ns|
  {
    seq(|ns|, k requires 0 <= k < |ns| => tag + ns[k])
  }

  function Enter(n: string, q: seq<string>): seq<string> {
    q + ["enter " + n]
  }

  function Exit(n: string, q: seq<string>, p: seq<string>): seq<string> {
    p + ["exit " + n]
  }

  function Handle(q: seq<string>): seq<string> {
    q + ["handle"]
  }

  /**
   * Order of execution, observed with layers that log their name: every layer is entered from
   * the outermost inwards, the core runs once, and the layers are left in the reverse order.
   */
  lemma {:induction false} RunOrder(c: Chain, log: seq<string>)
    ensures Run(c, Enter, Exit, Handle, log)
         == log + Tagged("enter ", Names(c)) + ["handle"] + Tagged("exit ", Reverse(Names(c)))
  {
    match c
    case Core =>
      assert Names(c) == [];
    case Layer(n, inner) =>
      var ns := Names(inner);
      var log' := log + ["enter " + n];
      calc {
        Run(c, Enter, Exit, Handle, log);
        Run(inner, Enter, Exit, Handle, log') + ["exit " + n];
        { RunOrder(inner, log'); }
        log' + Tagged("enter ", ns) + ["handle"] + Tagged("exit ", Reverse(ns)) + ["exit " + n];
        { TaggedCons("enter ", n, ns); TaggedSnoc("exit ", Reverse(ns), n); }
        log + Tagged("enter ", [n] + ns) + ["handle"] + Tagged("exit ", Reverse(ns) + [n]);
        { assert Reverse([n] + ns) == Reverse(ns) + [n]; }
        log + Tagged("enter ", Names(c)) + ["handle"] + Tagged("exit ", Reverse(Names(c)));
      }
  }

  lemma TaggedCons(tag: string, n: string, ns: seq<string>)
    ensures Tagged(tag, [n] + ns) == [tag + n] + Tagged(tag, ns)
  {
  }

  lemma TaggedSnoc(tag: string, ns: seq<string>, n: string)
    ensures Tagged(tag, ns + [n]) == Tagged(tag, ns) + [tag + n]
  {
  }
}

=== FILE: config.dfy ===
/**
 * `ResolverConfig`: how one resolver Lambda is declared. The deployment helpers read it to
 * wire the resolver into AppSync or API Gateway and to generate the handler file around it.
 */
module Config {
  import opened Wrappers

  /**
   * The dataclass's fields in declaration order. `alias` stands for the `function` field, the
   * Lambda alias attached after construction, identified here by its name.
   */
  datatype ResolverConfig = ResolverConfig(
    name: string,
    grapheneType: string,
    operation: string,
    path: string,
    alias: string,
    isList: bool,
    isPaginated: bool,
    inputType: string,
    restPath: string,
    scaleOnUsage: bool,
    persistModelConnection: Option<string>)

  /**
   * A configuration built with only the required fields; every other field has its default.
   * The alias is not a constructor argument: the source leaves the attribute unset until it is
   * assigned, which is modelled as the empty alias.
   */
  function NewResolverConfig(name: string, grapheneType: string, operation: string, path: string): (c: ResolverConfig)
    ensures c.name == name && c.grapheneType == grapheneType && c.operation == operation && c.path == path
    ensures c.alias == "" && !c.isList && !c.isPaginated && c.inputType == "None" && c.restPath == ""
    ensures !c.scaleOnUsage && c.persistModelConnection.None?
  {
    ResolverConfig(name, grapheneType, operation, path, "", false, false, "None", "", false, None)
  }

  /** `config.function = alias`: the Lambda alias is attached once it exists; nothing else changes. */
  function WithAlias(c: ResolverConfig, alias: string): (r: ResolverConfig)
    ensures r.alias == alias
    ensures r.(alias := c.alias) == c
  {
    c.(alias := alias)
  }

  /** Queries and mutations are served through AppSync; every other operation is a REST verb. */
  predicate IsGraphqlOperation(op: string) {
    op in {"Query", "Mutation"}
  }
}

=== FILE: fields.dfy ===
/**
 * `resolve_fields`: projects a resolver result through AppSync's flat selection list
 * (`id`, `owner`, `owner/name`, ...) into a sparse nested response.
 */
module Fields {
  import opened Wrappers
  import opened Strings
  import opened Values
  import Naming
  import Formats

  /**
   * Calling the hook `resolve_<field>` of a graphene type on an instance (the resolve info is
   * fixed for one request, so it is part of the function).
   */
  type HookCall = (TypeDesc, string, Value) -> Result<Value, Exn>

  /** Hooks that never raise. */
  ghost predicate Total(call: HookCall) {
    forall t, f, v :: call(t, f, v).Success?
  }

  /** The response tree: leaves are serialised values, inner nodes mappings or lists. */
  datatype Out = OValue(v: Value) | OObject(fields: map<string, Out>) | OList(items: seq<Out>)

  // ---------------------------------------------------------------------------
  // Selections

  /** The entries of a selection that name a field of this level. */
  function Selected(sel: seq<string>): set<string> {
    set x | x in sel && '/' !in x
  }

  /** The entries that start with `prefix`, with the prefix removed, in order. */
  function Strip(sel: seq<string>, prefix: string): (sub: seq<string>)
    ensures |sub| <= |sel|
    ensures forall x :: x in sub <==> prefix + x in sel
    ensures (exists s :: s in sel && !IsPrefix(prefix, s)) ==> |sub| < |sel|
    ensures |sub| == 0 <==> forall s :: s in sel ==> !IsPrefix(prefix, s)
    decreases |sel|
  {
    if |sel| == 0 then []
    else
      var rest := Strip(sel[1..], prefix);
      assert forall s :: s in sel <==> s == sel[0] || s in sel[1..];
      assert forall x :: prefix + x in sel <==> prefix + x == sel[0] || prefix + x in sel[1..];
      assert IsPrefix(prefix, sel[0]) ==> prefix + sel[0][|prefix|..] == sel[0];
      assert forall x :: prefix + x == sel[0] ==> IsPrefix(prefix, sel[0]) && sel[0][|prefix|..] == x;
      (if IsPrefix(prefix, sel[0]) then [sel[0][|prefix|..]] else []) + rest
  }

  /** The child selection of field `f`: every entry under `f/`, with that prefix stripped. */
  function SubSelection(sel: seq<string>, f: string): (sub: seq<string>)
    ensures f in sel ==> |sub| < |sel|
    ensures forall x :: x in sub <==> f + "/" + x in sel
    ensures |sub| == 0 <==> forall s :: s in sel ==> !IsPrefix(f + "/", s)
  {
    if f in sel then assert !IsPrefix(f + "/", f); Strip(sel, f + "/") else Strip(sel, f + "/")
  }

  // ---------------------------------------------------------------------------
  // Field values

  /** `__typename`: the type's class name, or `None` without a type. */
  function TypeName(ty: Option<TypeDesc>): Value {
    if ty.Some? then Str(ty.value.name) else Null
  }

  /** Some source provides a value for the field (otherwise the placeholder is returned). */
  predicate Provided(ty: Option<TypeDesc>, i: Value, snake: string) {
    || (ty.Some? && snake in ty.value.hooks)
    || i.Dict?
    || (i.Obj? && i.reverse.Some? && snake in i.reverse.value.hooks)
    || (i.Obj? && snake in i.attrs)
  }

  /**
   * `default_resolver`: a dict answers `get(snake)`; a model first asks the hook of the type
   * it reverse-links to, then its own attribute; anything else gives the placeholder.
   */
  function DefaultResolver(call: HookCall, i: Value, snake: string): (r: Result<Value, Exn>)
    ensures i.Dict? ==> r == Success(if snake in i.vals then i.vals[snake] else Null)
    ensures r.Failure? ==> i.Obj? && i.reverse.Some? && snake in i.reverse.value.hooks
                           && r == call(i.reverse.value, snake, i)
    ensures !i.Dict? && !(i.Obj? && ((i.reverse.Some? && snake in i.reverse.value.hooks) || snake in i.attrs))
        ==> r == Success(Missing)
  {
    match i
    case Dict(_, _) => Success(DictGet(i, snake))
    case Obj(attrs, rev) =>
      if rev.Some? && snake in rev.value.hooks then call(rev.value, snake, i)
      else if snake in attrs then Success(attrs[snake])
      else Success(Missing)
    case _ => Success(Missing)
  }

  /**
   * `getattr(type_, 'resolve_<snake>', default_resolver)(instance, info)`, with the lookup
   * order: hook of the type, dictionary entry, hook of the reverse-linked type, attribute.
   */
  function FieldValue(call: HookCall, ty: Option<TypeDesc>, i: Value, snake: string): (r: Result<Value, Exn>)
    ensures ty.Some? && snake in ty.value.hooks ==> r == call(ty.value, snake, i)
    ensures !(ty.Some? && snake in ty.value.hooks) && i.Dict? ==>
      r == Success(if snake in i.vals then i.vals[snake] else Null)
    ensures !Provided(ty, i, snake) ==> r == Success(Missing)
    ensures (&& i.Obj? && !(ty.Some? && snake in ty.value.hooks)
             && i.reverse.Some? && snake in i.reverse.value.hooks)
        ==> r == call(i.reverse.value, snake, i)
    ensures (&& i.Obj? && !(ty.Some? && snake in ty.value.hooks)
             && !(i.reverse.Some? && snake in i.reverse.value.hooks) && snake in i.attrs)
        ==> r == Success(i.attrs[snake])
    ensures Total(call) ==> r.Success?
  {
    if ty.Some? && snake in ty.value.hooks then call(ty.value, snake, i)
    else DefaultResolver(call, i, snake)
  }

  /**
   * `serialize_value`: datetimes (checked before dates), dates and UUIDs become their text form,
   * a generator becomes the list of its items, everything else is returned unchanged.
   */
  function Serialize(v: Value): (r: Value)
    ensures !r.Uuid? && !r.Date? && !r.DateTime? && !r.Generator?
    ensures !v.Uuid? && !v.Date? && !v.DateTime? && !v.Generator? ==> r == v
    ensures v.Generator? ==> r == Seq(List, v.items)
  {
    match v
    case Uuid(n) => Str(Formats.FormatUuid(n))
    case DateTime(y, mo, d, h, mi, s) => Str(Formats.FormatDateTime(y, mo, d, h, mi, s))
    case Date(y, mo, d) => Str(Formats.FormatDate(y, mo, d))
    case Generator(items) => Seq(List, items)
    case _ => v
  }

  /** Serialising a serialised value changes nothing. */
  lemma SerializeIdempotent(v: Value)
    ensures Serialize(Serialize(v)) == Serialize(v)
  {
  }

  /** Rendered dates, datetimes and UUIDs can be read back to the value they came from. */
  lemma SerializeReadsBack(v: Value)
    requires v.Date? ==> v.year <= 9999 && v.month < 100 && v.day < 100
    requires v.DateTime? ==> v.year <= 9999 && v.month < 100 && v.day < 100 && v.hour < 100 && v.minute < 100 && v.second < 100
    requires v.Uuid? ==> v.value < Formats.UuidBound
    ensures v.Date? ==> Formats.ParseDate(Serialize(v).s) == Some((v.year, v.month, v.day))
    ensures v.DateTime? ==> Formats.ParseDateTime(Serialize(v).s) == Some((v.year, v.month, v.day, v.hour, v.minute, v.second))
    ensures v.Uuid? ==> Formats.ParseUuid(Serialize(v).s) == Some(v.value)
  {
    match v
    case Date(y, mo, d) => Formats.DateRoundTrip(y, mo, d);
    case DateTime(y, mo, d, h, mi, s) => Formats.DateTimeRoundTrip(y, mo, d, h, mi, s);
    case Uuid(n) => Formats.UuidRoundTrip(n);
    case _ =>
  }

  /** Values the resolver walks element by element (`list`, `QuerySet`, or a manager's `.all()`). */
  predicate IsListLike(v: Value) {
    (v.Seq? && (v.kind == List || v.kind == QuerySet)) || v.Manager?
  }

  // ---------------------------------------------------------------------------
  // The projection

  /**
   * `resolve_fields(instance, type_, selection_set, info)`: `None` for a `None` instance,
   * otherwise a mapping whose keys are exactly the selection entries without `/`.
   */
  function ResolveFields(call: HookCall, instance: Value, ty: Option<TypeDesc>, sel: seq<string>): (r: Result<Out, Exn>)
    ensures Total(call) ==> r.Success?
    ensures r.Success? && instance == Null ==> r.value == OValue(Null)
    ensures r.Success? && instance != Null ==> r.value.OObject? && r.value.fields.Keys == Selected(sel)
    decreases |sel|, 1, 0
  {
    if instance == Null then Success(OValue(Null))
    else
      var m :- ResolveEntries(call, instance, ty, sel, 0, map[]);
      assert sel[0..] == sel;
      Success(OObject(m))
  }

  /** The loop over the selection entries from position `i`, with the mapping built so far. */
  function ResolveEntries(call: HookCall, instance: Value, ty: Option<TypeDesc>, sel: seq<string>, i: nat, acc: map<string, Out>)
    : (r: Result<map<string, Out>, Exn>)
    requires i <= |sel|
    ensures Total(call) ==> r.Success?
    ensures r.Success? ==> r.value.Keys == acc.Keys + Selected(sel[i..])
    decreases |sel|, 0, |sel| - i
  {
    if i == |sel| then Success(acc)
    else
      var f := sel[i];
      assert sel[i..] == [f] + sel[i + 1..];
      if f == "__typename" then
        ResolveEntries(call, instance, ty, sel, i + 1, acc[f := OValue(TypeName(ty))])
      else if '/' in f then
        ResolveEntries(call, instance, ty, sel, i + 1, acc)
      else
        var sub := SubSelection(sel, f);
        var fv :- FieldValue(call, ty, instance, Naming.CamelToSnake(f));
        var o :- ResolveField(call, fv, sub);
        ResolveEntries(call, instance, ty, sel, i + 1, acc[f := o])
  }

  /**
   * One field's entry from its value and child selection: a leaf is serialised; a non-leaf
   * `None` stays `None`; a list, `QuerySet` or manager becomes one nested result per element,
   * in order; any other value becomes one nested mapping. Children never have a type.
   */
  function ResolveField(call: HookCall, fv: Value, sub: seq<string>): (r: Result<Out, Exn>)
    ensures Total(call) ==> r.Success?
    ensures |sub| == 0 ==> r == Success(OValue(Serialize(fv)))
    ensures |sub| > 0 && fv == Null ==> r == Success(OValue(Null))
    ensures |sub| > 0 && fv != Null && IsListLike(fv) && r.Success? ==>
      && r.value.OList? && |r.value.items| == |fv.items|
      && forall k :: 0 <= k < |fv.items| ==> ResolveFields(call, fv.items[k], None, sub) == Success(r.value.items[k])
    ensures |sub| > 0 && fv != Null && !IsListLike(fv) ==> r == ResolveFields(call, fv, None, sub)
    decreases |sub|, 3
  {
    if |sub| == 0 then Success(OValue(Serialize(fv)))
    else if fv == Null then Success(OValue(Null))
    else
      var v := if fv.Manager? then Seq(QuerySet, fv.items) else fv;
      if v.Seq? && (v.kind == List || v.kind == QuerySet) then
        var xs :- ResolveEach(call, v.items, None, sub);
        Success(OList(xs))
      else ResolveFields(call, v, None, sub)
  }

  /**
   * A list comprehension `[resolve_fields(x, ty, sub, info) for x in items]`: one result per
   * item, in order; the first exception raised stops it.
   */
  function ResolveEach(call: HookCall, items: seq<Value>, ty: Option<TypeDesc>, sub: seq<string>): (r: Result<seq<Out>, Exn>)
    ensures Total(call) ==> r.Success?
    ensures r.Success? ==> |r.value| == |items|
    ensures r.Success? ==> forall k :: 0 <= k < |items| ==> ResolveFields(call, items[k], ty, sub) == Success(r.value[k])
    ensures r.Failure? ==> exists k :: 0 <= k < |items| && ResolveFields(call, items[k], ty, sub) == Failure(r.error)
    decreases |sub|, 2, |items|
  {
    if |items| == 0 then Success([])
    else
      var h :- ResolveFields(call, items[0], ty, sub);
      var t :- ResolveEach(call, items[1..], ty, sub);
      assert forall k :: 1 <= k < |items| ==> items[k] == items[1..][k - 1];
      Success([h] + t)
  }

  // ---------------------------------------------------------------------------
  // Per-field characterisation

  /** What a single selected field resolves to, independently of where it sits in the list. */
  function FieldOut(call: HookCall, instance: Value, ty: Option<TypeDesc>, sel: seq<string>, f: string): Result<Out, Exn>
    requires f in sel
  {
    if f == "__typename" then Success(OValue(TypeName(ty)))
    else
      var fv :- FieldValue(call, ty, instance, Naming.CamelToSnake(f));
      ResolveField(call, fv, SubSelection(sel, f))
  }

  ghost predicate Agrees(call: HookCall, instance: Value, ty: Option<TypeDesc>, sel: seq<string>, m: map<string, Out>) {
    forall f :: f in m ==> f in sel && FieldOut(call, instance, ty, sel, f) == Success(m[f])
  }

  lemma AgreesExtend(call: HookCall, instance: Value, ty: Option<TypeDesc>, sel: seq<string>, m: map<string, Out>, f: string, o: Out)
    requires Agrees(call, instance, ty, sel, m)
    requires f in sel && FieldOut(call, instance, ty, sel, f) == Success(o)
    ensures Agrees(call, instance, ty, sel, m[f := o])
  {
  }

  lemma {:induction false} EntriesAgree(call: HookCall, instance: Value, ty: Option<TypeDesc>, sel: seq<string>, i: nat, acc: map<string, Out>)
    requires i <= |sel|
    requires Agrees(call, instance, ty, sel, acc)
    requires ResolveEntries(call, instance, ty, sel, i, acc).Success?
    ensures Agrees(call, instance, ty, sel, ResolveEntries(call, instance, ty, sel, i, acc).value)
    decreases |sel| - i
  {
    if i < |sel| {
      var f := sel[i];
      if f == "__typename" {
        AgreesExtend(call, instance, ty, sel, acc, f, OValue(TypeName(ty)));
        EntriesAgree(call, instance, ty, sel, i + 1, acc[f := OValue(TypeName(ty))]);
      } else if '/' in f {
        EntriesAgree(call, instance, ty, sel, i + 1, acc);
      } else {
        var rv := FieldValue(call, ty, instance, Naming.CamelToSnake(f));
        assert rv.Success?;
        var ro := ResolveField(call, rv.value, SubSelection(sel, f));
        assert ro.Success?;
        assert FieldOut(call, instance, ty, sel, f) == ro;
        AgreesExtend(call, instance, ty, sel, acc, f, ro.value);
        EntriesAgree(call, instance, ty, sel, i + 1, acc[f := ro.value]);
      }
    }
  }

  /**
   * Every key of a resolved mapping holds exactly what its field resolves to on its own:
   * `__typename` the type's name (or `None`) without consulting the instance, any other field
   * its looked-up value projected through its child selection.
   */
  lemma ResolvedFieldsAgree(call: HookCall, instance: Value, ty: Option<TypeDesc>, sel: seq<string>, f: string)
    requires ResolveFields(call, instance, ty, sel).Success?
    requires instance != Null && f in sel && '/' !in f
    ensures f in ResolveFields(call, instance, ty, sel).value.fields
    ensures FieldOut(call, instance, ty, sel, f) == Success(ResolveFields(call, instance, ty, sel).value.fields[f])
    ensures f == "__typename" ==> ResolveFields(call, instance, ty, sel).value.fields[f] == OValue(TypeName(ty))
  {
    EntriesAgree(call, instance, ty, sel, 0, map[]);
  }

  /** A selected field with nothing selected below it is a serialised leaf. */
  lemma LeafField(call: HookCall, instance: Value, ty: Option<TypeDesc>, sel: seq<string>, f: string)
    requires ResolveFields(call, instance, ty, sel).Success?
    requires instance != Null && f in sel && '/' !in f && f != "__typename"
    requires forall s :: s in sel ==> !IsPrefix(f + "/", s)
    ensures FieldValue(call, ty, instance, Naming.CamelToSnake(f)).Success?
    ensures ResolveFields(call, instance, ty, sel).value.fields[f]
         == OValue(Serialize(FieldValue(call, ty, instance, Naming.CamelToSnake(f)).value))
  {
    ResolvedFieldsAgree(call, instance, ty, sel, f);
  }
}

=== FILE: formats.dfy ===
/**
 * Text forms of the leaf values the field resolver renders: `date.strftime('%Y-%m-%d')`,
 * `datetime.strftime('%Y-%m-%dT%H:%M:%SZ')` and `str(UUID)`. Each renderer has a parser as
 * its partner, and the round trip shows the rendering loses nothing.
 */
module Formats {
  import opened Wrappers

  // ---------------------------------------------------------------------------
  // Zero-padded numerals

  function DigitChar(d: nat): (c: char)
    requires d < 16
    ensures DigitValue(c) == Some(d)
  {
    if d < 10 then ('0' as int + d) as char else ('a' as int + d - 10) as char
  }

  /** The value of one lower-case hexadecimal digit, or `None` for any other character. */
  function DigitValue(c: char): Option<nat> {
    if '0' <= c <= '9' then Some(c as int - '0' as int)
    else if 'a' <= c <= 'f' then Some(c as int - 'a' as int + 10)
    else None
  }

  predicate IsDigitIn(c: char, base: nat) {
    DigitValue(c).Some? && DigitValue(c).value < base
  }

  predicate AllDigits(s: string, base: nat) {
    forall i :: 0 <= i < |s| ==> IsDigitIn(s[i], base)
  }

  function Pow(base: nat, e: nat): nat {
    if e == 0 then 1 else base * Pow(base, e - 1)
  }

  lemma DivFacts(n: nat, base: nat)
    requires 2 <= base
    ensures n % base < base
    ensures n / base <= n
    ensures n >= base ==> n / base < n
    ensures n < base ==> n % base == n
    ensures n == n / base * base + n % base
  {
    var q, r := n / base, n % base;
    assert n == q * base + r && 0 <= r < base;
    assert q >= 0;
    MulAtLeastTwice(q, base);
    if n >= base {
      assert q != 0;
    }
  }

  lemma MulAtLeastTwice(q: nat, base: nat)
    requires 2 <= base
    ensures q * base >= 2 * q
  {
    assert q * base == q * (base - 2) + 2 * q;
  }

  /** Dropping the last digit of a number below `base * p` leaves one below `p`. */
  lemma DivBelow(n: nat, base: nat, p: nat)
    requires 2 <= base && n < base * p
    ensures n / base < p
  {
    var q := n / base;
    assert q * base <= n;
    assert (p - q) * base == p * base - q * base;
    assert (p - q) * base > 0;
  }

  /**
   * `n` written in `base`, padded with leading zeros to at least `width` digits (the `%04d`,
   * `%02d` and `%032x` conversions).
   */
  function Numeral(n: nat, width: nat, base: nat): (s: string)
    requires 2 <= base <= 16
    ensures |s| >= 1 && |s| >= width
    ensures AllDigits(s, base)
    decreases n + width
  {
    DivFacts(n, base);
    (if n >= base || width > 1 then Numeral(n / base, if width > 0 then width - 1 else 0, base) else "")
      + [DigitChar(n % base)]
  }

  /** The number a string of digits denotes. */
  function NumeralValue(s: string, base: nat): nat
    requires AllDigits(s, base)
    decreases |s|
  {
    if |s| == 0 then 0
    else NumeralValue(s[..|s| - 1], base) * base + DigitValue(s[|s| - 1]).value
  }

  lemma {:induction false} NumeralRoundTrip(n: nat, width: nat, base: nat)
    requires 2 <= base <= 16
    ensures NumeralValue(Numeral(n, width, base), base) == n
    decreases n + width
  {
    var s := Numeral(n, width, base);
    var w' := if width > 0 then width - 1 else 0;
    DivFacts(n, base);
    var last := DigitChar(n % base);
    if n >= base || width > 1 {
      var p := Numeral(n / base, w', base);
      assert s == p + [last];
      NumeralRoundTrip(n / base, w', base);
      assert s[..|s| - 1] == p;
      assert NumeralValue(s, base) == NumeralValue(p, base) * base + n % base;
    } else {
      assert s == [last];
      assert s[..|s| - 1] == "";
      assert NumeralValue(s, base) == 0 * base + n % base;
    }
  }

  /** A number below `base^width` takes exactly `width` digits. */
  lemma {:induction false} NumeralWidth(n: nat, width: nat, base: nat)
    requires 2 <= base <= 16 && width >= 1
    requires n < Pow(base, width)
    ensures |Numeral(n, width, base)| == width
    decreases width
  {
    if width > 1 {
      DivBelow(n, base, Pow(base, width - 1));
      NumeralWidth(n / base, width - 1, base);
    } else {
      assert n < base;
    }
  }

  // ---------------------------------------------------------------------------
  // Dates and times

  /**
   * `strftime('%Y-%m-%d')`, with `%Y` zero-padded to four digits: for years up to 9999, ten
   * characters with the hyphens in place.
   */
  function FormatDate(year: nat, month: nat, day: nat): (r: string)
    ensures year <= 9999 && month < 100 && day < 100 ==> |r| == 10 && r[4] == '-' && r[7] == '-'
  {
    assert year <= 9999 && month < 100 && day < 100 ==>
      |Numeral(year, 4, 10)| == 4 && |Numeral(month, 2, 10)| == 2 && |Numeral(day, 2, 10)| == 2 by {
      if year <= 9999 && month < 100 && day < 100 {
        NumeralWidth(year, 4, 10);
        NumeralWidth(month, 2, 10);
        NumeralWidth(day, 2, 10);
      }
    }
    Numeral(year, 4, 10) + "-" + Numeral(month, 2, 10) + "-" + Numeral(day, 2, 10)
  }

  /**
   * `strftime('%Y-%m-%dT%H:%M:%SZ')`: for fields in range, twenty characters with the
   * separators in place.
   */
  function FormatDateTime(year: nat, month: nat, day: nat, hour: nat, minute: nat, second: nat): (r: string)
    ensures year <= 9999 && month < 100 && day < 100 && hour < 100 && minute < 100 && second < 100 ==>
      |r| == 20 && r[10] == 'T' && r[13] == ':' && r[16] == ':' && r[19] == 'Z'
  {
    assert hour < 100 && minute < 100 && second < 100 ==>
      |Numeral(hour, 2, 10)| == 2 && |Numeral(minute, 2, 10)| == 2 && |Numeral(second, 2, 10)| == 2 by {
      if hour < 100 && minute < 100 && second < 100 {
        NumeralWidth(hour, 2, 10);
        NumeralWidth(minute, 2, 10);
        NumeralWidth(second, 2, 10);
      }
    }
    FormatDate(year, month, day) + "T" + Numeral(hour, 2, 10) + ":" + Numeral(minute, 2, 10) + ":"
      + Numeral(second, 2, 10) + "Z"
  }

  /** Reads back the canonical `YYYY-MM-DD` form. */
  function ParseDate(s: string): Option<(nat, nat, nat)> {
    if |s| == 10 && s[4] == '-' && s[7] == '-'
      && AllDigits(s[..4], 10) && AllDigits(s[5..7], 10) && AllDigits(s[8..], 10)
    then Some((NumeralValue(s[..4], 10), NumeralValue(s[5..7], 10), NumeralValue(s[8..], 10)))
    else None
  }

  /** Reads back the canonical `YYYY-MM-DDTHH:MM:SSZ` form. */
  function ParseDateTime(s: string): Option<(nat, nat, nat, nat, nat, nat)> {
    if |s| == 20 && s[10] == 'T' && s[13] == ':' && s[16] == ':' && s[19] == 'Z'
      && ParseDate(s[..10]).Some?
      && AllDigits(s[11..13], 10) && AllDigits(s[14..16], 10) && AllDigits(s[17..19], 10)
    then
      var d := ParseDate(s[..10]).value;
      Some((d.0, d.1, d.2, NumeralValue(s[11..13], 10), NumeralValue(s[14..16], 10), NumeralValue(s[17..19], 10)))
    else None
  }

  lemma TwoDigits(n: nat)
    requires n < 100
    ensures |Numeral(n, 2, 10)| == 2
    ensures NumeralValue(Numeral(n, 2, 10), 10) == n
  {
    NumeralWidth(n, 2, 10);
    NumeralRoundTrip(n, 2, 10);
  }

  /** Any date Python can hold (years up to 9999) is recovered from its rendering. */
  lemma DateRoundTrip(year: nat, month: nat, day: nat)
    requires year <= 9999 && month < 100 && day < 100
    ensures ParseDate(FormatDate(year, month, day)) == Some((year, month, day))
  {
    var y := Numeral(year, 4, 10);
    var m := Numeral(month, 2, 10);
    var d := Numeral(day, 2, 10);
    NumeralWidth(year, 4, 10);
    NumeralRoundTrip(year, 4, 10);
    TwoDigits(month);
    TwoDigits(day);
    var s := FormatDate(year, month, day);
    assert s[..4] == y && s[5..7] == m && s[8..] == d;
  }

  lemma DateTimeRoundTrip(year: nat, month: nat, day: nat, hour: nat, minute: nat, second: nat)
    requires year <= 9999 && month < 100 && day < 100 && hour < 100 && minute < 100 && second < 100
    ensures ParseDateTime(FormatDateTime(year, month, day, hour, minute, second))
         == Some((year, month, day, hour, minute, second))
  {
    DateRoundTrip(year, month, day);
    TwoDigits(hour);
    TwoDigits(minute);
    TwoDigits(second);
    TimeFields(FormatDate(year, month, day), Numeral(hour, 2, 10), Numeral(minute, 2, 10), Numeral(second, 2, 10));
  }

  lemma TimeFields(d: string, h: string, m: string, sec: string)
    requires |d| == 10 && |h| == 2 && |m| == 2 && |sec| == 2
    ensures var s := d + "T" + h + ":" + m + ":" + sec + "Z";
      |s| == 20 && s[10] == 'T' && s[13] == ':' && s[16] == ':' && s[19] == 'Z'
      && s[..10] == d && s[11..13] == h && s[14..16] == m && s[17..19] == sec
  {
  }

  /** A datetime's rendering starts with the rendering of its date. */
  lemma DateTimeExtendsDate(year: nat, month: nat, day: nat, hour: nat, minute: nat, second: nat)
    ensures FormatDateTime(year, month, day, hour, minute, second)[..|FormatDate(year, month, day)|]
         == FormatDate(year, month, day)
  {
  }

  // ---------------------------------------------------------------------------
  // UUIDs

  const UuidBound: nat := Pow(16, 32)

  /**
   * `str(UUID(int=value))`: 32 lower-case hex digits grouped 8-4-4-4-12, so 36 characters with
   * four hyphens for any 128-bit value.
   */
  function FormatUuid(value: nat): (r: string)
    ensures value < UuidBound ==> |r| == 36 && r[8] == '-' && r[13] == '-' && r[18] == '-' && r[23] == '-'
  {
    var h := Numeral(value, 32, 16);
    assert value < UuidBound ==> |h| == 32 by {
      if value < UuidBound {
        NumeralWidth(value, 32, 16);
      }
    }
    h[..8] + "-" + h[8..12] + "-" + h[12..16] + "-" + h[16..20] + "-" + h[20..]
  }

  /** Reads back the canonical hyphenated form. */
  function ParseUuid(s: string): Option<nat> {
    if |s| == 36 && s[8] == '-' && s[13] == '-' && s[18] == '-' && s[23] == '-' then
      var h := s[..8] + s[9..13] + s[14..18] + s[19..23] + s[24..];
      if AllDigits(h, 16) then Some(NumeralValue(h, 16)) else None
    else None
  }

  lemma UuidRoundTrip(value: nat)
    requires value < UuidBound
    ensures ParseUuid(FormatUuid(value)) == Some(value)
  {
    var h := Numeral(value, 32, 16);
    NumeralWidth(value, 32, 16);
    NumeralRoundTrip(value, 32, 16);
    UngroupGrouped(h);
  }

  /** Taking the hyphens back out of the 8-4-4-4-12 grouping gives the 32 digits again. */
  lemma UngroupGrouped(h: string)
    requires |h| == 32
    ensures var s := h[..8] + "-" + h[8..12] + "-" + h[12..16] + "-" + h[16..20] + "-" + h[20..];
      && |s| == 36 && s[8] == '-' && s[13] == '-' && s[18] == '-' && s[23] == '-'
      && s[..8] + s[9..13] + s[14..18] + s[19..23] + s[24..] == h
  {
    var a, b, c, d, e := h[..8], h[8..12], h[12..16], h[16..20], h[20..];
    var s := a + "-" + b + "-" + c + "-" + d + "-" + e;
    assert s[..8] == a && s[9..13] == b && s[14..18] == c && s[19..23] == d && s[24..] == e;
    assert a + b + c + d + e == h;
  }
}

=== FILE: headers.dfy ===
/**
 * `CaseInsensitiveDict`: a dictionary whose string keys are stored lower-cased, so that
 * indexing, `get`, `in`, `pop`, `setdefault` and `del` answer the same for every casing of a
 * key. Header values are kept generic (`V`).
 */
module Headers {
  import opened Wrappers
  import opened Strings

  /** The exceptions the dictionary's own operations raise. */
  datatype DictError = KeyError(key: string) | TypeError(msg: string)

  /** `_k`: the stored form of a string key. */
  function Key(k: string): (r: string)
    ensures NoUpper(r)
    ensures |r| == |k|
  {
    LowerStr(k)
  }

  /** Every stored key is already in its lower-case form. */
  predicate Normal<V>(d: map<string, V>) {
    forall k :: k in d ==> Key(k) == k
  }

  /**
   * A plain Python dictionary as it is handed to the constructor: its keys in insertion order
   * and the value of each key.
   */
  datatype Raw<V> = Raw(keys: seq<string>, vals: map<string, V>)

  ghost predicate WellFormed<V>(r: Raw<V>) {
    && (forall i, j :: 0 <= i < j < |r.keys| ==> r.keys[i] != r.keys[j])
    && (forall k :: k in r.vals <==> k in r.keys)
  }

  /**
   * Reference meaning of the constructor over the first `n` keys: a key that has upper-case
   * letters overwrites the entry of its lower-case form; a key that is already lower-case only
   * fills a gap and never replaces an entry written by another spelling.
   */
  function Merged<V>(r: Raw<V>, n: nat): (d: map<string, V>)
    requires WellFormed(r) && n <= |r.keys|
    ensures Normal(d)
    ensures forall j :: 0 <= j < n ==> Key(r.keys[j]) in d
  {
    if n == 0 then map[]
    else
      var k := r.keys[n - 1];
      var prev := Merged(r, n - 1);
      if Key(k) == k && k in prev then prev else prev[Key(k) := r.vals[k]]
  }

  /** The keys of the merge are exactly the lower-cased keys read so far. */
  lemma {:induction false} MergedKeys<V>(r: Raw<V>, n: nat, k: string)
    requires WellFormed(r) && n <= |r.keys|
    ensures k in Merged(r, n) <==> exists j :: 0 <= j < n && Key(r.keys[j]) == k
    decreases n
  {
    if n > 0 {
      MergedKeys(r, n - 1, k);
      if k in Merged(r, n - 1) {
        var j :| 0 <= j < n - 1 && Key(r.keys[j]) == k;
        assert 0 <= j < n && Key(r.keys[j]) == k;
      }
    }
  }

  function Converted<V>(r: Raw<V>): map<string, V>
    requires WellFormed(r)
  {
    Merged(r, |r.keys|)
  }

  /**
   * State of the conversion after `i` keys: the merge of those keys, plus every key not yet
   * converted, which still holds its original value unless an earlier spelling wrote to it.
   */
  ghost predicate Converting<V>(r: Raw<V>, i: nat, d: map<string, V>)
    requires WellFormed(r) && i <= |r.keys|
  {
    var m := Merged(r, i);
    && (forall k :: k in d <==> k in m || k in r.keys[i..])
    && (forall k :: k in m ==> d[k] == m[k])
    && (forall j :: i <= j < |r.keys| && r.keys[j] !in m ==> d[r.keys[j]] == r.vals[r.keys[j]])
  }

  /** One iteration of `_convert_keys`: pop the key and store its value under `_k(key)`. */
  lemma ConvertStep<V>(r: Raw<V>, i: nat, d: map<string, V>)
    requires WellFormed(r) && i < |r.keys|
    requires Converting(r, i, d)
    ensures r.keys[i] in d
    ensures Converting(r, i + 1, (d - {r.keys[i]})[Key(r.keys[i]) := d[r.keys[i]]])
  {
    var k := r.keys[i];
    var m := Merged(r, i);
    var m' := Merged(r, i + 1);
    assert k in r.keys[i..];
    var d' := (d - {k})[Key(k) := d[k]];
    assert r.keys[i + 1..] == r.keys[i..][1..];
    forall x
      ensures x in d' <==> x in m' || x in r.keys[i + 1..]
    {
      if x in r.keys[i + 1..] {
        var j :| i + 1 <= j < |r.keys| && r.keys[j] == x;
      }
    }
    forall j | i + 1 <= j < |r.keys| && r.keys[j] !in m'
      ensures d'[r.keys[j]] == r.vals[r.keys[j]]
    {
      assert r.keys[j] != k;
    }
  }

  /**
   * `__init__` followed by `_convert_keys`: for each key of a snapshot of the keys, pop it and
   * store its current value under the lower-cased key. The result is the reference merge.
   */
  method FromDict<V>(r: Raw<V>) returns (d: map<string, V>)
    requires WellFormed(r)
    ensures Normal(d)
    ensures d == Converted(r)
  {
    d := r.vals;
    var i := 0;
    while i < |r.keys|
      invariant 0 <= i <= |r.keys|
      invariant Converting(r, i, d)
    {
      ConvertStep(r, i, d);
      var k := r.keys[i];
      var v := d[k];
      d := d - {k};
      d := d[Key(k) := v];
      i := i + 1;
    }
    assert r.keys[i..] == [];
  }

  /** With a single spelling of a header, any casing reads the value it was sent with. */
  lemma {:induction false} MergedSingleSpelling<V>(r: Raw<V>, n: nat, j: nat)
    requires WellFormed(r) && n <= |r.keys| && j < n
    requires forall i :: 0 <= i < n && i != j ==> Key(r.keys[i]) != Key(r.keys[j])
    ensures Merged(r, n)[Key(r.keys[j])] == r.vals[r.keys[j]]
    decreases n
  {
    var k := r.keys[n - 1];
    if j < n - 1 {
      MergedSingleSpelling(r, n - 1, j);
    } else {
      var prev := Merged(r, n - 1);
      if Key(k) == k {
        MergedKeys(r, n - 1, k);
        assert k !in prev;
      }
    }
  }

  lemma SingleSpelling<V>(r: Raw<V>, j: nat, spelling: string)
    requires WellFormed(r) && j < |r.keys|
    requires forall i :: 0 <= i < |r.keys| && i != j ==> Key(r.keys[i]) != Key(r.keys[j])
    requires Key(spelling) == Key(r.keys[j])
    ensures Get(Converted(r), spelling) == Some(r.vals[r.keys[j]])
  {
    MergedSingleSpelling(r, |r.keys|, j);
  }

  // ---------------------------------------------------------------------------
  // Access operations (all of them go through `_k`)

  /** `d[key]`. */
  function Index<V>(d: map<string, V>, key: string): (r: Result<V, DictError>)
    ensures r.Success? <==> Key(key) in d
    ensures r.Failure? ==> r.error == KeyError(Key(key))
  {
    if Key(key) in d then Success(d[Key(key)]) else Failure(KeyError(Key(key)))
  }

  /** `d.get(key)`: `None` when absent. */
  function Get<V>(d: map<string, V>, key: string): (r: Option<V>)
    ensures r.Some? <==> Key(key) in d
    ensures r.Some? ==> r == Some(Index(d, key).value)
  {
    if Key(key) in d then Some(d[Key(key)]) else None
  }

  /** `d.get(key, default)`. */
  function GetOr<V>(d: map<string, V>, key: string, default: V): (r: V)
    ensures Get(d, key).Some? ==> r == Get(d, key).value
    ensures Get(d, key).None? ==> r == default
  {
    if Key(key) in d then d[Key(key)] else default
  }

  /** `key in d`. */
  predicate Contains<V>(d: map<string, V>, key: string) {
    Key(key) in d
  }

  /** `d[key] = value`. */
  function Set<V>(d: map<string, V>, key: string, value: V): (r: map<string, V>)
    requires Normal(d)
    ensures Normal(r)
    ensures Get(r, key) == Some(value)
    ensures forall k :: Key(k) != Key(key) ==> Get(r, k) == Get(d, k)
  {
    d[Key(key) := value]
  }

  /** `del d[key]`. */
  function Del<V>(d: map<string, V>, key: string): (r: Result<map<string, V>, DictError>)
    requires Normal(d)
    ensures r.Success? <==> Contains(d, key)
    ensures r.Success? ==> Normal(r.value) && !Contains(r.value, key)
    ensures r.Success? ==> forall k :: Key(k) != Key(key) ==> Get(r.value, k) == Get(d, k)
  {
    if Key(key) in d then Success(d - {Key(key)}) else Failure(KeyError(Key(key)))
  }

  /** `d.pop(key)` or, with a default, `d.pop(key, default)`; returns the value and the rest. */
  function Pop<V>(d: map<string, V>, key: string, default: Option<V>): (r: Result<(V, map<string, V>), DictError>)
    requires Normal(d)
    ensures r.Failure? <==> !Contains(d, key) && default.None?
    ensures r.Success? && Contains(d, key) ==> r.value.0 == Get(d, key).value
    ensures r.Success? && !Contains(d, key) ==> r.value == (default.value, d)
    ensures r.Success? ==> Normal(r.value.1) && !Contains(r.value.1, key)
    ensures r.Success? ==> forall k :: Key(k) != Key(key) ==> Get(r.value.1, k) == Get(d, k)
  {
    if Key(key) in d then Success((d[Key(key)], d - {Key(key)}))
    else if default.Some? then Success((default.value, d))
    else Failure(KeyError(Key(key)))
  }

  /**
   * `d.setdefault(key, default)`: the stored value, inserting `default` if there was none. The
   * one-argument form `d.setdefault(key)` is this with the value type's `None` as `default`.
   */
  function SetDefault<V>(d: map<string, V>, key: string, default: V): (r: (V, map<string, V>))
    requires Normal(d)
    ensures Normal(r.1)
    ensures Contains(d, key) ==> r == (Get(d, key).value, d)
    ensures !Contains(d, key) ==> r.0 == default && r.1 == Set(d, key, default)
  {
    if Key(key) in d then (d[Key(key)], d) else (default, d[Key(key) := default])
  }

  /** Every operation reads a key through `_k`, so the casing of the key never matters. */
  lemma AnyCasing<V>(d: map<string, V>, a: string, b: string)
    requires Key(a) == Key(b)
    ensures Get(d, a) == Get(d, b)
    ensures Index(d, a) == Index(d, b)
    ensures Contains(d, a) == Contains(d, b)
  {
  }

  lemma {:induction false} KeyIdempotent(k: string)
    ensures Key(Key(k)) == Key(k)
  {
    LowerStrIdempotent(k);
  }

  // ---------------------------------------------------------------------------
  // update

  /** Entries of the constructed dictionary `e` written over `d`. */
  function Overwrite<V>(d: map<string, V>, e: map<string, V>): (r: map<string, V>)
    requires Normal(d) && Normal(e)
    ensures Normal(r)
    ensures forall k :: k in r <==> k in d || k in e
    ensures forall k :: k in e ==> r[k] == e[k]
    ensures forall k :: k in d && k !in e ==> r[k] == d[k]
  {
    d + e
  }

  /**
   * `update(E=None, **F)` as written: both `E` and the keywords go through the constructor,
   * and the constructor of `None` raises `TypeError`, so a call without a positional
   * dictionary always fails.
   */
  function UpdateAsWritten<V>(d: map<string, V>, e: Option<Raw<V>>, f: Raw<V>): (r: Result<map<string, V>, DictError>)
    requires Normal(d)
    requires e.Some? ==> WellFormed(e.value)
    requires WellFormed(f)
    ensures r.Failure? <==> e.None?
    ensures r.Failure? ==> r.error.TypeError?
  {
    if e.None? then Failure(TypeError("'NoneType' object is not iterable"))
    else Success(Overwrite(Overwrite(d, Converted(e.value)), Converted(f)))
  }

  /** Counterexample: `d.update(accept='text/html')` raises instead of storing the header. */
  lemma UpdateWithKeywordsOnlyFails()
    ensures UpdateAsWritten(map[], None, Raw(["Accept"], map["Accept" := "text/html"])).Failure?
  {
  }

  /**
   * `update` as evidently intended (the signature of `dict.update`): a missing positional
   * dictionary contributes nothing. Afterwards every key of `E` and of the keywords is
   * readable in any casing, keywords winning over `E`.
   */
  function Update<V>(d: map<string, V>, e: Option<Raw<V>>, f: Raw<V>): (r: map<string, V>)
    requires Normal(d)
    requires e.Some? ==> WellFormed(e.value)
    requires WellFormed(f)
    ensures Normal(r)
    ensures forall k :: k in f.keys ==> Contains(r, k)
    ensures e.Some? ==> forall k :: k in e.value.keys ==> Contains(r, k)
    ensures forall k :: Contains(d, k) ==> Contains(r, k)
    ensures forall k :: k in r <==> k in d || (e.Some? && k in Converted(e.value)) || k in Converted(f)
    ensures forall k :: k in Converted(f) ==> r[k] == Converted(f)[k]
    ensures e.Some? ==> forall k :: k in Converted(e.value) && k !in Converted(f) ==> r[k] == Converted(e.value)[k]
    ensures forall k :: k in d && k !in Converted(f) && !(e.Some? && k in Converted(e.value)) ==> r[k] == d[k]
    ensures e.Some? ==> UpdateAsWritten(d, e, f) == Success(r)
  {
    var base := if e.Some? then Overwrite(d, Converted(e.value)) else d;
    Overwrite(base, Converted(f))
  }
}

=== FILE: naming.dfy ===
/**
 * Naming-convention translation between the external (camelCase) names of the GraphQL
 * schema and the internal (snake_case) names of the resolvers and models.
 */
module Naming {
  import opened Strings

  // ---------------------------------------------------------------------------
  // camelCase -> snake_case

  /**
   * The regular-expression substitution `(?<!^)(?=[A-Z])` -> `_` followed by `lower()`:
   * every upper-case letter that is not the first character gets a `_` in front of it,
   * and every letter is lower-cased. `atStart` is true only at position 0.
   */
  function SnakeChars(s: string, atStart: bool): (r: string)
    ensures NoUpper(r)
    ensures |r| == |s| + UpperCount(s, atStart)
    decreases |s|
  {
    if |s| == 0 then ""
    else (if IsUpper(s[0]) && !atStart then "_" else "") + [Lower(s[0])] + SnakeChars(s[1..], false)
  }

  /** Number of underscores the conversion inserts: upper-case letters past the first position. */
  function UpperCount(s: string, atStart: bool): nat
    decreases |s|
  {
    if |s| == 0 then 0
    else (if IsUpper(s[0]) && !atStart then 1 else 0) + UpperCount(s[1..], false)
  }

  /** `camel_to_snake(name)`. */
  function CamelToSnake(name: string): (r: string)
    ensures NoUpper(r)
    ensures |r| == |name| + UpperCount(name, true)
  {
    SnakeChars(name, true)
  }

  /** Text without upper-case letters is left exactly as it is. */
  lemma {:induction false} SnakeCharsOfLower(s: string, atStart: bool)
    requires NoUpper(s)
    ensures SnakeChars(s, atStart) == s
    decreases |s|
  {
    if |s| > 0 {
      SnakeCharsOfLower(s[1..], false);
      assert [s[0]] + s[1..] == s;
    }
  }

  lemma CamelToSnakeOfLower(name: string)
    requires NoUpper(name)
    ensures CamelToSnake(name) == name
  {
    SnakeCharsOfLower(name, true);
  }

  /** Converting snake_case output again changes nothing: the conversion is idempotent. */
  lemma CamelToSnakeIdempotent(name: string)
    ensures CamelToSnake(CamelToSnake(name)) == CamelToSnake(name)
  {
    CamelToSnakeOfLower(CamelToSnake(name));
  }

  lemma {:induction false} SnakeCharsAppend(a: string, b: string, atStart: bool)
    requires |a| > 0
    ensures SnakeChars(a + b, atStart) == SnakeChars(a, atStart) + SnakeChars(b, false)
    decreases |a|
  {
    assert (a + b)[0] == a[0];
    assert (a + b)[1..] == a[1..] + b;
    if |a| > 1 {
      SnakeCharsAppend(a[1..], b, false);
    } else {
      assert a[1..] == "";
      assert a[1..] + b == b;
    }
  }

  // ---------------------------------------------------------------------------
  // snake_case -> camelCase

  /**
   * `str.title()` on one part: a letter that follows a letter is lower-cased, any other
   * letter is upper-cased; characters that are not letters are kept and break the word.
   */
  function TitleFrom(w: string, afterLetter: bool): (r: string)
    ensures |r| == |w|
    ensures forall i :: 0 <= i < |w| ==> (IsLetter(r[i]) <==> IsLetter(w[i]))
    ensures forall i :: 0 <= i < |w| && !IsLetter(w[i]) ==> r[i] == w[i]
    decreases |w|
  {
    if |w| == 0 then ""
    else if IsLetter(w[0]) then [if afterLetter then Lower(w[0]) else Upper(w[0])] + TitleFrom(w[1..], true)
    else [w[0]] + TitleFrom(w[1..], false)
  }

  function Title(w: string): string {
    TitleFrom(w, false)
  }

  function ConcatTitle(parts: seq<string>): (r: string)
    ensures (forall k :: 0 <= k < |parts| ==> '_' !in parts[k]) ==> '_' !in r
    decreases |parts|
  {
    if |parts| == 0 then "" else Title(parts[0]) + ConcatTitle(parts[1..])
  }

  /**
   * `snake_to_camel(name)`: the first part lower-cased, every later part title-cased. No
   * underscore survives, and a name without one is only lower-cased.
   */
  function SnakeToCamel(name: string): (r: string)
    ensures '_' !in r
    ensures '_' !in name ==> r == LowerStr(name)
  {
    var parts := Split(name, '_');
    assert '_' !in name ==> parts == [name] by {
      if '_' !in name {
        SplitWithoutSep(name, '_');
      }
    }
    LowerStr(parts[0]) + ConcatTitle(parts[1..])
  }

  // ---------------------------------------------------------------------------
  // Round trips

  predicate LowerWord(w: string) {
    forall i :: 0 <= i < |w| ==> IsLower(w[i])
  }

  predicate Letters(s: string) {
    forall i :: 0 <= i < |s| ==> IsLetter(s[i])
  }

  lemma {:induction false} TitleFromOfLower(w: string)
    requires LowerWord(w)
    ensures TitleFrom(w, true) == w
    decreases |w|
  {
    if |w| > 0 {
      TitleFromOfLower(w[1..]);
      assert [w[0]] + w[1..] == w;
    }
  }

  lemma TitleOfLowerWord(w: string)
    requires |w| > 0 && LowerWord(w)
    ensures Title(w) == [Upper(w[0])] + w[1..]
  {
    TitleFromOfLower(w[1..]);
  }

  lemma ConcatTitleCons(p: string, rest: seq<string>)
    ensures ConcatTitle([p] + rest) == Title(p) + ConcatTitle(rest)
  {
    assert ([p] + rest)[1..] == rest;
  }

  /**
   * The words a camelCase string falls into: the snake_case result is these words joined
   * by `_`.
   */
  function Words(s: string, atStart: bool): (ws: seq<string>)
    ensures |ws| >= 1
    decreases |s|
  {
    if |s| == 0 then [""]
    else
      var r := Words(s[1..], false);
      if IsUpper(s[0]) && !atStart then ["", [Lower(s[0])] + r[0]] + r[1..]
      else [[Lower(s[0])] + r[0]] + r[1..]
  }

  lemma {:induction false} SnakeCharsIsJoinOfWords(s: string, atStart: bool)
    ensures SnakeChars(s, atStart) == Join(Words(s, atStart), '_')
    decreases |s|
  {
    if |s| > 0 {
      var r := Words(s[1..], false);
      var l := Lower(s[0]);
      var first := [[l] + r[0]] + r[1..];
      calc {
        [l] + SnakeChars(s[1..], false);
        { SnakeCharsIsJoinOfWords(s[1..], false); }
        [l] + Join(r, '_');
        { assert r == [r[0]] + r[1..]; }
        [l] + Join([r[0]] + r[1..], '_');
        { JoinHeadChar(l, r[0], r[1..], '_'); }
        Join(first, '_');
      }
      if IsUpper(s[0]) && !atStart {
        var ws := [""] + first;
        assert Words(s, atStart) == ws;
        assert ws[1..] == first;
        assert Join(ws, '_') == "_" + Join(first, '_');
      } else {
        assert Words(s, atStart) == first;
      }
    }
  }

  /** Shape of the words of a letters-only string read past its first position. */
  predicate WordsShape(ws: seq<string>, t: string)
    requires |ws| >= 1
  {
    && LowerWord(ws[0])
    && (forall i :: 1 <= i < |ws| ==> |ws[i]| > 0 && LowerWord(ws[i]))
    && ws[0] + ConcatTitle(ws[1..]) == t
  }

  lemma {:induction false} WordsOfLetters(t: string)
    requires Letters(t)
    ensures WordsShape(Words(t, false), t)
    decreases |t|
  {
    if |t| > 0 {
      WordsOfLetters(t[1..]);
      if IsUpper(t[0]) {
        WordsStepUpper(t[0], t[1..], Words(t[1..], false));
      } else {
        WordsStepLower(t[0], t[1..], Words(t[1..], false));
      }
      assert t == [t[0]] + t[1..];
    }
  }

  lemma WordsStepUpper(c: char, t: string, r: seq<string>)
    requires IsUpper(c) && |r| >= 1 && WordsShape(r, t)
    ensures var head := [Lower(c)] + r[0]; WordsShape(["", head] + r[1..], [c] + t)
  {
    var head := [Lower(c)] + r[0];
    var ws := ["", head] + r[1..];
    assert ws[1..] == [head] + r[1..];
    UpperLower(c);
    TitleOfLowerWord(head);
    ConcatTitleCons(head, r[1..]);
    assert head[1..] == r[0];
    forall i | 1 <= i < |ws|
      ensures |ws[i]| > 0 && LowerWord(ws[i])
    {
      if i >= 2 {
        assert ws[i] == r[i - 1];
      }
    }
  }

  lemma WordsStepLower(c: char, t: string, r: seq<string>)
    requires IsLetter(c) && !IsUpper(c) && |r| >= 1 && WordsShape(r, t)
    ensures WordsShape([[Lower(c)] + r[0]] + r[1..], [c] + t)
  {
    var ws := [[c] + r[0]] + r[1..];
    assert ws[1..] == r[1..];
    forall i | 1 <= i < |ws|
      ensures |ws[i]| > 0 && LowerWord(ws[i])
    {
      assert ws[i] == r[i];
    }
  }

  predicate NoUnderscoreIn(ws: seq<string>) {
    forall i :: 0 <= i < |ws| ==> '_' !in ws[i]
  }

  lemma {:induction false} WordsHaveNoUnderscore(s: string, atStart: bool)
    requires Letters(s)
    ensures NoUnderscoreIn(Words(s, atStart))
    decreases |s|
  {
    if |s| > 0 {
      var r := Words(s[1..], false);
      WordsHaveNoUnderscore(s[1..], false);
      var l := Lower(s[0]);
      assert IsLetter(l);
      assert '_' !in r[0];
      assert '_' !in [l] + r[0];
      var ws := Words(s, atStart);
      forall i | 0 <= i < |ws|
        ensures '_' !in ws[i]
      {
        if IsUpper(s[0]) && !atStart {
          if i >= 2 {
            assert ws[i] == r[i - 1];
          }
        } else if i >= 1 {
          assert ws[i] == r[i];
        }
      }
    }
  }

  /**
   * snake_to_camel undoes camel_to_snake on a letters-only name that does not start with an
   * upper-case letter (`userId` -> `user_id` -> `userId`).
   */
  lemma CamelRoundTrip(x: string)
    requires Letters(x)
    requires |x| == 0 || !IsUpper(x[0])
    ensures SnakeToCamel(CamelToSnake(x)) == x
  {
    var ws := Words(x, true);
    assert ws == Words(x, false);
    SnakeCharsIsJoinOfWords(x, true);
    WordsHaveNoUnderscore(x, true);
    SplitJoin(ws, '_');
    WordsOfLetters(x);
    LowerStrIdentity(ws[0]);
    assert SnakeToCamel(Join(ws, '_')) == ws[0] + ConcatTitle(ws[1..]);
  }

  function Underscored(parts: seq<string>): string
    decreases |parts|
  {
    if |parts| == 0 then "" else "_" + parts[0] + Underscored(parts[1..])
  }

  lemma {:induction false} JoinIsUnderscored(parts: seq<string>)
    requires |parts| >= 1
    ensures Join(parts, '_') == parts[0] + Underscored(parts[1..])
    decreases |parts|
  {
    if |parts| > 1 {
      JoinIsUnderscored(parts[1..]);
      assert parts[1..][1..] == parts[2..];
    }
  }

  lemma SnakeCharsOfTitle(w: string)
    requires |w| > 0 && LowerWord(w)
    ensures SnakeChars(Title(w), false) == "_" + w
  {
    var head, tail := w[0], w[1..];
    calc {
      SnakeChars(Title(w), false);
      { TitleOfLowerWord(w); }
      SnakeChars([Upper(head)] + tail, false);
      { LowerUpper(head); SnakeCharsUpperHead(Upper(head), tail); }
      "_" + [head] + SnakeChars(tail, false);
      { LowerWordTail(w); SnakeCharsOfLower(tail, false); }
      "_" + [head] + tail;
      { assert [head] + tail == w; }
      "_" + w;
    }
  }

  lemma LowerWordTail(w: string)
    requires |w| > 0 && LowerWord(w)
    ensures NoUpper(w[1..])
  {
    forall i | 0 <= i < |w[1..]| ensures !IsUpper(w[1..][i]) {
      assert w[1..][i] == w[i + 1];
    }
  }

  lemma SnakeCharsUpperHead(c: char, rest: string)
    requires IsUpper(c)
    ensures SnakeChars([c] + rest, false) == "_" + [Lower(c)] + SnakeChars(rest, false)
  {
    assert ([c] + rest)[0] == c && ([c] + rest)[1..] == rest;
  }

  lemma {:induction false} SnakeCharsOfTitles(parts: seq<string>)
    requires forall i :: 0 <= i < |parts| ==> |parts[i]| > 0 && LowerWord(parts[i])
    ensures SnakeChars(ConcatTitle(parts), false) == Underscored(parts)
    decreases |parts|
  {
    if |parts| > 0 {
      SnakeCharsOfTitles(parts[1..]);
      SnakeCharsOfTitle(parts[0]);
      SnakeCharsAppend(Title(parts[0]), ConcatTitle(parts[1..]), false);
    }
  }

  /**
   * camel_to_snake undoes snake_to_camel on a snake_case name made of non-empty lower-case
   * words (`user_id` -> `userId` -> `user_id`).
   */
  lemma SnakeRoundTrip(words: seq<string>)
    requires |words| >= 1
    requires forall i :: 0 <= i < |words| ==> |words[i]| > 0 && LowerWord(words[i])
    ensures CamelToSnake(SnakeToCamel(Join(words, '_'))) == Join(words, '_')
  {
    var name := Join(words, '_');
    forall i | 0 <= i < |words|
      ensures '_' !in words[i]
    {
      assert forall k :: 0 <= k < |words[i]| ==> IsLower(words[i][k]);
    }
    SplitJoin(words, '_');
    LowerStrIdentity(words[0]);
    var camel := words[0] + ConcatTitle(words[1..]);
    assert SnakeToCamel(name) == camel;
    SnakeCharsAppend(words[0], ConcatTitle(words[1..]), true);
    SnakeCharsOfLower(words[0], true);
    SnakeCharsOfTitles(words[1..]);
    JoinIsUnderscored(words);
  }
}

=== FILE: promises.dfy ===
/**
 * `execute_resolver_with_middlewares`: the resolver is wrapped so that it returns a
 * promise-like record instead of raising, the graphene resolution middlewares are folded
 * around it, and the outcome is unwrapped again at the end.
 */
module Promises {
  import opened Wrappers
  import opened Values
  import opened Chains

  /** `PromiseLikeHolder`. */
  datatype Promise = Promise(reason: Value, value: Value, isRejected: bool, isFulfilled: bool)

  /**
   * `wrap_as_promise`: a returned value fulfils the promise, a raised exception rejects it;
   * either way the same object is stored as both `reason` and `value`.
   */
  function WrapAsPromise(o: Result<Value, Exn>): (p: Promise)
    ensures p.isRejected != p.isFulfilled
    ensures p.reason == p.value
    ensures p.isRejected <==> o.Failure?
    ensures o.Success? ==> p.value == o.value
    ensures o.Failure? ==> p.reason == ExnObj(o.error)
  {
    match o
    case Success(v) => Promise(v, v, false, true)
    case Failure(e) => Promise(ExnObj(e), ExnObj(e), true, false)
  }

  /**
   * `unwrap_from_promise`: raises `reason` iff the promise is rejected, otherwise returns
   * `value`. Raising something that is not an exception is itself a `TypeError`.
   */
  function Unwrap(p: Promise): (r: Result<Value, Exn>)
    ensures r.Failure? <==> p.isRejected
    ensures !p.isRejected ==> r == Success(p.value)
    ensures p.isRejected && p.reason.ExnObj? ==> r == Failure(p.reason.exn)
  {
    if p.isRejected then
      Failure(if p.reason.ExnObj? then p.reason.exn else TypeError("exceptions must derive from BaseException"))
    else Success(p.value)
  }

  /** Wrapping and unwrapping give back the resolver's value, or raise the same exception. */
  lemma UnwrapWrap(o: Result<Value, Exn>)
    ensures Unwrap(WrapAsPromise(o)) == o
  {
  }

  /**
   * The `for middleware_path in settings.GRAPHENE['MIDDLEWARE']` loop: each middleware wraps the
   * resolver built so far, so the last-declared middleware ends up outermost and the
   * first-declared one innermost.
   */
  function FoldResolutionMiddlewares(paths: seq<string>): (c: Chain)
    ensures Names(c) == Reverse(paths)
    ensures |paths| > 0 ==> c.Layer? && c.name == paths[|paths| - 1]
    decreases |paths|
  {
    if |paths| == 0 then Core
    else
      var c := Layer(paths[|paths| - 1], FoldResolutionMiddlewares(paths[..|paths| - 1]));
      assert paths == paths[..|paths| - 1] + [paths[|paths| - 1]];
      ReverseSnoc(paths[..|paths| - 1], paths[|paths| - 1]);
      c
  }

  /** The promise-returning resolver at the core of the chain. */
  function Bridge<A(!new)>(resolver: A -> Result<Value, Exn>): A -> Result<Promise, Exn> {
    a => Success(WrapAsPromise(resolver(a)))
  }

  /**
   * The resolver that `execute_resolver_with_middlewares` returns, applied to the arguments `a`:
   * the chain's promise, unwrapped. A middleware may change the arguments on the way in
   * (`before`) and the promise on the way out (`after`), or raise. With no resolution
   * middleware (the bare core) the pipeline gives the resolver's value or its exception.
   */
  function Execute<A(!new)>(c: Chain, resolver: A -> Result<Value, Exn>, before: (string, A) -> A,
                      after: (string, A, Result<Promise, Exn>) -> Result<Promise, Exn>, a: A): (r: Result<Value, Exn>)
    ensures c.Core? ==> r == resolver(a)
  {
    UnwrapWrap(resolver(a));
    var p :- Run(c, before, after, Bridge(resolver), a);
    Unwrap(p)
  }

  /** Middlewares that only pass calls through do not change the outcome. */
  lemma ExecuteTransparent<A(!new)>(c: Chain, resolver: A -> Result<Value, Exn>, before: (string, A) -> A,
                              after: (string, A, Result<Promise, Exn>) -> Result<Promise, Exn>, a: A)
    requires forall n, x :: before(n, x) == x
    requires forall n, x, p :: after(n, x, p) == p
    ensures Execute(c, resolver, before, after, a) == resolver(a)
  {
    UnwrapWrap(resolver(a));
  }

  /** A middleware that rejects the promise makes the pipeline raise the rejection reason. */
  lemma ExecuteRejected<A(!new)>(c: Chain, resolver: A -> Result<Value, Exn>, before: (string, A) -> A,
                           after: (string, A, Result<Promise, Exn>) -> Result<Promise, Exn>, a: A, e: Exn)
    requires c.Layer?
    requires forall x, p :: after(c.name, x, p) == Success(WrapAsPromise(Failure(e)))
    ensures Execute(c, resolver, before, after, a) == Failure(e)
  {
  }
}

=== FILE: restapi.dfy ===
/**
 * The deployment-time wiring of resolvers in `ApiStack`: AppSync resolvers for queries and
 * mutations, and for every other operation a REST method on the API Gateway resource of the
 * resolver's `rest_path`, whose missing ancestors are created and registered on the way.
 */
module RestApi {
  import opened Wrappers
  import opened Strings
  import opened Config

  /** An API Gateway resource, identified by the path parts leading to it from the root. */
  type Resource = seq<string>

  /** `self.rest_resources`: the resources created so far, by their `/`-joined path. */
  type Registry = map<string, Resource>

  /** The resource a path names: the root for `''`, otherwise the chain of its parts. */
  function ResourceOf(p: string): Resource {
    if p == "" then [] else Split(p, '/')
  }

  /** Every registered path is non-empty and maps to the resource it names. */
  ghost predicate Valid(reg: Registry) {
    forall q :: q in reg ==> q != "" && reg[q] == Split(q, '/')
  }

  /** The path made of the first `k` parts. */
  function Prefix(parts: seq<string>, k: nat): string
    requires k <= |parts|
  {
    Join(parts[..k], '/')
  }

  /** Every registered path has all its shorter non-empty prefixes registered as well. */
  ghost predicate PrefixClosed(reg: Registry) {
    forall q, k :: q in reg && 1 <= k < |Split(q, '/')| ==> Prefix(Split(q, '/'), k) in reg
  }

  // ---------------------------------------------------------------------------
  // _get_rest_resource

  /**
   * The loop `for count in range(1, len(path_parts))` from `count` on: the number of parts of
   * the first registered prefix `'/'.join(path_parts[:-count])`, or 0 when there is none.
   */
  function Scan(reg: Registry, parts: seq<string>, count: nat): (k: nat)
    requires 1 <= count <= |parts|
    ensures k <= |parts| - count
    ensures k > 0 ==> Prefix(parts, k) in reg
    ensures forall j :: k < j <= |parts| - count ==> Prefix(parts, j) !in reg
    decreases |parts| - count
  {
    if count == |parts| then 0
    else if Prefix(parts, |parts| - count) in reg then |parts| - count
    else Scan(reg, parts, count + 1)
  }

  /**
   * The number of parts of the path `_get_rest_resource` settles on: the longest registered
   * prefix of the path (the path itself included), or 0 for the root.
   */
  function FoundDepth(reg: Registry, p: string): (k: nat)
    ensures k <= |Split(p, '/')|
    ensures k > 0 ==> Prefix(Split(p, '/'), k) in reg
    ensures forall j :: k < j <= |Split(p, '/')| ==> Prefix(Split(p, '/'), j) !in reg
  {
    var parts := Split(p, '/');
    JoinSplit(p, '/');
    assert parts[..|parts|] == parts;
    if p in reg then |parts| else Scan(reg, parts, 1)
  }

  /**
   * `_get_rest_resource`: the resource registered for the full path, else for its longest
   * registered proper prefix, else the API root with the path `''`.
   */
  function GetRestResource(reg: Registry, p: string): (r: (Resource, string))
    ensures r.1 == Prefix(Split(p, '/'), FoundDepth(reg, p))
    ensures FoundDepth(reg, p) > 0 ==> r.1 in reg && r.0 == reg[r.1]
    ensures FoundDepth(reg, p) == 0 ==> r == ([], "")
    ensures Valid(reg) ==> r.0 == ResourceOf(r.1)
  {
    var parts := Split(p, '/');
    JoinSplit(p, '/');
    assert parts[..|parts|] == parts;
    if p in reg then (reg[p], p)
    else
      var k := Scan(reg, parts, 1);
      if k == 0 then ([], "") else (reg[Prefix(parts, k)], Prefix(parts, k))
  }

  // ---------------------------------------------------------------------------
  // Walking down a REST path

  lemma PrefixStep(parts: seq<string>, k: nat)
    requires 1 <= k < |parts|
    ensures Prefix(parts, k + 1) == Prefix(parts, k) + "/" + parts[k]
  {
    assert parts[..k + 1] == parts[..k] + [parts[k]];
    JoinSnoc(parts[..k], parts[k], '/');
  }

  lemma PrefixNonEmpty(parts: seq<string>, k: nat)
    requires 1 <= k <= |parts| && parts[0] != ""
    ensures Prefix(parts, k) != ""
  {
    JoinStartsWithHead(parts[..k], '/');
  }

  lemma SplitPrefix(parts: seq<string>, k: nat)
    requires 1 <= k <= |parts|
    requires forall i :: 0 <= i < |parts| ==> '/' !in parts[i]
    ensures Split(Prefix(parts, k), '/') == parts[..k]
  {
    SplitJoin(parts[..k], '/');
  }

  /** `q` is one of the prefixes of `parts` longer than `lo` and at most `hi` parts long. */
  ghost predicate AddedPrefix(parts: seq<string>, lo: nat, hi: nat, q: string)
    requires hi <= |parts|
  {
    exists j :: lo < j <= hi && q == Prefix(parts, j)
  }

  /**
   * One iteration of the `while resource_path != resolver.rest_path` loop, as a function of the
   * path reached so far: the next path, one part longer.
   */
  function Step(parts: seq<string>, path: string): string
    requires |parts| >= 1
  {
    if path == "" then parts[0]
    else
      var position := |Split(path, '/')|;
      if position < |parts| then Join([path, parts[position]], '/') else path
  }

  /**
   * A `rest_path` with a leading `/` has an empty first part, so the walk from the root stays at
   * the path `''` and never reaches the full path.
   */
  lemma LeadingSlashNeverAdvances(p: string)
    requires |p| > 0 && p[0] == '/'
    ensures Step(Split(p, '/'), "") == "" != p
  {
    assert Split(p, '/')[0] == "";
  }

  /**
   * The REST branch of `_create_resolvers` up to `add_method`: from the resource
   * `_get_rest_resource` finds, create one child per missing part, registering each new path.
   * Returns the registry and the resource that receives the method.
   */
  method AddRestResource(reg: Registry, p: string) returns (reg': Registry, res: Resource)
    requires Valid(reg)
    requires p == "" || Split(p, '/')[0] != ""
    ensures Valid(reg')
    ensures res == ResourceOf(p)
    ensures forall q :: q in reg ==> q in reg' && reg'[q] == reg[q]
    ensures p != "" ==> p in reg'
    ensures p != "" ==> forall j :: FoundDepth(reg, p) < j <= |Split(p, '/')| ==> Prefix(Split(p, '/'), j) in reg'
    ensures forall q :: q in reg' && q !in reg ==> AddedPrefix(Split(p, '/'), FoundDepth(reg, p), |Split(p, '/')|, q)
    ensures PrefixClosed(reg) ==> PrefixClosed(reg')
  {
    var parts := Split(p, '/');
    var found := GetRestResource(reg, p);
    res := found.0;
    var path := found.1;
    reg' := reg;
    ghost var k0 := FoundDepth(reg, p);
    ghost var k := k0;
    WalkStart(reg, p);
    while path != p
      invariant Walked(reg, parts, k0, reg', k, path, res)
      invariant p == "" ==> k == 0 && path == ""
      invariant p != "" && k < |parts| ==> path != p
      decreases |parts| - k
    {
      var isFirst := path == "";
      var position := if isFirst then 0 else |Split(path, '/')|;
      assert parts[..|parts|] == parts;
      WalkAdvance(reg, parts, k0, reg', k, path, res);
      var next := parts[position];
      assert next == parts[k];
      var res2 := res + [next];
      var path2 := if isFirst then next else Join([path, next], '/');
      assert Walked(reg, parts, k0, reg'[path2 := res2], k + 1, path2, res2);
      res, path, reg' := res2, path2, reg'[path2 := res2];
      k := k + 1;
    }
    WalkDone(reg, p, reg', k, res);
  }

  /**
   * The state of the walk after `k` parts, having started from the `k0` parts found in `reg`:
   * `path` and `res` name the resource of the first `k` parts, and exactly the prefixes of
   * `k0 + 1` to `k` parts have been added to the registry.
   */
  ghost predicate Walked(reg: Registry, parts: seq<string>, k0: nat, reg': Registry, k: nat, path: string, res: Resource) {
    && k0 <= k <= |parts|
    && path == Prefix(parts, k)
    && res == ResourceOf(path)
    && (k > 0 ==> path != "" && Split(path, '/') == parts[..k])
    && Valid(reg')
    && (forall q :: q in reg ==> q in reg' && reg'[q] == reg[q])
    && (forall j :: k0 < j <= k ==> Prefix(parts, j) in reg')
    && (forall q :: q in reg' && q !in reg ==> AddedPrefix(parts, k0, k, q))
  }

  /** The walk starts from the resource `_get_rest_resource` finds. */
  lemma WalkStart(reg: Registry, p: string)
    requires Valid(reg)
    requires p == "" || Split(p, '/')[0] != ""
    ensures var parts := Split(p, '/');
      var found := GetRestResource(reg, p);
      var k0 := FoundDepth(reg, p);
      && Walked(reg, parts, k0, reg, k0, found.1, found.0)
      && (p == "" ==> k0 == 0 && found.1 == "")
      && (p != "" && k0 < |parts| ==> found.1 != p)
      && p == Join(parts, '/')
      && forall j :: k0 < j <= |parts| ==> Prefix(parts, j) !in reg
  {
    var parts := Split(p, '/');
    var k0 := FoundDepth(reg, p);
    JoinSplit(p, '/');
    if p == "" {
      assert parts == [""];
      assert k0 == 0;
    } else {
      if k0 > 0 {
        PrefixNonEmpty(parts, k0);
        SplitPrefix(parts, k0);
      }
      if k0 < |parts| {
        PrefixShort(parts, k0);
      }
    }
  }

  /** A path of fewer parts than the whole is not the whole path. */
  lemma PrefixShort(parts: seq<string>, k: nat)
    requires k < |parts| && parts[0] != ""
    requires forall i :: 0 <= i < |parts| ==> '/' !in parts[i]
    ensures Prefix(parts, k) != Join(parts, '/')
  {
    SplitJoin(parts, '/');
    PrefixNonEmpty(parts, |parts|);
    assert parts[..|parts|] == parts;
    if k > 0 {
      SplitPrefix(parts, k);
      assert |Split(Prefix(parts, k), '/')| != |parts|;
    }
  }

  /** One iteration of the walk registers the path one part longer. */
  lemma WalkAdvance(reg: Registry, parts: seq<string>, k0: nat, reg': Registry, k: nat, path: string, res: Resource)
    requires Walked(reg, parts, k0, reg', k, path, res)
    requires k < |parts| && parts[0] != ""
    requires forall i :: 0 <= i < |parts| ==> '/' !in parts[i]
    requires Prefix(parts, k + 1) !in reg
    ensures (if path == "" then 0 else |Split(path, '/')|) == k
    ensures var path' := if path == "" then parts[k] else Join([path, parts[k]], '/');
      && Walked(reg, parts, k0, reg'[path' := res + [parts[k]]], k + 1, path', res + [parts[k]])
      && (k + 1 < |parts| ==> path' != Join(parts, '/'))
  {
    var path' := if path == "" then parts[k] else Join([path, parts[k]], '/');
    PathAdvance(parts, k, path);
    var res' := res + [parts[k]];
    assert res' == parts[..k + 1] by {
      assert parts[..k + 1] == parts[..k] + [parts[k]];
    }
    RegistryAdvance(reg, parts, k0, reg', k, path, res, path', res');
  }

  /** Registering the next prefix keeps the registry's invariant and records one more addition. */
  lemma RegistryAdvance(reg: Registry, parts: seq<string>, k0: nat, reg': Registry, k: nat, path: string, res: Resource,
                        path': string, res': Resource)
    requires Walked(reg, parts, k0, reg', k, path, res) && k < |parts|
    requires path' == Prefix(parts, k + 1) && path' != "" && path' !in reg
    requires res' == parts[..k + 1] && Split(path', '/') == parts[..k + 1]
    ensures Walked(reg, parts, k0, reg'[path' := res'], k + 1, path', res')
  {
    var reg'' := reg'[path' := res'];
    forall j | k0 < j <= k + 1 ensures Prefix(parts, j) in reg'' {
      if j <= k { assert Prefix(parts, j) in reg'; }
    }
    forall q | q in reg'' && q !in reg ensures AddedPrefix(parts, k0, k + 1, q) {
      if q != path' {
        assert AddedPrefix(parts, k0, k, q);
      }
    }
  }

  /** The path one part longer is the next prefix, and it is the whole path only at the end. */
  lemma PathAdvance(parts: seq<string>, k: nat, path: string)
    requires k < |parts| && parts[0] != ""
    requires forall i :: 0 <= i < |parts| ==> '/' !in parts[i]
    requires path == Prefix(parts, k)
    requires k > 0 ==> path != "" && Split(path, '/') == parts[..k]
    ensures (if path == "" then 0 else |Split(path, '/')|) == k
    ensures var path' := if path == "" then parts[k] else Join([path, parts[k]], '/');
      && path' == Prefix(parts, k + 1) && path' != ""
      && Split(path', '/') == parts[..k + 1]
      && (k + 1 < |parts| ==> path' != Join(parts, '/'))
  {
    var path' := if path == "" then parts[k] else Join([path, parts[k]], '/');
    if path == "" {
      assert k == 0;
      assert parts[..1] == [parts[0]];
    } else {
      assert Join([path, parts[k]], '/') == path + "/" + parts[k] by {
        assert [path, parts[k]][1..] == [parts[k]];
      }
      PrefixStep(parts, k);
    }
    PrefixNonEmpty(parts, k + 1);
    SplitPrefix(parts, k + 1);
    if k + 1 < |parts| {
      PrefixShort(parts, k + 1);
    }
  }

  /** When the walk reaches the full path, the registry holds what `AddRestResource` promises. */
  lemma WalkDone(reg: Registry, p: string, reg': Registry, k: nat, res: Resource)
    requires Valid(reg)
    requires Walked(reg, Split(p, '/'), FoundDepth(reg, p), reg', k, p, res)
    requires p == "" ==> k == 0
    requires p != "" ==> k == |Split(p, '/')|
    ensures Valid(reg')
    ensures res == ResourceOf(p)
    ensures forall q :: q in reg ==> q in reg' && reg'[q] == reg[q]
    ensures p != "" ==> p in reg'
    ensures p != "" ==> forall j :: FoundDepth(reg, p) < j <= |Split(p, '/')| ==> Prefix(Split(p, '/'), j) in reg'
    ensures forall q :: q in reg' && q !in reg ==> AddedPrefix(Split(p, '/'), FoundDepth(reg, p), |Split(p, '/')|, q)
    ensures PrefixClosed(reg) ==> PrefixClosed(reg')
  {
    if p == "" {
      WalkDoneAtRoot(reg, reg', res);
    } else {
      WalkDoneAtPath(reg, p, reg', res);
    }
  }

  /** A walk to the root path adds nothing. */
  lemma WalkDoneAtRoot(reg: Registry, reg': Registry, res: Resource)
    requires Walked(reg, Split("", '/'), FoundDepth(reg, ""), reg', 0, "", res)
    ensures reg' == reg && res == []
  {
    var parts := Split("", '/');
    assert parts == [""];
    var k0 := FoundDepth(reg, "");
    assert k0 == 0;
    assert forall q :: q in reg' && q !in reg ==> AddedPrefix(parts, k0, 0, q);
  }

  lemma WalkDoneAtPath(reg: Registry, p: string, reg': Registry, res: Resource)
    requires Valid(reg) && p != ""
    requires Walked(reg, Split(p, '/'), FoundDepth(reg, p), reg', |Split(p, '/')|, p, res)
    ensures res == Split(p, '/') && p in reg'
    ensures PrefixClosed(reg) ==> PrefixClosed(reg')
  {
    var parts := Split(p, '/');
    JoinSplit(p, '/');
    assert parts[..|parts|] == parts;
    assert p == Prefix(parts, |parts|);
    if PrefixClosed(reg) {
      ClosedAfterWalk(reg, reg', parts, FoundDepth(reg, p));
    }
  }

  lemma ClosedAfterWalk(reg: Registry, reg': Registry, parts: seq<string>, k0: nat)
    requires Valid(reg) && PrefixClosed(reg) && Valid(reg')
    requires k0 <= |parts| && forall i :: 0 <= i < |parts| ==> '/' !in parts[i]
    requires k0 > 0 ==> Prefix(parts, k0) in reg
    requires forall j :: k0 < j <= |parts| ==> Prefix(parts, j) in reg'
    requires forall q :: q in reg ==> q in reg'
    requires forall q :: q in reg' && q !in reg ==> AddedPrefix(parts, k0, |parts|, q)
    ensures PrefixClosed(reg')
  {
    forall q, m | q in reg' && 1 <= m < |Split(q, '/')|
      ensures Prefix(Split(q, '/'), m) in reg'
    {
      if q !in reg {
        var j :| k0 < j <= |parts| && q == Prefix(parts, j);
        SplitPrefix(parts, j);
        assert parts[..j][..m] == parts[..m];
        assert Prefix(Split(q, '/'), m) == Prefix(parts, m);
        if m < k0 {
          SplitPrefix(parts, k0);
          assert parts[..k0][..m] == parts[..m];
          assert Prefix(Split(Prefix(parts, k0), '/'), m) == Prefix(parts, m);
        }
      }
    }
  }

  // ---------------------------------------------------------------------------
  // _create_resolvers

  /** An AppSync Lambda data source with the resolver attached to it. */
  datatype GraphqlResolver = GraphqlResolver(dataSource: string, fieldName: string, typeName: string, alias: string)

  /** A method added to a REST resource, integrated with the resolver's Lambda. */
  datatype RestMethod = RestMethod(resource: Resource, verb: string, alias: string)

  datatype Api = Api(registry: Registry, resolvers: seq<GraphqlResolver>, methods: seq<RestMethod>)

  /** Queries and mutations go to AppSync; every other operation is an HTTP method. */
  predicate IsGraphql(c: ResolverConfig) {
    IsGraphqlOperation(c.operation)
  }

  /** `with_env(name)`: the name suffixed with the deployment environment. */
  function WithEnv(name: string, env: string): string {
    name + "-" + env
  }

  /** The data source's name: `with_env(f'{name}-source')` with every `-` turned into `_`. */
  function DataSourceName(name: string, env: string): (r: string)
    ensures !Occurs("-", r)
  {
    ReplaceLeavesNoCopy(WithEnv(name + "-source", env), "-", "_");
    ReplaceAll(WithEnv(name + "-source", env), "-", "_")
  }

  function GraphqlResolverOf(c: ResolverConfig, env: string): GraphqlResolver {
    GraphqlResolver(DataSourceName(c.name, env), c.name, c.operation, c.alias)
  }

  function RestMethodOf(c: ResolverConfig): RestMethod {
    RestMethod(ResourceOf(c.restPath), c.operation, c.alias)
  }

  /** Reference: the AppSync resolvers of the configurations, in order. */
  function GraphqlResolvers(cs: seq<ResolverConfig>, env: string): seq<GraphqlResolver>
    decreases |cs|
  {
    if |cs| == 0 then []
    else
      var last := cs[|cs| - 1];
      GraphqlResolvers(cs[..|cs| - 1], env) + (if IsGraphql(last) then [GraphqlResolverOf(last, env)] else [])
  }

  /** Reference: the REST methods of the configurations, in order. */
  function RestMethods(cs: seq<ResolverConfig>): seq<RestMethod>
    decreases |cs|
  {
    if |cs| == 0 then []
    else
      var last := cs[|cs| - 1];
      RestMethods(cs[..|cs| - 1]) + (if IsGraphql(last) then [] else [RestMethodOf(last)])
  }

  /** Every configuration yields exactly one resolver or one method. */
  lemma {:induction false} EveryConfigWired(cs: seq<ResolverConfig>, env: string)
    ensures |GraphqlResolvers(cs, env)| + |RestMethods(cs)| == |cs|
    decreases |cs|
  {
    if |cs| > 0 {
      EveryConfigWired(cs[..|cs| - 1], env);
    }
  }

  /** A configuration whose REST walk terminates: its `rest_path` does not start with `/`. */
  predicate Walkable(c: ResolverConfig) {
    IsGraphql(c) || c.restPath == "" || Split(c.restPath, '/')[0] != ""
  }

  /** Every non-empty prefix of a REST configuration's path is registered. */
  ghost predicate Registered(reg: Registry, c: ResolverConfig) {
    !IsGraphql(c) && c.restPath != "" ==>
      forall j :: 1 <= j <= |Split(c.restPath, '/')| ==> Prefix(Split(c.restPath, '/'), j) in reg
  }

  /**
   * `_create_resolvers`: in order, each query or mutation gets its AppSync resolver and every
   * other configuration gets a method on the resource of its `rest_path`, after the walk has
   * registered that path and all its ancestors.
   */
  method CreateResolvers(configs: seq<ResolverConfig>, env: string) returns (api: Api)
    requires forall i :: 0 <= i < |configs| ==> Walkable(configs[i])
    ensures api.resolvers == GraphqlResolvers(configs, env)
    ensures api.methods == RestMethods(configs)
    ensures Valid(api.registry) && PrefixClosed(api.registry)
    ensures forall i :: 0 <= i < |configs| ==> Registered(api.registry, configs[i])
  {
    api := Api(map[], [], []);
    var i := 0;
    while i < |configs|
      invariant 0 <= i <= |configs|
      invariant api.resolvers == GraphqlResolvers(configs[..i], env)
      invariant api.methods == RestMethods(configs[..i])
      invariant Valid(api.registry) && PrefixClosed(api.registry)
      invariant forall i' :: 0 <= i' < i ==> Registered(api.registry, configs[i'])
    {
      var c := configs[i];
      assert configs[..i + 1][..i] == configs[..i];
      if IsGraphql(c) {
        api := api.(resolvers := api.resolvers + [GraphqlResolverOf(c, env)]);
      } else {
        var reg', res := AddRestResource(api.registry, c.restPath);
        if c.restPath != "" {
          AllPrefixes(reg', c.restPath);
        }
        forall i' | 0 <= i' < i ensures Registered(reg', configs[i']) {
          assert Registered(api.registry, configs[i']);
        }
        api := Api(reg', api.resolvers, api.methods + [RestMethod(res, c.operation, c.alias)]);
      }
      i := i + 1;
    }
    assert configs[..i] == configs;
  }

  /** In a prefix-closed registry, a registered path has all its prefixes registered. */
  lemma AllPrefixes(reg: Registry, p: string)
    requires PrefixClosed(reg) && p in reg
    ensures forall j :: 1 <= j <= |Split(p, '/')| ==> Prefix(Split(p, '/'), j) in reg
  {
    var parts := Split(p, '/');
    JoinSplit(p, '/');
    assert parts[..|parts|] == parts;
  }
}

=== FILE: schema.dfy ===
/**
 * The post-processing of the graphene-generated schema before AppSync loads it: graphene's
 * scalar names are rewritten to AppSync's, and the `GenericScalar` declaration is dropped.
 */
module Schema {
  import opened Strings

  const Uuid := "UUID"
  const Id := "ID"
  const SpacedDate := " Date"
  const SpacedAwsDate := " AWSDate"
  const Decimal := "Decimal"
  const Float := "Float"
  const GenericDecl := "scalar GenericScalar"
  const Generic := "GenericScalar"
  const AwsJson := "AWSJSON"

  /**
   * The five replacements, applied in this order, each to every occurrence. Whatever the
   * schema, no `GenericScalar` is left for AppSync to reject.
   */
  function CleanSchema(content: string): (r: string)
    ensures !Occurs(Generic, r)
  {
    var s1 := ReplaceAll(content, Uuid, Id);
    var s2 := ReplaceAll(s1, SpacedDate, SpacedAwsDate);
    var s3 := ReplaceAll(s2, Decimal, Float);
    var s4 := ReplaceAll(s3, GenericDecl, "");
    assert 'G' !in AwsJson && 'A' !in Generic by {
      assert Generic[0] == 'G' && AwsJson[0] == 'A';
    }
    ReplaceLeavesNoCopy(s4, Generic, AwsJson);
    ReplaceAll(s4, Generic, AwsJson)
  }

  /** A schema that uses none of the graphene-only names passes through unchanged. */
  lemma AppSyncSchemaUnchanged(content: string)
    requires !Occurs(Uuid, content) && !Occurs(SpacedDate, content) && !Occurs(Decimal, content)
    requires !Occurs(GenericDecl, content) && !Occurs(Generic, content)
    ensures CleanSchema(content) == content
  {
    ReplaceAbsent(content, Uuid, Id);
    ReplaceAbsent(content, SpacedDate, SpacedAwsDate);
    ReplaceAbsent(content, Decimal, Float);
    ReplaceAbsent(content, GenericDecl, "");
    ReplaceAbsent(content, Generic, AwsJson);
  }

  /** A `scalar GenericScalar` declaration contains a use of `GenericScalar`. */
  lemma DeclarationHasGeneric(x: string)
    ensures Occurs(GenericDecl, x) ==> Occurs(Generic, x)
  {
    OccursPart(GenericDecl, x, 7, 20);
    assert GenericDecl[7..20] == Generic;
  }

  /** In a schema with none of the other names, every `UUID` becomes `ID` and nothing else changes. */
  lemma UuidBecomesId(content: string)
    requires !Occurs(SpacedDate, content) && !Occurs(Decimal, content) && !Occurs(Generic, content)
    ensures CleanSchema(content) == ReplaceAll(content, Uuid, Id)
  {
    var s1 := ReplaceAll(content, Uuid, Id);
    IdInsertsNothing(content);
    DeclarationHasGeneric(s1);
    ReplaceAbsent(s1, SpacedDate, SpacedAwsDate);
    ReplaceAbsent(s1, Decimal, Float);
    ReplaceAbsent(s1, GenericDecl, "");
    ReplaceAbsent(s1, Generic, AwsJson);
  }

  /** Writing `ID` for `UUID` creates none of the later names. */
  lemma IdInsertsNothing(content: string)
    requires !Occurs(SpacedDate, content) && !Occurs(Decimal, content) && !Occurs(Generic, content)
    ensures var s1 := ReplaceAll(content, Uuid, Id);
      !Occurs(SpacedDate, s1) && !Occurs(Decimal, s1) && !Occurs(Generic, s1)
  {
    IdFacts();
    ShortNeverOccurs(SpacedDate, Id);
    ShortNeverOccurs(Decimal, Id);
    ShortNeverOccurs(Generic, Id);
    SeamByFirst(Uuid, Id, SpacedDate);
    SeamByFirst(Uuid, Id, Generic);
    UuidDecimalSeam();
    ReplaceKeepsAbsent(content, Uuid, Id, SpacedDate);
    ReplaceKeepsAbsent(content, Uuid, Id, Decimal);
    ReplaceKeepsAbsent(content, Uuid, Id, Generic);
  }

  lemma IdFacts()
    ensures Id[0] !in SpacedDate[1..] && Id[0] !in Decimal[1..] && Id[0] !in Generic[1..]
    ensures SpacedDate[0] !in Id && Generic[0] !in Id
  {
  }

  /** A `Decimal` that would start at the `D` of an inserted `ID` was there already, after `UUI`. */
  lemma UuidDecimalSeam()
    ensures Seam(Uuid, Id, Decimal)
  {
    assert (Uuid + Decimal[1..])[3..][..7] == Decimal;
    OccursAt(Decimal, Uuid + Decimal[1..], 3);
    assert Id[0..] == Id && Decimal[..|Id|][0] != Id[0];
    assert Id[1..] == "D" && Decimal[..1] == "D";
  }

  /** In a schema with none of the other names, every ` Date` becomes ` AWSDate` and nothing else changes. */
  lemma DateBecomesAwsDate(content: string)
    requires !Occurs(Uuid, content) && !Occurs(Decimal, content) && !Occurs(Generic, content)
    ensures CleanSchema(content) == ReplaceAll(content, SpacedDate, SpacedAwsDate)
  {
    ReplaceAbsent(content, Uuid, Id);
    var s2 := ReplaceAll(content, SpacedDate, SpacedAwsDate);
    AwsDateInsertsNothing(content);
    DeclarationHasGeneric(s2);
    ReplaceAbsent(s2, Decimal, Float);
    ReplaceAbsent(s2, GenericDecl, "");
    ReplaceAbsent(s2, Generic, AwsJson);
  }

  /** Writing ` AWSDate` for ` Date` creates none of the later names. */
  lemma AwsDateInsertsNothing(content: string)
    requires !Occurs(Decimal, content) && !Occurs(Generic, content)
    ensures var s2 := ReplaceAll(content, SpacedDate, SpacedAwsDate);
      !Occurs(Decimal, s2) && !Occurs(Generic, s2)
  {
    AwsDateFacts();
    MissingCharNeverOccurs(Decimal, SpacedAwsDate, 'c');
    ShortNeverOccurs(Generic, SpacedAwsDate);
    SeamBySecond(SpacedDate, SpacedAwsDate, Decimal);
    SeamByFirst(SpacedDate, SpacedAwsDate, Generic);
    ReplaceKeepsAbsent(content, SpacedDate, SpacedAwsDate, Decimal);
    ReplaceKeepsAbsent(content, SpacedDate, SpacedAwsDate, Generic);
  }

  lemma AwsDateFacts()
    ensures SpacedAwsDate[0] !in Decimal[1..] && SpacedAwsDate[0] !in Generic[1..]
    ensures 'c' in Decimal && 'c' !in SpacedAwsDate && Generic[0] !in SpacedAwsDate
    ensures forall k :: 0 <= k < |SpacedAwsDate| && SpacedAwsDate[k] == Decimal[0] ==>
              k + 1 < |SpacedAwsDate| && SpacedAwsDate[k + 1] != Decimal[1]
  {
  }

  /** In a schema with none of the other names, every `Decimal` becomes `Float` and nothing else changes. */
  lemma DecimalBecomesFloat(content: string)
    requires !Occurs(Uuid, content) && !Occurs(SpacedDate, content) && !Occurs(Generic, content)
    ensures CleanSchema(content) == ReplaceAll(content, Decimal, Float)
  {
    ReplaceAbsent(content, Uuid, Id);
    ReplaceAbsent(content, SpacedDate, SpacedAwsDate);
    var s3 := ReplaceAll(content, Decimal, Float);
    FloatFacts();
    ShortNeverOccurs(Generic, Float);
    SeamByFirst(Decimal, Float, Generic);
    ReplaceKeepsAbsent(content, Decimal, Float, Generic);
    DeclarationHasGeneric(s3);
    ReplaceAbsent(s3, GenericDecl, "");
    ReplaceAbsent(s3, Generic, AwsJson);
  }

  lemma FloatFacts()
    ensures Float[0] !in Generic[1..] && Generic[0] !in Float
  {
  }

  /** In a schema with none of the other names and no declaration, every `GenericScalar` becomes `AWSJSON`. */
  lemma GenericBecomesAwsJson(content: string)
    requires !Occurs(Uuid, content) && !Occurs(SpacedDate, content) && !Occurs(Decimal, content)
    requires !Occurs(GenericDecl, content)
    ensures CleanSchema(content) == ReplaceAll(content, Generic, AwsJson)
  {
    ReplaceAbsent(content, Uuid, Id);
    ReplaceAbsent(content, SpacedDate, SpacedAwsDate);
    ReplaceAbsent(content, Decimal, Float);
    ReplaceAbsent(content, GenericDecl, "");
  }

  /**
   * A `scalar GenericScalar` declaration on a line of its own is removed, and the lines around
   * it, holding none of the five names, are kept as they are.
   */
  lemma GenericDeclarationDropped(above: string, below: string)
    requires |above| > 0 && above[|above| - 1] == '\n' && |below| > 0 && below[0] == '\n'
    requires !Occurs(Uuid, above) && !Occurs(SpacedDate, above) && !Occurs(Decimal, above) && !Occurs(Generic, above)
    requires !Occurs(Uuid, below) && !Occurs(SpacedDate, below) && !Occurs(Decimal, below) && !Occurs(Generic, below)
    ensures CleanSchema(above + GenericDecl + below) == above + below
  {
    FirstThreeKeepLine(above, below);
    DropLine(above, below);
    NoNewline();
    NoCrossByLast(above, below, Generic);
    ReplaceConcat(above, below, Generic, AwsJson);
    ReplaceAbsent(above, Generic, AwsJson);
    ReplaceAbsent(below, Generic, AwsJson);
  }

  /** The first three rules find nothing to rewrite in the declaration or the lines around it. */
  lemma FirstThreeKeepLine(above: string, below: string)
    requires |above| > 0 && above[|above| - 1] == '\n' && |below| > 0 && below[0] == '\n'
    requires !Occurs(Uuid, above) && !Occurs(SpacedDate, above) && !Occurs(Decimal, above)
    requires !Occurs(Uuid, below) && !Occurs(SpacedDate, below) && !Occurs(Decimal, below)
    ensures var c := above + GenericDecl + below;
      ReplaceAll(c, Uuid, Id) == c && ReplaceAll(c, SpacedDate, SpacedAwsDate) == c
      && ReplaceAll(c, Decimal, Float) == c
  {
    NoNewline();
    DeclarationLacks('U');
    MissingCharNeverOccurs(Uuid, GenericDecl, 'U');
    DeclarationLacks('D');
    MissingCharNeverOccurs(SpacedDate, GenericDecl, 'D');
    MissingCharNeverOccurs(Decimal, GenericDecl, 'D');
    KeptAroundLine(above, GenericDecl, below, Uuid, Id);
    KeptAroundLine(above, GenericDecl, below, SpacedDate, SpacedAwsDate);
    KeptAroundLine(above, GenericDecl, below, Decimal, Float);
  }

  /** The fourth rule removes the declaration line's text and keeps the rest. */
  lemma DropLine(above: string, below: string)
    requires |above| > 0 && above[|above| - 1] == '\n' && |below| > 0 && below[0] == '\n'
    requires !Occurs(Generic, above) && !Occurs(Generic, below)
    ensures ReplaceAll(above + GenericDecl + below, GenericDecl, "") == above + below
  {
    NoNewline();
    DeclarationHasGeneric(above);
    DeclarationHasGeneric(below);
    DeleteBetweenLines(above, GenericDecl, below);
  }

  lemma NoNewline()
    ensures '\n' !in Uuid && '\n' !in SpacedDate && '\n' !in Decimal && '\n' !in GenericDecl && '\n' !in Generic
  {
  }

  /** A replacement whose pattern occurs in none of three lines leaves their join unchanged. */
  lemma KeptAroundLine(above: string, mid: string, below: string, pat: string, rep: string)
    requires |above| > 0 && above[|above| - 1] == '\n' && |below| > 0 && below[0] == '\n'
    requires |pat| > 0 && '\n' !in pat
    requires !Occurs(pat, above) && !Occurs(pat, mid) && !Occurs(pat, below)
    ensures ReplaceAll(above + mid + below, pat, rep) == above + mid + below
  {
    ReplaceBetweenLines(above, mid, below, pat, rep);
    ReplaceAbsent(above, pat, rep);
    ReplaceAbsent(mid, pat, rep);
    ReplaceAbsent(below, pat, rep);
  }

  lemma DeclarationLacks(c: char)
    requires c == 'U' || c == 'D'
    ensures c !in GenericDecl
  {
  }
}

=== FILE: strings.dfy ===
/**
 * String primitives the adapter and the deployment helpers rely on: prefix tests,
 * occurrence, Python's `str.replace` (all occurrences, leftmost first, non-overlapping),
 * `str.split` on one separator character with its `join`, and ASCII case mapping.
 */
module Strings {

  predicate IsPrefix(p: string, s: string) {
    |p| <= |s| && s[..|p|] == p
  }

  /** True iff `w` occurs as a contiguous piece of `s`. */
  predicate Occurs(w: string, s: string)
    decreases |s|
  {
    IsPrefix(w, s) || (|s| > 0 && Occurs(w, s[1..]))
  }

  /** `s.replace(pat, rep)` for a non-empty `pat`. */
  function ReplaceAll(s: string, pat: string, rep: string): string
    requires |pat| > 0
    decreases |s|
  {
    if |s| < |pat| then s
    else if s[..|pat|] == pat then rep + ReplaceAll(s[|pat|..], pat, rep)
    else [s[0]] + ReplaceAll(s[1..], pat, rep)
  }

  // ---------------------------------------------------------------------------
  // Occurrence facts

  lemma {:induction false} ShortNeverOccurs(w: string, s: string)
    requires |s| < |w|
    ensures !Occurs(w, s)
    decreases |s|
  {
    if |s| > 0 {
      ShortNeverOccurs(w, s[1..]);
    }
  }

  /** A piece containing a character that `s` lacks cannot occur in `s`. */
  lemma {:induction false} MissingCharNeverOccurs(w: string, s: string, c: char)
    requires c in w && c !in s
    ensures !Occurs(w, s)
    decreases |s|
  {
    var k :| 0 <= k < |w| && w[k] == c;
    if |w| <= |s| {
      assert s[..|w|][k] != c;
    }
    if |s| > 0 {
      MissingCharNeverOccurs(w, s[1..], c);
    }
  }

  lemma {:induction false} OccursSkipsHead(w: string, a: string, b: string)
    requires |w| > 0 && w[0] !in a
    ensures Occurs(w, a + b) ==> Occurs(w, b)
    decreases |a|
  {
    if |a| > 0 {
      assert (a + b)[1..] == a[1..] + b;
      OccursSkipsHead(w, a[1..], b);
    } else {
      assert a + b == b;
    }
  }

  // ---------------------------------------------------------------------------
  // Replacement facts

  /** Replacing a piece that does not occur changes nothing. */
  lemma {:induction false} ReplaceAbsent(s: string, pat: string, rep: string)
    requires |pat| > 0 && !Occurs(pat, s)
    ensures ReplaceAll(s, pat, rep) == s
    decreases |s|
  {
    if |s| >= |pat| {
      assert !IsPrefix(pat, s);
      ReplaceAbsent(s[1..], pat, rep);
      assert [s[0]] + s[1..] == s;
    }
  }

  /** A character that cannot start `pat` is copied and the scan moves on. */
  lemma ReplaceSkip(c: char, t: string, pat: string, rep: string)
    requires |pat| > 0 && c != pat[0]
    ensures ReplaceAll([c] + t, pat, rep) == [c] + ReplaceAll(t, pat, rep)
  {
    var s := [c] + t;
    assert s[1..] == t;
    if |s| >= |pat| {
      assert s[..|pat|][0] == c;
    } else {
      ShortNeverOccurs(pat, t);
      ReplaceAbsent(t, pat, rep);
    }
  }

  /** A copy of `pat` at the front is rewritten and the scan resumes after it. */
  lemma ReplaceHit(pat: string, t: string, rep: string)
    requires |pat| > 0
    ensures ReplaceAll(pat + t, pat, rep) == rep + ReplaceAll(t, pat, rep)
  {
    var s := pat + t;
    assert s[..|pat|] == pat;
    assert s[|pat|..] == t;
  }

  /** One copy of `pat` between text that holds no other copy is the only one rewritten. */
  lemma {:induction false} ReplaceInside(x: string, t: string, pat: string, rep: string)
    requires |pat| > 0 && pat[0] !in x && !Occurs(pat, t)
    ensures ReplaceAll(x + pat + t, pat, rep) == x + rep + t
    decreases |x|
  {
    if |x| == 0 {
      assert x + pat + t == pat + t;
      ReplaceHit(pat, t, rep);
      ReplaceAbsent(t, pat, rep);
    } else {
      assert x + pat + t == [x[0]] + (x[1..] + pat + t);
      ReplaceSkip(x[0], x[1..] + pat + t, pat, rep);
      ReplaceInside(x[1..], t, pat, rep);
      assert x + rep + t == [x[0]] + (x[1..] + rep + t);
    }
  }

  /** Deleting `pat` from `pat + x + pat + t` removes both copies when there are no others. */
  lemma DeleteBothCopies(x: string, t: string, pat: string)
    requires |pat| > 0 && pat[0] !in x && !Occurs(pat, t)
    ensures ReplaceAll(pat + (x + pat + t), pat, "") == x + t
  {
    ReplaceHit(pat, x + pat + t, "");
    ReplaceInside(x, t, pat, "");
    assert "" + (x + "" + t) == x + t;
  }

  lemma ReplaceWhole(pat: string, rep: string)
    requires |pat| > 0
    ensures ReplaceAll(pat, pat, rep) == rep
  {
    assert pat[..|pat|] == pat;
    assert pat[|pat|..] == "";
    assert rep + "" == rep;
  }

  /**
   * When `rep` cannot start a fresh copy of `pat` across the rewritten text, a prefix of the
   * rewritten string that avoids `rep[0]` is a prefix of the original string.
   */
  lemma {:induction false} PrefixSurvivesReplace(t: string, pat: string, rep: string, w: string)
    requires |pat| > 0 && |rep| > 0 && rep[0] !in w
    requires IsPrefix(w, ReplaceAll(t, pat, rep))
    ensures IsPrefix(w, t)
    decreases |t|
  {
    if |t| < |pat| || |w| == 0 {
    } else if t[..|pat|] == pat {
    } else {
      var rest := ReplaceAll(t[1..], pat, rep);
      assert ReplaceAll(t, pat, rep) == [t[0]] + rest;
      assert w[0] == t[0];
      assert IsPrefix(w[1..], rest);
      PrefixSurvivesReplace(t[1..], pat, rep, w[1..]);
      assert w == [w[0]] + w[1..];
    }
  }

  /**
   * After a replace-all, no copy of `pat` is left, provided the replacement text and the
   * replaced text share neither's first character.
   */
  lemma {:induction false} ReplaceLeavesNoCopy(s: string, pat: string, rep: string)
    requires |pat| > 0 && |rep| > 0
    requires pat[0] !in rep && rep[0] !in pat
    ensures !Occurs(pat, ReplaceAll(s, pat, rep))
    decreases |s|
  {
    if |s| < |pat| {
      ShortNeverOccurs(pat, s);
    } else if s[..|pat|] == pat {
      var rest := ReplaceAll(s[|pat|..], pat, rep);
      ReplaceLeavesNoCopy(s[|pat|..], pat, rep);
      OccursSkipsHead(pat, rep, rest);
    } else {
      var rest := ReplaceAll(s[1..], pat, rep);
      var r := [s[0]] + rest;
      assert ReplaceAll(s, pat, rep) == r;
      ReplaceLeavesNoCopy(s[1..], pat, rep);
      assert r[1..] == rest;
      assert s[..|pat|] == [s[0]] + s[1..][..|pat| - 1];
      assert pat == [pat[0]] + pat[1..];
      if IsPrefix(pat, r) {
        PrefixSurvivesReplace(s[1..], pat, rep, pat[1..]);
      }
    }
  }

  // ---------------------------------------------------------------------------
  // Occurrences a replacement cannot create

  /** A copy of `w` starting at position `k` of `x` is a copy in `x`. */
  lemma {:induction false} OccursAt(w: string, x: string, k: nat)
    requires k <= |x|
    ensures IsPrefix(w, x[k..]) ==> Occurs(w, x)
    decreases k
  {
    if k == 0 {
      assert x[0..] == x;
    } else {
      assert x[1..][k - 1..] == x[k..];
      OccursAt(w, x[1..], k - 1);
    }
  }

  /** A copy in a suffix of `s` is a copy in `s`. */
  lemma {:induction false} OccursInSuffix(w: string, s: string, k: nat)
    requires k <= |s|
    ensures Occurs(w, s[k..]) ==> Occurs(w, s)
    decreases k
  {
    if k == 0 {
      assert s[0..] == s;
    } else {
      assert s[1..][k - 1..] == s[k..];
      OccursInSuffix(w, s[1..], k - 1);
    }
  }

  /** A copy inside a prefix of `b` is a copy in `b`. */
  lemma {:induction false} OccursInPrefix(w: string, a: string, b: string)
    ensures IsPrefix(a, b) && Occurs(w, a) ==> Occurs(w, b)
    decreases |a|
  {
    if IsPrefix(a, b) {
      if IsPrefix(w, a) {
        assert b[..|w|] == a[..|w|];
      } else if |a| > 0 {
        assert b[1..][..|a| - 1] == a[1..];
        OccursInPrefix(w, a[1..], b[1..]);
      }
    }
  }

  /** A piece of a copy of `w` is itself a copy. */
  lemma {:induction false} OccursPart(w: string, x: string, i: nat, j: nat)
    requires i <= j <= |w|
    ensures Occurs(w, x) ==> Occurs(w[i..j], x)
    decreases |x|
  {
    if IsPrefix(w, x) {
      assert x[i..][..j - i] == w[i..j];
      OccursAt(w[i..j], x, i);
    } else if |x| > 0 {
      OccursPart(w, x[1..], i, j);
    }
  }

  /** A copy of `w` in `a + u` lies in `u` or starts inside `a`. */
  lemma {:induction false} OccursSplit(w: string, a: string, u: string)
    ensures Occurs(w, a + u) ==> Occurs(w, u) || exists k :: 0 <= k < |a| && IsPrefix(w, a[k..] + u)
    decreases |a|
  {
    if |a| == 0 {
      assert a + u == u;
    } else if IsPrefix(w, a + u) {
      assert a[0..] == a;
    } else {
      assert (a + u)[1..] == a[1..] + u;
      OccursSplit(w, a[1..], u);
      if Occurs(w, a + u) && !Occurs(w, u) {
        var k :| 0 <= k < |a[1..]| && IsPrefix(w, a[1..][k..] + u);
        assert a[1..][k..] == a[k + 1..];
      }
    }
  }

  /** A prefix of a rewritten text that avoids `rep[0]` is a prefix of the original. */
  lemma PrefixSurvives(t: string, pat: string, rep: string, v: string)
    requires |pat| > 0 && |rep| > 0 && rep[0] !in v
    ensures IsPrefix(v, ReplaceAll(t, pat, rep)) ==> IsPrefix(v, t)
  {
    if IsPrefix(v, ReplaceAll(t, pat, rep)) {
      PrefixSurvivesReplace(t, pat, rep, v);
    }
  }

  /**
   * A copy of `w` that would start inside an inserted `rep` and run on past it was already a
   * copy around the `pat` that `rep` replaced.
   */
  predicate Seam(pat: string, rep: string, w: string) {
    forall k :: 0 <= k < |rep| && |rep| - k < |w| && IsPrefix(rep[k..], w) ==> Occurs(w, pat + w[|rep| - k..])
  }

  lemma SeamByFirst(pat: string, rep: string, w: string)
    requires |w| > 0 && w[0] !in rep
    ensures Seam(pat, rep, w)
  {
    forall k | 0 <= k < |rep| ensures !IsPrefix(rep[k..], w) {
      assert rep[k..][0] == rep[k];
    }
  }

  lemma SeamBySecond(pat: string, rep: string, w: string)
    requires |w| > 1
    requires forall k :: 0 <= k < |rep| && rep[k] == w[0] ==> k + 1 < |rep| && rep[k + 1] != w[1]
    ensures Seam(pat, rep, w)
  {
    forall k | 0 <= k < |rep| ensures !IsPrefix(rep[k..], w) {
      assert rep[k..][0] == rep[k];
      if rep[k] == w[0] {
        assert rep[k..][1] == rep[k + 1];
      }
    }
  }

  /**
   * A replace-all creates no copy of `w`: none inside `rep`, none starting inside `rep` that
   * was not already there around `pat`, and none that `rep` interrupts, since `rep` does not
   * start anywhere in `w` after its first character.
   */
  lemma {:induction false} ReplaceKeepsAbsent(s: string, pat: string, rep: string, w: string)
    requires |pat| > 0 && |rep| > 0 && |w| > 0
    requires !Occurs(w, s) && !Occurs(w, rep) && rep[0] !in w[1..] && Seam(pat, rep, w)
    ensures !Occurs(w, ReplaceAll(s, pat, rep))
    decreases |s|
  {
    if |s| < |pat| {
    } else if s[..|pat|] == pat {
      var t := s[|pat|..];
      var u := ReplaceAll(t, pat, rep);
      OccursInSuffix(w, s, |pat|);
      ReplaceKeepsAbsent(t, pat, rep, w);
      forall k | 0 <= k < |rep| ensures !IsPrefix(w, rep[k..] + u) {
        NoCopyFromInside(s, pat, rep, w, k);
      }
      OccursSplit(w, rep, u);
    } else {
      var u := ReplaceAll(s[1..], pat, rep);
      var r := [s[0]] + u;
      ReplaceKeepsAbsent(s[1..], pat, rep, w);
      assert r[1..] == u;
      PrefixSurvives(s[1..], pat, rep, w[1..]);
      assert IsPrefix(w, r) ==> IsPrefix(w[1..], u);
      assert IsPrefix(w[1..], s[1..]) && w[0] == s[0] ==> IsPrefix(w, s) by {
        assert |w| <= |s| ==> s[..|w|] == [s[0]] + s[1..][..|w| - 1];
        assert w == [w[0]] + w[1..];
      }
    }
  }

  /** No copy of `w` starts at position `k` of a `rep` inserted for the `pat` at the front of `s`. */
  lemma NoCopyFromInside(s: string, pat: string, rep: string, w: string, k: nat)
    requires |pat| > 0 && |rep| > 0 && |w| > 0 && |s| >= |pat| && s[..|pat|] == pat
    requires !Occurs(w, s) && !Occurs(w, rep) && rep[0] !in w[1..] && Seam(pat, rep, w)
    requires k < |rep|
    ensures !IsPrefix(w, rep[k..] + ReplaceAll(s[|pat|..], pat, rep))
  {
    var u := ReplaceAll(s[|pat|..], pat, rep);
    if |w| <= |rep| - k {
      OccursAt(w, rep, k);
      PrefixOfFront(w, rep[k..], u);
    } else {
      PrefixPastFront(w, rep[k..], u);
      SeamAt(pat, rep, w, |rep| - k);
      NoCopyPast(s, pat, rep, w, |rep| - k);
    }
  }

  lemma PrefixOfFront(w: string, a: string, u: string)
    requires |w| <= |a|
    ensures IsPrefix(w, a + u) ==> IsPrefix(w, a)
  {
    assert (a + u)[..|w|] == a[..|w|];
  }

  lemma PrefixPastFront(w: string, a: string, u: string)
    requires |a| < |w|
    ensures IsPrefix(w, a + u) ==> IsPrefix(a, w) && IsPrefix(w[|a|..], u)
  {
    if IsPrefix(w, a + u) {
      assert w == (a + u)[..|w|];
      assert (a + u)[..|w|][..|a|] == a;
      assert (a + u)[..|w|][|a|..] == u[..|w| - |a|];
    }
  }

  /** The rest of `w` past the inserted text would have been in place after `pat` already. */
  lemma NoCopyPast(s: string, pat: string, rep: string, w: string, n: nat)
    requires |pat| > 0 && |rep| > 0 && |s| >= |pat| && s[..|pat|] == pat
    requires !Occurs(w, s) && rep[0] !in w[1..]
    requires 0 < n <= |rep| && n < |w|
    requires IsPrefix(rep[|rep| - n..], w) ==> Occurs(w, pat + w[n..])
    ensures !(IsPrefix(rep[|rep| - n..], w) && IsPrefix(w[n..], ReplaceAll(s[|pat|..], pat, rep)))
  {
    var t := s[|pat|..];
    var v := w[n..];
    SuffixLacks(w, n, rep[0]);
    PrefixSurvives(t, pat, rep, v);
    PrefixAfter(s, pat, v);
    OccursInPrefix(w, pat + v, s);
  }

  lemma SuffixLacks(w: string, n: nat, c: char)
    requires 0 < n <= |w| && c !in w[1..]
    ensures c !in w[n..]
  {
    assert w[n..] == w[1..][n - 1..];
  }

  lemma PrefixAfter(s: string, pat: string, v: string)
    requires |pat| <= |s| && s[..|pat|] == pat
    ensures IsPrefix(v, s[|pat|..]) ==> IsPrefix(pat + v, s)
  {
    if IsPrefix(v, s[|pat|..]) {
      assert s[..|pat| + |v|] == s[..|pat|] + s[|pat|..][..|v|];
    }
  }

  /** `Seam` at the position `n` characters before the end of `rep`. */
  lemma SeamAt(pat: string, rep: string, w: string, n: nat)
    requires Seam(pat, rep, w) && 0 < n <= |rep| && n < |w|
    ensures IsPrefix(rep[|rep| - n..], w) ==> Occurs(w, pat + w[n..])
  {
    var k := |rep| - n;
    assert |rep| - k == n;
  }

  // ---------------------------------------------------------------------------
  // Replacement over a concatenation

  predicate MatchAt(s: string, i: int, w: string) {
    0 <= i && i + |w| <= |s| && s[i..i + |w|] == w
  }

  /** No copy of `w` in `x + y` straddles the boundary between `x` and `y`. */
  predicate NoCross(x: string, y: string, w: string) {
    forall i :: 0 <= i < |x| < i + |w| ==> !MatchAt(x + y, i, w)
  }

  lemma NoCrossByLast(x: string, y: string, w: string)
    requires |x| > 0 && x[|x| - 1] !in w
    ensures NoCross(x, y, w)
  {
    forall i | 0 <= i < |x| < i + |w|
      ensures !MatchAt(x + y, i, w)
    {
      if i + |w| <= |x + y| {
        assert (x + y)[i..i + |w|][|x| - 1 - i] == x[|x| - 1];
        assert w[|x| - 1 - i] in w;
      }
    }
  }

  lemma NoCrossByFirst(x: string, y: string, w: string)
    requires |y| > 0 && y[0] !in w
    ensures NoCross(x, y, w)
  {
    forall i | 0 <= i < |x| < i + |w|
      ensures !MatchAt(x + y, i, w)
    {
      if i + |w| <= |x + y| {
        assert (x + y)[i..i + |w|][|x| - i] == y[0];
        assert w[|x| - i] in w;
      }
    }
  }

  lemma NoCrossAtEnd(x: string, w: string)
    ensures NoCross(x, "", w)
  {
  }

  lemma NoCrossDrop(x: string, y: string, w: string, k: int)
    requires NoCross(x, y, w) && 0 <= k <= |x|
    ensures NoCross(x[k..], y, w)
  {
    var xk := x[k..];
    assert xk + y == (x + y)[k..];
    forall i | 0 <= i < |xk| < i + |w|
      ensures !MatchAt(xk + y, i, w)
    {
      assert !MatchAt(x + y, i + k, w);
      if i + |w| <= |xk + y| {
        assert (xk + y)[i..i + |w|] == (x + y)[i + k..i + k + |w|];
      }
    }
  }

  /** Replace-all distributes over a concatenation no copy straddles. */
  lemma {:induction false} ReplaceConcat(x: string, y: string, pat: string, rep: string)
    requires |pat| > 0 && NoCross(x, y, pat)
    ensures ReplaceAll(x + y, pat, rep) == ReplaceAll(x, pat, rep) + ReplaceAll(y, pat, rep)
    decreases |x|, 1
  {
    var xy := x + y;
    if |x| == 0 {
      assert xy == y;
    } else if |xy| < |pat| {
      assert ReplaceAll(x, pat, rep) == x;
      assert ReplaceAll(y, pat, rep) == y;
    } else if xy[..|pat|] == pat {
      ReplaceConcatAtMatch(x, y, pat, rep);
    } else {
      ReplaceConcatPastChar(x, y, pat, rep);
    }
  }

  /** Replace-all works line by line when the pattern holds no line break. */
  lemma ReplaceBetweenLines(above: string, mid: string, below: string, pat: string, rep: string)
    requires |above| > 0 && above[|above| - 1] == '\n' && |below| > 0 && below[0] == '\n'
    requires |pat| > 0 && '\n' !in pat
    ensures ReplaceAll(above + mid + below, pat, rep)
         == ReplaceAll(above, pat, rep) + ReplaceAll(mid, pat, rep) + ReplaceAll(below, pat, rep)
  {
    var rest := mid + below;
    assert above + mid + below == above + rest;
    NoCrossByLast(above, rest, pat);
    ReplaceConcat(above, rest, pat, rep);
    NoCrossByFirst(mid, below, pat);
    ReplaceConcat(mid, below, pat, rep);
  }

  /** Deleting a pattern that makes up one whole line leaves the lines around it, which lack it. */
  lemma DeleteBetweenLines(above: string, pat: string, below: string)
    requires |above| > 0 && above[|above| - 1] == '\n' && |below| > 0 && below[0] == '\n'
    requires |pat| > 0 && '\n' !in pat && !Occurs(pat, above) && !Occurs(pat, below)
    ensures ReplaceAll(above + pat + below, pat, "") == above + below
  {
    ReplaceBetweenLines(above, pat, below, pat, "");
    ReplaceWhole(pat, "");
    ReplaceAbsent(above, pat, "");
    ReplaceAbsent(below, pat, "");
    JoinEmpty(above, below);
  }

  lemma JoinEmpty(a: string, b: string)
    ensures a + "" + b == a + b
  {
    assert a + "" == a;
  }

  lemma {:induction false} ReplaceConcatAtMatch(x: string, y: string, pat: string, rep: string)
    requires |pat| > 0 && NoCross(x, y, pat) && |x| > 0
    requires |x + y| >= |pat| && (x + y)[..|pat|] == pat
    ensures ReplaceAll(x + y, pat, rep) == ReplaceAll(x, pat, rep) + ReplaceAll(y, pat, rep)
    decreases |x|, 0
  {
    var xy := x + y;
    assert !MatchAt(xy, 0, pat) || |pat| <= |x|;
    assert x[..|pat|] == pat;
    assert xy[|pat|..] == x[|pat|..] + y;
    NoCrossDrop(x, y, pat, |pat|);
    ReplaceConcat(x[|pat|..], y, pat, rep);
  }

  lemma {:induction false} ReplaceConcatPastChar(x: string, y: string, pat: string, rep: string)
    requires |pat| > 0 && NoCross(x, y, pat) && |x| > 0
    requires |x + y| >= |pat| && (x + y)[..|pat|] != pat
    ensures ReplaceAll(x + y, pat, rep) == ReplaceAll(x, pat, rep) + ReplaceAll(y, pat, rep)
    decreases |x|, 0
  {
    var xy := x + y;
    assert xy[1..] == x[1..] + y;
    assert xy[0] == x[0];
    ReplaceStep(xy, pat, rep);
    assert |x| >= |pat| ==> x[..|pat|] == xy[..|pat|];
    ReplaceStep(x, pat, rep);
    NoCrossDrop(x, y, pat, 1);
    ReplaceConcat(x[1..], y, pat, rep);
  }

  /** Where no copy starts, the first character is kept and the rest is rewritten. */
  lemma ReplaceStep(s: string, pat: string, rep: string)
    requires |pat| > 0 && |s| > 0 && !IsPrefix(pat, s)
    ensures ReplaceAll(s, pat, rep) == [s[0]] + ReplaceAll(s[1..], pat, rep)
  {
    if |s| < |pat| {
      ShortNeverOccurs(pat, s[1..]);
      ReplaceAbsent(s[1..], pat, rep);
      assert [s[0]] + s[1..] == s;
    }
  }

  // ---------------------------------------------------------------------------
  // Splitting and joining on one separator character

  /** `s.split(sep)`: always at least one part, and no part holds the separator. */
  function Split(s: string, sep: char): (parts: seq<string>)
    ensures |parts| >= 1
    ensures forall i :: 0 <= i < |parts| ==> sep !in parts[i]
    decreases |s|
  {
    if |s| == 0 then [""]
    else
      var rest := Split(s[1..], sep);
      if s[0] == sep then [""] + rest
      else [[s[0]] + rest[0]] + rest[1..]
  }

  /** `sep.join(parts)`. */
  function Join(parts: seq<string>, sep: char): string
    decreases |parts|
  {
    if |parts| == 0 then ""
    else if |parts| == 1 then parts[0]
    else parts[0] + [sep] + Join(parts[1..], sep)
  }

  lemma JoinHeadChar(c: char, p: string, q: seq<string>, sep: char)
    ensures Join([[c] + p] + q, sep) == [c] + Join([p] + q, sep)
  {
    var ps := [[c] + p] + q;
    assert ps[1..] == q;
    assert ([p] + q)[1..] == q;
  }

  /** Joining one more part appends the separator and that part. */
  lemma {:induction false} JoinSnoc(parts: seq<string>, x: string, sep: char)
    requires |parts| >= 1
    ensures Join(parts + [x], sep) == Join(parts, sep) + [sep] + x
    decreases |parts|
  {
    var px := parts + [x];
    assert px[1..] == parts[1..] + [x];
    if |parts| > 1 {
      JoinSnoc(parts[1..], x, sep);
    }
  }

  /** A join starts with its first part. */
  lemma JoinStartsWithHead(parts: seq<string>, sep: char)
    requires |parts| >= 1
    ensures IsPrefix(parts[0], Join(parts, sep))
  {
  }

  /** Joining the parts of a split gives back the string. */
  lemma {:induction false} JoinSplit(s: string, sep: char)
    ensures Join(Split(s, sep), sep) == s
    decreases |s|
  {
    if |s| > 0 {
      var rest := Split(s[1..], sep);
      JoinSplit(s[1..], sep);
      if s[0] == sep {
        assert ([""] + rest)[1..] == rest;
        assert s == [sep] + s[1..];
      } else {
        assert rest == [rest[0]] + rest[1..];
        JoinHeadChar(s[0], rest[0], rest[1..], sep);
        assert s == [s[0]] + s[1..];
      }
    }
  }

  lemma {:induction false} SplitWithoutSep(s: string, sep: char)
    requires sep !in s
    ensures Split(s, sep) == [s]
    decreases |s|
  {
    if |s| > 0 {
      SplitWithoutSep(s[1..], sep);
      assert [s[0]] + s[1..] == s;
    }
  }

  lemma {:induction false} SplitAtFirstSep(a: string, b: string, sep: char)
    requires sep !in a
    ensures Split(a + [sep] + b, sep) == [a] + Split(b, sep)
    decreases |a|
  {
    var s := a + [sep] + b;
    if |a| == 0 {
      assert s[1..] == b;
    } else {
      assert s[1..] == a[1..] + [sep] + b;
      SplitAtFirstSep(a[1..], b, sep);
      assert [a[0]] + a[1..] == a;
    }
  }

  /** Splitting a join of separator-free parts gives back the parts. */
  lemma {:induction false} SplitJoin(parts: seq<string>, sep: char)
    requires |parts| >= 1
    requires forall i :: 0 <= i < |parts| ==> sep !in parts[i]
    ensures Split(Join(parts, sep), sep) == parts
    decreases |parts|
  {
    if |parts| == 1 {
      SplitWithoutSep(parts[0], sep);
    } else {
      SplitJoin(parts[1..], sep);
      SplitAtFirstSep(parts[0], Join(parts[1..], sep), sep);
      assert [parts[0]] + parts[1..] == parts;
    }
  }

  // ---------------------------------------------------------------------------
  // ASCII case mapping (the model's stand-in for Python's Unicode `lower`/`upper`)

  predicate IsUpper(c: char) {
    'A' <= c <= 'Z'
  }

  predicate IsLower(c: char) {
    'a' <= c <= 'z'
  }

  predicate IsLetter(c: char) {
    IsUpper(c) || IsLower(c)
  }

  function Lower(c: char): (r: char)
    ensures !IsUpper(r)
    ensures IsUpper(c) <==> r != c
  {
    if IsUpper(c) then (c as int + 32) as char else c
  }

  function Upper(c: char): (r: char)
    ensures !IsLower(r)
    ensures IsLower(c) <==> r != c
  {
    if IsLower(c) then (c as int - 32) as char else c
  }

  lemma UpperLower(c: char)
    requires IsUpper(c)
    ensures Upper(Lower(c)) == c && IsLower(Lower(c))
  {
  }

  lemma LowerUpper(c: char)
    requires IsLower(c)
    ensures Lower(Upper(c)) == c && IsUpper(Upper(c))
  {
  }

  /** `s.lower()`. */
  function LowerStr(s: string): (r: string)
    ensures |r| == |s|
    ensures forall i :: 0 <= i < |s| ==> r[i] == Lower(s[i])
  {
    seq(|s|, i requires 0 <= i < |s| => Lower(s[i]))
  }

  predicate NoUpper(s: string) {
    forall i :: 0 <= i < |s| ==> !IsUpper(s[i])
  }

  lemma LowerStrIdentity(s: string)
    requires NoUpper(s)
    ensures LowerStr(s) == s
  {
  }

  lemma LowerStrIdempotent(s: string)
    ensures LowerStr(LowerStr(s)) == LowerStr(s)
  {
  }

  /** A piece that starts with an upper-case letter cannot occur in text without one. */
  lemma NoUpperNeverOccurs(w: string, s: string)
    requires |w| > 0 && IsUpper(w[0]) && NoUpper(s)
    ensures !Occurs(w, s)
  {
    MissingCharNeverOccurs(w, s, w[0]);
  }
}

=== FILE: templates.dfy ===
/**
 * The code generated around each resolver's handler at build time: `generate_append` picks a
 * template by operation and replaces its placeholders in a fixed order, `generate_prepend`
 * fills the one placeholder of the Django bootstrap. Both return the UTF-8 bytes of the text.
 *
 * A template is kept as a sequence of literal text chunks and placeholder slots, so that the
 * text the generators start from is `Render(template, map[])` and the text they should end
 * with is the same template rendered with every slot filled.
 */
module Templates {
  import opened Wrappers
  import opened Strings
  import opened Config
  import Utf8

  datatype Piece = Text(t: string) | Slot(name: string)

  type Template = seq<Piece>

  /** The values given to the placeholders filled so far. */
  type Bindings = map<string, string>

  /** A filled slot shows its value, an unfilled one its placeholder name. */
  function Show(p: Piece, env: Bindings): string {
    match p
    case Text(t) => t
    case Slot(n) => if n in env then env[n] else n
  }

  function Render(ps: Template, env: Bindings): string
    decreases |ps|
  {
    if |ps| == 0 then "" else Render(ps[..|ps| - 1], env) + Show(ps[|ps| - 1], env)
  }

  /** Placeholder names are upper-case words joined by `_`. */
  predicate IsPlaceholder(n: string) {
    |n| > 0 && IsUpper(n[0]) && forall i :: 0 <= i < |n| ==> IsUpper(n[i]) || n[i] == '_'
  }

  /** A character that can never be part of a placeholder. */
  predicate SafeChar(c: char) {
    !IsUpper(c) && c != '_'
  }

  /**
   * Text chunks are non-empty and start and end with a character no placeholder contains, and
   * every slot has text on at least one side: so no placeholder can straddle two pieces.
   */
  predicate Chunked(ps: Template) {
    && (forall i :: 0 <= i < |ps| ==>
          match ps[i]
          case Text(t) => |t| > 0 && SafeChar(t[0]) && SafeChar(t[|t| - 1])
          case Slot(n) => IsPlaceholder(n))
    && (forall i :: 0 < i < |ps| ==> ps[i - 1].Text? || ps[i].Text?)
  }

  lemma SafeNotIn(c: char, pat: string)
    requires SafeChar(c) && IsPlaceholder(pat)
    ensures c !in pat
  {
  }

  /** Rendering the first `k` pieces adds the `k`-th piece's text to the rendering before it. */
  lemma RenderPrefix(ps: Template, k: nat, env: Bindings)
    requires 0 < k <= |ps|
    ensures Render(ps[..k], env) == Render(ps[..k - 1], env) + Show(ps[k - 1], env)
  {
    assert ps[..k][..k - 1] == ps[..k - 1];
  }

  /** A rendering of eight, ten or twelve pieces, spelled out. */
  lemma Render8(ps: Template, env: Bindings)
    requires |ps| == 8
    ensures Render(ps, env) == Show(ps[0], env) + Show(ps[1], env) + Show(ps[2], env) + Show(ps[3], env) + Show(ps[4], env) + Show(ps[5], env) + Show(ps[6], env) + Show(ps[7], env)
  {
    assert ps[..|ps|] == ps;
    RenderPrefix(ps, 8, env);
    RenderPrefix(ps, 7, env);
    RenderPrefix(ps, 6, env);
    RenderPrefix(ps, 5, env);
    RenderPrefix(ps, 4, env);
    RenderPrefix(ps, 3, env);
    RenderPrefix(ps, 2, env);
    assert Render(ps[..1], env) == Show(ps[0], env) by {
      RenderPrefix(ps, 1, env);
      assert Render(ps[..0], env) == "";
    }
  }

  lemma Render10(ps: Template, env: Bindings)
    requires |ps| == 10
    ensures Render(ps, env) == Show(ps[0], env) + Show(ps[1], env) + Show(ps[2], env) + Show(ps[3], env) + Show(ps[4], env) + Show(ps[5], env) + Show(ps[6], env) + Show(ps[7], env) + Show(ps[8], env) + Show(ps[9], env)
  {
    var front := ps[..8];
    Render8(front, env);
    assert ps[..|ps|] == ps;
    RenderPrefix(ps, 10, env);
    RenderPrefix(ps, 9, env);
  }

  lemma Render12(ps: Template, env: Bindings)
    requires |ps| == 12
    ensures Render(ps, env) == Show(ps[0], env) + Show(ps[1], env) + Show(ps[2], env) + Show(ps[3], env) + Show(ps[4], env) + Show(ps[5], env) + Show(ps[6], env) + Show(ps[7], env) + Show(ps[8], env) + Show(ps[9], env) + Show(ps[10], env) + Show(ps[11], env)
  {
    var front := ps[..10];
    Render10(front, env);
    assert ps[..|ps|] == ps;
    RenderPrefix(ps, 12, env);
    RenderPrefix(ps, 11, env);
  }

  lemma RenderEndsWith(ps: Template, env: Bindings)
    requires |ps| > 0 && ps[|ps| - 1].Text? && |ps[|ps| - 1].t| > 0
    ensures var r := Render(ps, env); var t := ps[|ps| - 1].t; |r| > 0 && r[|r| - 1] == t[|t| - 1]
  {
  }

  /**
   * Replacing every occurrence of a placeholder in a rendering fills exactly that slot, as long
   * as the text and the other slots' contents do not contain the placeholder.
   */
  lemma {:induction false} ReplaceRender(ps: Template, env: Bindings, pat: string, v: string)
    requires Chunked(ps) && IsPlaceholder(pat) && pat !in env
    requires forall i :: 0 <= i < |ps| && ps[i].Text? ==> !Occurs(pat, ps[i].t)
    requires forall i :: 0 <= i < |ps| && ps[i].Slot? && ps[i].name != pat ==> !Occurs(pat, Show(ps[i], env))
    ensures ReplaceAll(Render(ps, env), pat, v) == Render(ps, env[pat := v])
    decreases |ps|
  {
    if |ps| > 0 {
      var init := ps[..|ps| - 1];
      var last := ps[|ps| - 1];
      assert forall i :: 0 <= i < |init| ==> init[i] == ps[i];
      ReplaceRender(init, env, pat, v);
      var x := Render(init, env);
      var y := Show(last, env);
      if last.Text? {
        SafeNotIn(y[0], pat);
        NoCrossByFirst(x, y, pat);
      } else if |init| == 0 {
        assert x == "";
      } else {
        var prev := init[|init| - 1];
        assert prev == ps[|ps| - 2] && prev.Text?;
        RenderEndsWith(init, env);
        SafeNotIn(prev.t[|prev.t| - 1], pat);
        NoCrossByLast(x, y, pat);
      }
      ReplaceConcat(x, y, pat, v);
      match last
      case Text(t) => ReplaceAbsent(t, pat, v);
      case Slot(n) =>
        if n == pat {
          ReplaceWhole(pat, v);
        } else {
          ReplaceAbsent(y, pat, v);
        }
    }
  }

  /** The chained `.replace(pats[0], vals[0]).replace(pats[1], vals[1])...`. */
  function Substitute(s: string, pats: seq<string>, vals: seq<string>): string
    requires |pats| == |vals|
    requires forall k :: 0 <= k < |pats| ==> |pats[k]| > 0
    decreases |pats|
  {
    if |pats| == 0 then s else Substitute(ReplaceAll(s, pats[0], vals[0]), pats[1..], vals[1..])
  }

  /** The bindings after filling `pats[0]`, then `pats[1]`, and so on. */
  function Bind(env: Bindings, pats: seq<string>, vals: seq<string>): Bindings
    requires |pats| == |vals|
    decreases |pats|
  {
    if |pats| == 0 then env else Bind(env[pats[0] := vals[0]], pats[1..], vals[1..])
  }

  /** Distinct placeholders, each followed by none of the earlier ones... */
  ghost predicate Distinct(pats: seq<string>) {
    forall j, k :: 0 <= j < k < |pats| ==> pats[j] != pats[k]
  }

  /** ...and a value that contains no later placeholder. */
  ghost predicate ValuesClean(pats: seq<string>, vals: seq<string>)
    requires |pats| == |vals|
  {
    forall j, k :: 0 <= j < k < |pats| ==> !Occurs(pats[k], vals[j])
  }

  /** Neither the template's text nor its slots as shown contain any of the placeholders, except a slot its own. */
  ghost predicate Inert(ps: Template, env: Bindings, pats: seq<string>) {
    && (forall k, i :: 0 <= k < |pats| && 0 <= i < |ps| && ps[i].Text? ==> !Occurs(pats[k], ps[i].t))
    && (forall k, i :: 0 <= k < |pats| && 0 <= i < |ps| && ps[i].Slot? && ps[i].name != pats[k] ==>
          !Occurs(pats[k], Show(ps[i], env)))
  }

  /**
   * The chain of replacements fills the template's slots with their values, provided no value
   * carries a placeholder that a later replacement would rewrite.
   */
  lemma {:induction false} SubstituteRender(ps: Template, env: Bindings, pats: seq<string>, vals: seq<string>)
    requires |pats| == |vals| && Chunked(ps)
    requires forall k :: 0 <= k < |pats| ==> |pats[k]| > 0 && IsPlaceholder(pats[k]) && pats[k] !in env
    requires Distinct(pats) && ValuesClean(pats, vals) && Inert(ps, env, pats)
    ensures Substitute(Render(ps, env), pats, vals) == Render(ps, Bind(env, pats, vals))
    decreases |pats|
  {
    if |pats| > 0 {
      ReplaceRender(ps, env, pats[0], vals[0]);
      var env' := env[pats[0] := vals[0]];
      var rest := pats[1..];
      forall k, i | 0 <= k < |rest| && 0 <= i < |ps| && ps[i].Slot? && ps[i].name != rest[k]
        ensures !Occurs(rest[k], Show(ps[i], env'))
      {
        assert rest[k] == pats[k + 1];
        if ps[i].name == pats[0] {
          assert Show(ps[i], env') == vals[0];
        }
      }
      SubstituteRender(ps, env', rest, vals[1..]);
    }
  }

  /** Binding a name that none of `pats` touches commutes with the binding chain. */
  lemma {:induction false} BindOutside(env: Bindings, a: string, x: string, pats: seq<string>, vals: seq<string>)
    requires |pats| == |vals| && a !in pats
    ensures Bind(env[a := x], pats, vals) == Bind(env, pats, vals)[a := x]
    decreases |pats|
  {
    if |pats| > 0 {
      assert a != pats[0] && a !in pats[1..];
      assert env[a := x][pats[0] := vals[0]] == env[pats[0] := vals[0]][a := x];
      BindOutside(env[pats[0] := vals[0]], a, x, pats[1..], vals[1..]);
    }
  }

  /** Renaming slot `a` to `b` shows what `b` would show in place of `a`. */
  function Rename(ps: Template, a: string, b: string): (r: Template)
    ensures |r| == |ps|
    ensures forall i :: 0 <= i < |ps| ==> r[i] == if ps[i] == Slot(a) then Slot(b) else ps[i]
  {
    seq(|ps|, i requires 0 <= i < |ps| => if ps[i] == Slot(a) then Slot(b) else ps[i])
  }

  lemma {:induction false} RenderRenamed(ps: Template, a: string, b: string, env: Bindings)
    ensures Render(Rename(ps, a, b), env) == Render(ps, env[a := Show(Slot(b), env)])
    decreases |ps|
  {
    if |ps| > 0 {
      var init := ps[..|ps| - 1];
      assert Rename(ps, a, b)[..|ps| - 1] == Rename(init, a, b);
      RenderRenamed(init, a, b, env);
    }
  }

  /** The placeholders of a template: each a non-empty placeholder name, none inside another. */
  ghost predicate Apart(pats: seq<string>) {
    && (forall k :: 0 <= k < |pats| ==> |pats[k]| > 0 && IsPlaceholder(pats[k]))
    && (forall j, k :: 0 <= j < |pats| && 0 <= k < |pats| && j != k ==> !Occurs(pats[k], pats[j]))
  }

  /** Renaming the first placeholder's slots to the second leaves a template inert for the others. */
  lemma RenamedInert(ps: Template, pats: seq<string>)
    requires 2 <= |pats| && Chunked(ps) && Apart(pats)
    requires forall i :: 0 <= i < |ps| && ps[i].Slot? ==> ps[i].name in pats
    requires Inert(ps, map[], pats)
    ensures Chunked(Rename(ps, pats[0], pats[1])) && Inert(Rename(ps, pats[0], pats[1]), map[], pats[1..])
  {
    var a, b := pats[0], pats[1];
    var rest := pats[1..];
    var ps' := Rename(ps, a, b);
    forall i | 0 <= i < |ps'| && ps'[i].Slot? ensures ps'[i].name in rest {
      var j :| 0 <= j < |pats| && pats[j] == ps'[i].name;
      if j == 0 { assert ps[i] == Slot(a); } else { assert rest[j - 1] == pats[j]; }
    }
    forall k, i | 0 <= k < |rest| && 0 <= i < |ps'| && ps'[i].Text? ensures !Occurs(rest[k], ps'[i].t) {
      assert rest[k] == pats[k + 1] && ps'[i] == ps[i];
    }
    forall k, i | 0 <= k < |rest| && 0 <= i < |ps'| && ps'[i].Slot? && ps'[i].name != rest[k]
      ensures !Occurs(rest[k], Show(ps'[i], map[]))
    {
      var j :| 0 <= j < |rest| && rest[j] == ps'[i].name;
      assert rest[k] == pats[k + 1] && rest[j] == pats[j + 1];
    }
  }

  /**
   * When the first value is the second placeholder itself, the second replacement rewrites it
   * as well: the chain comes out as if the first slot had been given the second value.
   */
  lemma ChainedPlaceholder(ps: Template, pats: seq<string>, vals: seq<string>, vals': seq<string>)
    requires 2 <= |pats| && |pats| == |vals| == |vals'| && Chunked(ps) && Apart(pats)
    requires forall i :: 0 <= i < |ps| && ps[i].Slot? ==> ps[i].name in pats
    requires Distinct(pats) && Inert(ps, map[], pats)
    requires vals[0] == pats[1] && vals'[0] == vals[1] && vals'[1..] == vals[1..]
    requires ValuesClean(pats, vals')
    ensures Substitute(Render(ps, map[]), pats, vals) == Substitute(Render(ps, map[]), pats, vals')
  {
    var a, b := pats[0], pats[1];
    var rest, tail := pats[1..], vals[1..];
    var ps' := Rename(ps, a, b);
    var e := Bind(map[], rest, tail);
    calc {
      Substitute(Render(ps, map[]), pats, vals);
      Substitute(ReplaceAll(Render(ps, map[]), a, b), rest, tail);
      { ReplaceRender(ps, map[], a, b);
        RenderRenamed(ps, a, b, map[]);
        assert map[][a := Show(Slot(b), map[])] == map[][a := b]; }
      Substitute(Render(ps', map[]), rest, tail);
      { RenamedInert(ps, pats);
        forall j, k | 0 <= j < k < |rest| ensures rest[j] != rest[k] && !Occurs(rest[k], tail[j]) {
          assert rest[j] == pats[j + 1] && rest[k] == pats[k + 1] && tail[j] == vals'[j + 1];
        }
        SubstituteRender(ps', map[], rest, tail); }
      Render(ps', e);
      { RenderRenamed(ps, a, b, e);
        BindLookup(map[], rest, tail);
        assert rest[0] == b; }
      Render(ps, e[a := vals[1]]);
      { assert a !in rest;
        BindOutside(map[], a, vals'[0], rest, tail); }
      Render(ps, Bind(map[], pats, vals'));
      { SubstituteRender(ps, map[], pats, vals'); }
      Substitute(Render(ps, map[]), pats, vals');
    }
  }

  // ---------------------------------------------------------------------------
  // The handler_append templates

  const TypeName := "TYPENAME"
  const IsList := "IS_LIST"
  const IsPaginated := "IS_PAGINATED"
  const InputType := "INPUT_TYPE"
  const ModelConnection := "MODEL_CONNECTION"

  /** The placeholders of `generate_append`, in the order they are replaced. */
  const AppendOrder: seq<string> := [TypeName, IsList, IsPaginated, InputType, ModelConnection]

  // Template text, cut at characters no placeholder contains.
  const AppendHead := "\n\"\"\" HANDLER APPEND START \"\"\"\n\n"
  const FromModule := "\n\nfrom django_serverless.appsync_to_wsgi"
  const ImportAppSyncOf := " import appsync_to_wsgi_of\n\n"
  const CallAppSyncOf := "resolver = appsync_to_wsgi_of("
  const ImportApiGateway := " import apigateway_to_wsgi\n\n"
  const CallApiGateway := "resolver = apigateway_to_wsgi("
  const IsListArg := ", is_list="
  const IsPaginatedArg := ", is_paginated="
  const InputTypeArg := ", input_type="
  const WrapResolver := ")(resolver)"
  const WrapMutate := ")("
  const Mutate := ".mutate)"
  const CloseCall := ")"
  const AppendTail := "\n\n\"\"\" HANDLER APPEND END \"\"\"\n\n\n"

  /** Wraps `resolver` with the AppSync adapter for a query. */
  const QueryTemplate: Template := [
    Text(AppendHead), Slot(ModelConnection), Text(FromModule), Text(ImportAppSyncOf), Text(CallAppSyncOf),
    Slot(TypeName), Text(IsListArg), Slot(IsList), Text(IsPaginatedArg), Slot(IsPaginated),
    Text(WrapResolver), Text(AppendTail)]

  /** Wraps the type's `mutate` with the AppSync adapter. */
  const MutationTemplate: Template := [
    Text(AppendHead), Slot(ModelConnection), Text(FromModule), Text(ImportAppSyncOf), Text(CallAppSyncOf),
    Slot(TypeName), Text(InputTypeArg), Slot(InputType), Text(WrapMutate), Slot(TypeName),
    Text(Mutate), Text(AppendTail)]

  /** Builds the API Gateway adapter for the view. */
  const RestTemplate: Template := [
    Text(AppendHead), Slot(ModelConnection), Text(FromModule), Text(ImportApiGateway), Text(CallApiGateway),
    Slot(TypeName), Text(CloseCall), Text(AppendTail)]

  /** `str(bool)`. */
  function PyBool(b: bool): (s: string)
    ensures |s| <= 5
  {
    if b then "True" else "False"
  }

  /** The statement that opens the model's connection, or nothing. */
  function ConnectionLine(persist: Option<string>): string {
    match persist
    case None => ""
    case Some(m) => m + ".objects.first()"
  }

  /** The values replacing `AppendOrder`, in that order. */
  function AppendValues(cfg: ResolverConfig): (vs: seq<string>)
    ensures |vs| == |AppendOrder|
  {
    [cfg.grapheneType, PyBool(cfg.isList), PyBool(cfg.isPaginated), cfg.inputType, ConnectionLine(cfg.persistModelConnection)]
  }

  /** The template choice as written: only `GET` and `POST` get the REST adapter. */
  function AppendTemplateAsWritten(op: string): (r: Template)
    ensures r == RestTemplate <==> op == "GET" || op == "POST"
    ensures r == MutationTemplate <==> op == "Mutation"
    ensures op !in {"GET", "POST", "Mutation"} ==> r == QueryTemplate
  {
    if op in {"GET", "POST"} then RestTemplate
    else if op == "Mutation" then MutationTemplate
    else QueryTemplate
  }

  /**
   * The template choice made consistent with the stack, which serves every operation other
   * than a query or a mutation through API Gateway.
   */
  function AppendTemplate(op: string): Template
  {
    if !IsGraphqlOperation(op) then RestTemplate
    else if op == "Mutation" then MutationTemplate
    else QueryTemplate
  }

  /** The text `generate_append` encodes. */
  function AppendText(cfg: ResolverConfig): string {
    PlaceholdersNonEmpty();
    Substitute(Render(AppendTemplate(cfg.operation), map[]), AppendOrder, AppendValues(cfg))
  }

  /** `generate_append`: the text's UTF-8 bytes, which decode back to it. */
  function GenerateAppend(cfg: ResolverConfig): (r: seq<Utf8.byte>)
    ensures Utf8.Decode(r) == Some(AppendText(cfg))
  {
    Utf8.DecodeEncode(AppendText(cfg));
    Utf8.Encode(AppendText(cfg))
  }

  /** The text `generate_append` encodes as written, with the code's template choice. */
  function AppendTextAsWritten(cfg: ResolverConfig): string {
    PlaceholdersNonEmpty();
    Substitute(Render(AppendTemplateAsWritten(cfg.operation), map[]), AppendOrder, AppendValues(cfg))
  }

  /** `generate_append` as written: the bytes decode back to the text. */
  function GenerateAppendAsWritten(cfg: ResolverConfig): (r: seq<Utf8.byte>)
    ensures Utf8.Decode(r) == Some(AppendTextAsWritten(cfg))
  {
    Utf8.DecodeEncode(AppendTextAsWritten(cfg));
    Utf8.Encode(AppendTextAsWritten(cfg))
  }

  lemma PlaceholdersNonEmpty()
    ensures forall k :: 0 <= k < |AppendOrder| ==> IsPlaceholder(AppendOrder[k])
  {
  }

  /** No placeholder occurs inside another. */
  lemma {:induction false} PlaceholdersApart(j: nat, k: nat)
    requires j < |AppendOrder| && k < |AppendOrder| && j != k
    ensures !Occurs(AppendOrder[j], AppendOrder[k])
  {
    var a, b := AppendOrder[j], AppendOrder[k];
    if |a| > |b| {
      ShortNeverOccurs(a, b);
    } else if a == IsList {
      if b == TypeName {
        MissingCharNeverOccurs(a, b, 'I');
      } else if b == ModelConnection {
        MissingCharNeverOccurs(a, b, 'S');
      } else {
        MissingCharNeverOccurs(a, b, 'L');
      }
    } else if a == TypeName {
      if b == InputType {
        MissingCharNeverOccurs(a, b, 'M');
      } else {
        MissingCharNeverOccurs(a, b, 'Y');
      }
    } else if a == InputType {
      MissingCharNeverOccurs(a, b, 'U');
    } else {
      MissingCharNeverOccurs(a, b, 'S');
    }
  }

  /** Every placeholder of `generate_append` contains the letter `T`. */
  lemma PlaceholdersHaveT(k: nat)
    requires k < |AppendOrder|
    ensures 'T' in AppendOrder[k]
  {
    var i := [0, 6, 9, 4, 12][k];
    assert AppendOrder[k][i] == 'T';
  }

  lemma AppendOrderApart()
    ensures Apart(AppendOrder) && Distinct(AppendOrder)
  {
    PlaceholdersNonEmpty();
    forall j, k | 0 <= j < |AppendOrder| && 0 <= k < |AppendOrder| && j != k
      ensures !Occurs(AppendOrder[k], AppendOrder[j])
    {
      PlaceholdersApart(k, j);
    }
  }

  /** Text of the marker comments: no `_` and no `Y`. */
  predicate MarkerText(t: string) {
    '_' !in t && 'Y' !in t
  }

  /** A text chunk of an append template: safe at both ends, and code without a `T` or marker text. */
  predicate AppendChunk(t: string) {
    |t| > 0 && SafeChar(t[0]) && SafeChar(t[|t| - 1]) && ('T' !in t || MarkerText(t))
  }

  /** Such a chunk contains none of the placeholders. */
  lemma ChunkAvoids(t: string, k: nat)
    requires k < |AppendOrder| && AppendChunk(t)
    ensures !Occurs(AppendOrder[k], t)
  {
    var pat := AppendOrder[k];
    if 'T' !in t {
      PlaceholdersHaveT(k);
      MissingCharNeverOccurs(pat, t, 'T');
    } else if k == 0 {
      assert pat[1] == 'Y';
      MissingCharNeverOccurs(pat, t, 'Y');
    } else {
      assert pat[2] == '_' || pat[5] == '_';
      MissingCharNeverOccurs(pat, t, '_');
    }
  }

  lemma SlotNamesAvoid(ps: Template)
    requires forall i :: 0 <= i < |ps| && ps[i].Slot? ==> ps[i].name in AppendOrder
    ensures forall k, i :: 0 <= k < |AppendOrder| && 0 <= i < |ps| && ps[i].Slot? && ps[i].name != AppendOrder[k] ==>
              !Occurs(AppendOrder[k], Show(ps[i], map[]))
  {
    forall k, i | 0 <= k < |AppendOrder| && 0 <= i < |ps| && ps[i].Slot? && ps[i].name != AppendOrder[k]
      ensures !Occurs(AppendOrder[k], Show(ps[i], map[]))
    {
      var j :| 0 <= j < |AppendOrder| && AppendOrder[j] == ps[i].name;
      PlaceholdersApart(k, j);
    }
  }

  /** A template made of append chunks and append placeholders, never two slots in a row. */
  ghost predicate AppendShaped(ps: Template) {
    && (forall i :: 0 <= i < |ps| ==> match ps[i] case Text(t) => AppendChunk(t) case Slot(n) => n in AppendOrder)
    && (forall i :: 0 < i < |ps| ==> ps[i - 1].Text? || ps[i].Text?)
  }

  lemma ShapedSound(ps: Template)
    requires AppendShaped(ps)
    ensures Chunked(ps) && Inert(ps, map[], AppendOrder)
  {
    PlaceholdersNonEmpty();
    SlotNamesAvoid(ps);
    forall k, i | 0 <= k < |AppendOrder| && 0 <= i < |ps| && ps[i].Text?
      ensures !Occurs(AppendOrder[k], ps[i].t)
    {
      ChunkAvoids(ps[i].t, k);
    }
  }

  lemma HeadChunk()
    ensures AppendChunk(AppendHead)
  {
    assert MarkerText(AppendHead);
  }

  lemma TailChunk()
    ensures AppendChunk(AppendTail)
  {
    assert MarkerText(AppendTail);
  }

  lemma FromModuleChunk()
    ensures AppendChunk(FromModule)
  {
  }

  lemma AppSyncChunks()
    ensures AppendChunk(ImportAppSyncOf) && AppendChunk(CallAppSyncOf)
  {
  }

  lemma ApiGatewayChunks()
    ensures AppendChunk(ImportApiGateway) && AppendChunk(CallApiGateway)
  {
  }

  lemma ArgumentChunks()
    ensures AppendChunk(IsListArg) && AppendChunk(IsPaginatedArg) && AppendChunk(InputTypeArg)
  {
  }

  lemma ClosingChunks()
    ensures AppendChunk(WrapResolver) && AppendChunk(WrapMutate) && AppendChunk(Mutate) && AppendChunk(CloseCall)
  {
  }

  /** The three append templates are well chunked and free of stray placeholders. */
  lemma AppendTemplateSound(ps: Template)
    requires ps == QueryTemplate || ps == MutationTemplate || ps == RestTemplate
    ensures Chunked(ps) && Inert(ps, map[], AppendOrder)
    ensures forall i :: 0 <= i < |ps| && ps[i].Slot? ==> ps[i].name in AppendOrder
  {
    HeadChunk();
    TailChunk();
    FromModuleChunk();
    AppSyncChunks();
    ApiGatewayChunks();
    ArgumentChunks();
    ClosingChunks();
    if ps == QueryTemplate {
      QueryShaped();
    } else if ps == MutationTemplate {
      MutationShaped();
    } else {
      RestShaped();
    }
    ShapedSound(ps);
  }

  lemma QueryShaped()
    requires AppendChunk(AppendHead) && AppendChunk(FromModule) && AppendChunk(ImportAppSyncOf)
    requires AppendChunk(CallAppSyncOf) && AppendChunk(IsListArg) && AppendChunk(IsPaginatedArg)
    requires AppendChunk(WrapResolver) && AppendChunk(AppendTail)
    ensures AppendShaped(QueryTemplate)
  {
  }

  lemma MutationShaped()
    requires AppendChunk(AppendHead) && AppendChunk(FromModule) && AppendChunk(ImportAppSyncOf)
    requires AppendChunk(CallAppSyncOf) && AppendChunk(InputTypeArg) && AppendChunk(WrapMutate)
    requires AppendChunk(Mutate) && AppendChunk(AppendTail)
    ensures AppendShaped(MutationTemplate)
  {
  }

  lemma RestShaped()
    requires AppendChunk(AppendHead) && AppendChunk(FromModule) && AppendChunk(ImportApiGateway)
    requires AppendChunk(CallApiGateway) && AppendChunk(CloseCall) && AppendChunk(AppendTail)
    ensures AppendShaped(RestTemplate)
  {
  }

  /** The values are clean: the type name and input type carry no later placeholder. */
  ghost predicate Clean(cfg: ResolverConfig) {
    && (forall k :: 1 <= k < |AppendOrder| ==> !Occurs(AppendOrder[k], cfg.grapheneType))
    && !Occurs(ModelConnection, cfg.inputType)
  }

  lemma CleanValues(cfg: ResolverConfig)
    requires Clean(cfg)
    ensures ValuesClean(AppendOrder, AppendValues(cfg))
  {
    var vs := AppendValues(cfg);
    forall j, k | 0 <= j < k < |AppendOrder| ensures !Occurs(AppendOrder[k], vs[j]) {
      if j == 1 || j == 2 {
        ShortNeverOccurs(AppendOrder[k], vs[j]);
      }
    }
  }

  /**
   * With clean values, `generate_append` leaves the template's text as it is and puts each
   * value exactly where its placeholder stood.
   */
  lemma AppendRenders(cfg: ResolverConfig)
    requires Clean(cfg)
    ensures AppendText(cfg) == Render(AppendTemplate(cfg.operation), Bind(map[], AppendOrder, AppendValues(cfg)))
  {
    var ps := AppendTemplate(cfg.operation);
    AppendTemplateSound(ps);
    PlaceholdersNonEmpty();
    CleanValues(cfg);
    SubstituteRender(ps, map[], AppendOrder, AppendValues(cfg));
  }

  /** Binding distinct placeholders gives each its own value and leaves every other name as it was. */
  lemma {:induction false} BindLookup(env: Bindings, pats: seq<string>, vals: seq<string>)
    requires |pats| == |vals| && Distinct(pats)
    ensures forall n :: n in Bind(env, pats, vals) <==> n in env || n in pats
    ensures forall k :: 0 <= k < |pats| ==> Bind(env, pats, vals)[pats[k]] == vals[k]
    ensures forall n :: n in env && n !in pats ==> Bind(env, pats, vals)[n] == env[n]
    decreases |pats|
  {
    if |pats| > 0 {
      var env' := env[pats[0] := vals[0]];
      BindLookup(env', pats[1..], vals[1..]);
      var b := Bind(env, pats, vals);
      assert forall n :: n in pats <==> n == pats[0] || n in pats[1..] by {
        assert pats == [pats[0]] + pats[1..];
      }
      assert b == Bind(env', pats[1..], vals[1..]);
      forall k | 0 <= k < |pats| ensures pats[k] in b && b[pats[k]] == vals[k] {
        if k > 0 {
          assert pats[1..][k - 1] == pats[k];
          assert pats[k] in pats[1..];
        } else {
          assert pats[0] in env';
          assert pats[0] !in pats[1..] by {
            forall j | 0 <= j < |pats[1..]| ensures pats[1..][j] != pats[0] {
              assert pats[1..][j] == pats[j + 1];
            }
          }
        }
      }
    }
  }

  /** The bindings give each placeholder its value. */
  lemma FinalBindings(cfg: ResolverConfig)
    ensures var env := Bind(map[], AppendOrder, AppendValues(cfg));
      && env.Keys == {TypeName, IsList, IsPaginated, InputType, ModelConnection}
      && env[TypeName] == cfg.grapheneType
      && env[IsList] == PyBool(cfg.isList)
      && env[IsPaginated] == PyBool(cfg.isPaginated)
      && env[InputType] == cfg.inputType
      && env[ModelConnection] == ConnectionLine(cfg.persistModelConnection)
  {
    var vs := AppendValues(cfg);
    BindLookup(map[], AppendOrder, vs);
    assert AppendOrder[0] == TypeName && AppendOrder[1] == IsList && AppendOrder[2] == IsPaginated;
    assert AppendOrder[3] == InputType && AppendOrder[4] == ModelConnection;
    assert vs[0] == cfg.grapheneType;
  }

  /** For a REST operation the handler builds the API Gateway adapter for the graphene type. */
  lemma RestAppendText(cfg: ResolverConfig)
    requires Clean(cfg) && !IsGraphqlOperation(cfg.operation)
    ensures AppendText(cfg)
         == AppendHead + ConnectionLine(cfg.persistModelConnection) + FromModule + ImportApiGateway + CallApiGateway
            + cfg.grapheneType + CloseCall + AppendTail
  {
    AppendRenders(cfg);
    FinalBindings(cfg);
    var env := Bind(map[], AppendOrder, AppendValues(cfg));
    Render8(RestTemplate, env);
  }

  /** For a query the handler wraps `resolver`, passing the list and pagination flags. */
  lemma QueryAppendText(cfg: ResolverConfig)
    requires Clean(cfg) && cfg.operation == "Query"
    ensures AppendText(cfg)
         == AppendHead + ConnectionLine(cfg.persistModelConnection) + FromModule + ImportAppSyncOf + CallAppSyncOf
            + cfg.grapheneType + IsListArg + PyBool(cfg.isList) + IsPaginatedArg + PyBool(cfg.isPaginated)
            + WrapResolver + AppendTail
  {
    AppendRenders(cfg);
    FinalBindings(cfg);
    var env := Bind(map[], AppendOrder, AppendValues(cfg));
    Render12(QueryTemplate, env);
  }

  /** For a mutation the handler wraps the type's `mutate`, passing the input type. */
  lemma MutationAppendText(cfg: ResolverConfig)
    requires Clean(cfg) && cfg.operation == "Mutation"
    ensures AppendText(cfg)
         == AppendHead + ConnectionLine(cfg.persistModelConnection) + FromModule + ImportAppSyncOf + CallAppSyncOf
            + cfg.grapheneType + InputTypeArg + cfg.inputType + WrapMutate + cfg.grapheneType
            + Mutate + AppendTail
  {
    AppendRenders(cfg);
    FinalBindings(cfg);
    var env := Bind(map[], AppendOrder, AppendValues(cfg));
    Render12(MutationTemplate, env);
  }

  /** A type name that is a printed flag carries no placeholder. */
  lemma FlagValuesClean(cfg: ResolverConfig)
    requires cfg.grapheneType == PyBool(cfg.isList) && !Occurs(ModelConnection, cfg.inputType)
    ensures ValuesClean(AppendOrder, AppendValues(cfg))
  {
    forall k | 1 <= k < |AppendOrder| ensures !Occurs(AppendOrder[k], cfg.grapheneType) {
      ShortNeverOccurs(AppendOrder[k], cfg.grapheneType);
    }
    CleanValues(cfg);
  }

  /**
   * A placeholder inside an earlier value is rewritten by the later replacement: a query whose
   * graphene type is literally `IS_LIST` ends up naming the `str(is_list)` value instead.
   */
  lemma TypeNameRewritten(cfg: ResolverConfig)
    requires cfg.operation == "Query" && cfg.grapheneType == IsList
    requires !Occurs(ModelConnection, cfg.inputType)
    ensures AppendText(cfg) == AppendText(cfg.(grapheneType := PyBool(cfg.isList)))
  {
    var cfg' := cfg.(grapheneType := PyBool(cfg.isList));
    var ps := QueryTemplate;
    AppendTemplateSound(ps);
    FlagValuesClean(cfg');
    assert AppendTemplate(cfg.operation) == ps;
    ChainedAppend(ps, AppendValues(cfg), AppendValues(cfg'));
  }

  /** `ChainedPlaceholder` for the append placeholders, whatever the template. */
  lemma ChainedAppend(ps: Template, vs: seq<string>, vs': seq<string>)
    requires Chunked(ps) && Inert(ps, map[], AppendOrder)
    requires forall i :: 0 <= i < |ps| && ps[i].Slot? ==> ps[i].name in AppendOrder
    requires |vs| == |vs'| == |AppendOrder|
    requires vs[0] == AppendOrder[1] && vs'[0] == vs[1] && vs'[1..] == vs[1..]
    requires ValuesClean(AppendOrder, vs')
    ensures Substitute(Render(ps, map[]), AppendOrder, vs) == Substitute(Render(ps, map[]), AppendOrder, vs')
  {
    AppendOrderApart();
    ChainedPlaceholder(ps, AppendOrder, vs, vs');
  }

  // ---------------------------------------------------------------------------
  // Agreement with the stack's wiring

  /** On the four operations both sides name, the template choice as written is the intended one. */
  lemma AppendTemplateAgrees(op: string)
    requires op in {"Query", "Mutation", "GET", "POST"}
    ensures AppendTemplateAsWritten(op) == AppendTemplate(op)
  {
  }

  /** On those four operations the generated bytes are the same as written and corrected. */
  lemma GenerateAppendAgrees(cfg: ResolverConfig)
    requires cfg.operation in {"Query", "Mutation", "GET", "POST"}
    ensures GenerateAppendAsWritten(cfg) == GenerateAppend(cfg)
  {
    AppendTemplateAgrees(cfg.operation);
  }

  /**
   * A `PUT` resolver is wired to a REST method by the stack, yet the template as written wraps
   * its handler with the AppSync query adapter.
   */
  lemma PutGetsAppSyncWrapper(op: string)
    requires op == "PUT"
    ensures !IsGraphqlOperation(op)
    ensures AppendTemplateAsWritten(op) == QueryTemplate != RestTemplate
  {
  }

  /** The corrected choice gives the REST adapter exactly to the operations the stack serves over REST. */
  lemma RestTemplateIffRest(op: string)
    ensures AppendTemplate(op) == RestTemplate <==> !IsGraphqlOperation(op)
    ensures op == "Mutation" <==> AppendTemplate(op) == MutationTemplate
  {
  }

  // ---------------------------------------------------------------------------
  // handler_prepend

  const PersistentConnection := "PERSISTENT_CONNECTION"

  const PrependHead := "\n\"\"\" HANDLER PREPEND START \"\"\"\n\n\n"
  const ImportDjango := "import os\n\nimport django\n\n"
  const SetDefault := "os.environ.setdefault("
  const SettingsModule := "'DJANGO_SETTINGS_MODULE', "
  const ProjectSettings := "'your_project.settings')\n\n"
  const DjangoSetup := "django.setup(set_prefix=False)\n\n"
  const ImportSettings := "from django.conf import settings\n"
  const ConnMaxAgeLine := "settings.CONN_MAX_AGE = "
  const PrependTail := "\n\n\n\"\"\" HANDLER PREPEND END \"\"\"\n\n\n"

  /** Sets up Django and its connection lifetime before the handler's own code. */
  const PrependTemplate: Template := [
    Text(PrependHead), Text(ImportDjango), Text(SetDefault), Text(SettingsModule), Text(ProjectSettings),
    Text(DjangoSetup), Text(ImportSettings), Text(ConnMaxAgeLine), Slot(PersistentConnection), Text(PrependTail)]

  /** A text chunk of the prepend template: safe at both ends, and lacking `T`, `_` or `P`. */
  predicate PrependChunk(t: string) {
    |t| > 0 && SafeChar(t[0]) && SafeChar(t[|t| - 1]) && ('T' !in t || '_' !in t || 'P' !in t)
  }

  lemma PrependMarkerChunks()
    ensures PrependChunk(PrependHead) && PrependChunk(PrependTail)
  {
    assert '_' !in PrependHead;
    assert '_' !in PrependTail;
  }

  lemma PrependCodeChunks()
    ensures PrependChunk(ImportDjango) && PrependChunk(SetDefault)
  {
  }

  lemma PrependSettingsChunks()
    ensures PrependChunk(SettingsModule) && PrependChunk(ProjectSettings)
  {
    assert 'P' !in SettingsModule;
  }

  lemma PrependSetupChunk()
    ensures PrependChunk(DjangoSetup)
  {
    assert 'T' !in DjangoSetup;
  }

  lemma PrependImportChunk()
    ensures PrependChunk(ImportSettings)
  {
    assert 'T' !in ImportSettings;
  }

  lemma PrependConnChunk()
    ensures PrependChunk(ConnMaxAgeLine)
  {
  }

  /** `CONN_MAX_AGE`: 60 seconds by default, unlimited (`None`) when the model connection persists. */
  function ConnMaxAge(persist: Option<string>): string {
    if persist.None? then "60" else "None"
  }

  function PrependText(cfg: ResolverConfig): string {
    ReplaceAll(Render(PrependTemplate, map[]), PersistentConnection, ConnMaxAge(cfg.persistModelConnection))
  }

  /** `generate_prepend`: the text's UTF-8 bytes, which decode back to it. */
  function GeneratePrepend(cfg: ResolverConfig): (r: seq<Utf8.byte>)
    ensures Utf8.Decode(r) == Some(PrependText(cfg))
  {
    Utf8.DecodeEncode(PrependText(cfg));
    Utf8.Encode(PrependText(cfg))
  }

  /** Text chunks that are prepend chunks, and a slot only for the one placeholder. */
  ghost predicate PrependShaped(ps: Template) {
    && (forall i :: 0 <= i < |ps| ==>
          match ps[i] case Text(t) => PrependChunk(t) case Slot(n) => n == PersistentConnection)
    && (forall i :: 0 < i < |ps| ==> ps[i - 1].Text? || ps[i].Text?)
  }

  lemma PrependShapedSound(ps: Template)
    requires PrependShaped(ps)
    ensures Chunked(ps)
    ensures forall i :: 0 <= i < |ps| && ps[i].Text? ==> !Occurs(PersistentConnection, ps[i].t)
  {
    assert IsPlaceholder(PersistentConnection);
    forall i | 0 <= i < |ps| && ps[i].Text? ensures !Occurs(PersistentConnection, ps[i].t) {
      PrependChunkAvoids(ps[i].t);
    }
  }

  /** The prepend template is well chunked and no text chunk contains its placeholder. */
  lemma PrependInert()
    ensures Chunked(PrependTemplate)
    ensures forall i :: 0 <= i < |PrependTemplate| && PrependTemplate[i].Text? ==> !Occurs(PersistentConnection, PrependTemplate[i].t)
  {
    PrependMarkerChunks();
    PrependCodeChunks();
    PrependSettingsChunks();
    PrependSetupChunk();
    PrependImportChunk();
    PrependConnChunk();
    assert PrependShaped(PrependTemplate);
    PrependShapedSound(PrependTemplate);
  }

  lemma PrependChunkAvoids(t: string)
    requires PrependChunk(t)
    ensures !Occurs(PersistentConnection, t)
  {
    var pat := PersistentConnection;
    assert pat[6] == 'T' && pat[10] == '_' && pat[0] == 'P';
    if 'T' !in t {
      MissingCharNeverOccurs(pat, t, 'T');
    } else if '_' !in t {
      MissingCharNeverOccurs(pat, t, '_');
    } else {
      MissingCharNeverOccurs(pat, t, 'P');
    }
  }

  /**
   * `generate_prepend` fills the one placeholder with the connection lifetime and leaves the
   * rest of the bootstrap as it is.
   */
  lemma PrependRenders(cfg: ResolverConfig)
    ensures PrependText(cfg)
         == PrependHead + ImportDjango + SetDefault + SettingsModule + ProjectSettings + DjangoSetup
            + ImportSettings + ConnMaxAgeLine + ConnMaxAge(cfg.persistModelConnection) + PrependTail
  {
    var v := ConnMaxAge(cfg.persistModelConnection);
    PrependInert();
    ReplaceRender(PrependTemplate, map[], PersistentConnection, v);
    Render10(PrependTemplate, map[PersistentConnection := v]);
  }
}

=== FILE: transport.dfy ===
/**
 * `wrap_handler_with_middlewares`: the Django request middlewares of the settings are
 * instantiated around a request handler, from the last-declared to the first-declared.
 */
module Transport {
  import opened Wrappers
  import opened Values
  import opened Chains

  /**
   * A middleware of `settings.MIDDLEWARE`: its import path and whether its factory, called with
   * the handler built so far, returns a handler (a factory returning `None` is a
   * configuration error).
   */
  datatype Middleware = Middleware(path: string, returnsHandler: bool)

  function Paths(mws: seq<Middleware>): (ps: seq<string>)
    ensures |ps| == |mws|
  {
    seq(|mws|, k requires 0 <= k < |mws| => mws[k].path)
  }

  function FactoryError(path: string): Exn {
    ImproperlyConfigured("Middleware factory " + path + " returned None.")
  }

  /** `mws[j]` is the last factory before position `i` that returns `None`. */
  predicate LastFailing(mws: seq<Middleware>, i: nat, j: nat)
    requires j < i <= |mws|
  {
    !mws[j].returnsHandler && forall k :: j < k < i ==> mws[k].returnsHandler
  }

  /**
   * The loop `for middleware_path in reversed(settings.MIDDLEWARE)` from position `i - 1` down to
   * 0, with the handler built so far.
   */
  function WrapFrom(mws: seq<Middleware>, i: nat, chained: Chain): (r: Result<Chain, Exn>)
    requires i <= |mws|
    ensures r.Success? <==> forall k :: 0 <= k < i ==> mws[k].returnsHandler
    ensures r.Success? ==> Names(r.value) == Paths(mws[..i]) + Names(chained)
    ensures r.Failure? ==> exists j :: 0 <= j < i && LastFailing(mws, i, j) && r.error == FactoryError(mws[j].path)
    decreases i
  {
    if i == 0 then Success(chained)
    else
      var m := mws[i - 1];
      if !m.returnsHandler then Failure(FactoryError(m.path))
      else
        var r := WrapFrom(mws, i - 1, Layer(m.path, chained));
        assert r.Success? ==> Names(r.value) == Paths(mws[..i]) + Names(chained) by {
          if r.Success? {
            NamesStep(mws, i, chained, Names(r.value));
          }
        }
        assert r.Failure? ==> exists j :: 0 <= j < i && LastFailing(mws, i, j) && r.error == FactoryError(mws[j].path) by {
          if r.Failure? {
            var j :| 0 <= j < i - 1 && LastFailing(mws, i - 1, j) && r.error == FactoryError(mws[j].path);
            LastFailingExtends(mws, i, j);
          }
        }
        r
  }

  /** The names wrapped from `i - 1` down, around one more layer, are those wrapped from `i` down. */
  lemma NamesStep(mws: seq<Middleware>, i: nat, chained: Chain, ns: seq<string>)
    requires 0 < i <= |mws|
    requires ns == Paths(mws[..i - 1]) + Names(Layer(mws[i - 1].path, chained))
    ensures ns == Paths(mws[..i]) + Names(chained)
  {
    assert Paths(mws[..i]) == Paths(mws[..i - 1]) + [mws[i - 1].path];
  }

  /** A handler-returning factory at `i - 1` leaves the last failing one before it in place. */
  lemma LastFailingExtends(mws: seq<Middleware>, i: nat, j: nat)
    requires j < i - 1 && i <= |mws|
    requires LastFailing(mws, i - 1, j) && mws[i - 1].returnsHandler
    ensures LastFailing(mws, i, j)
  {
  }

  /**
   * `wrap_handler_with_middlewares(handler)`: the first-declared middleware is outermost; the
   * first factory found returning `None`, scanning from the last-declared, raises
   * `ImproperlyConfigured` naming its path.
   */
  function WrapHandler(mws: seq<Middleware>): (r: Result<Chain, Exn>)
    ensures r.Success? <==> forall k :: 0 <= k < |mws| ==> mws[k].returnsHandler
    ensures r.Success? ==> Names(r.value) == Paths(mws)
    ensures r.Failure? ==> exists j :: 0 <= j < |mws| && LastFailing(mws, |mws|, j) && r.error == FactoryError(mws[j].path)
  {
    assert mws[..|mws|] == mws;
    WrapFrom(mws, |mws|, Core)
  }

  /**
   * A request passes every middleware from the first-declared inwards before the handler runs,
   * and the response passes them back from the last-declared outwards.
   */
  lemma RequestOrder(mws: seq<Middleware>, log: seq<string>)
    requires WrapHandler(mws).Success?
    ensures Run(WrapHandler(mws).value, Enter, Exit, Handle, log)
         == log + Tagged("enter ", Paths(mws)) + ["handle"] + Tagged("exit ", Reverse(Paths(mws)))
  {
    RunOrder(WrapHandler(mws).value, log);
  }
}

=== FILE: utf8.dfy ===
/**
 * `str.encode('utf-8')`, which turns the generated handler source into the bytes written to
 * disk, with the matching strict decoder as its reference inverse.
 */
module Utf8 {
  import opened Wrappers

  newtype byte = x: int | 0 <= x < 256

  /** A continuation byte, `10xxxxxx`. */
  predicate IsCont(b: byte) {
    0x80 <= b < 0xC0
  }

  /** The UTF-8 encoding of one Unicode scalar value: one to four bytes. */
  function EncodeChar(c: char): (bs: seq<byte>)
    ensures 1 <= |bs| <= 4
    ensures (c as int < 0x80) <==> |bs| == 1
    ensures |bs| == 1 ==> bs[0] as int == c as int
    ensures forall i :: 1 <= i < |bs| ==> IsCont(bs[i])
  {
    var n := c as int;
    if n < 0x80 then [n as byte]
    else if n < 0x800 then [(0xC0 + n / 64) as byte, (0x80 + n % 64) as byte]
    else if n < 0x10000 then [(0xE0 + n / 4096) as byte, (0x80 + n / 64 % 64) as byte, (0x80 + n % 64) as byte]
    else [(0xF0 + n / 262144) as byte, (0x80 + n / 4096 % 64) as byte, (0x80 + n / 64 % 64) as byte, (0x80 + n % 64) as byte]
  }

  /** `s.encode('utf-8')`. */
  function Encode(s: string): (bs: seq<byte>)
    ensures |bs| >= |s|
    decreases |s|
  {
    if |s| == 0 then [] else EncodeChar(s[0]) + Encode(s[1..])
  }

  /** A code point that is a Unicode scalar value, the values a `char` holds. */
  predicate IsScalar(n: int) {
    0 <= n < 0xD800 || 0xE000 <= n < 0x110000
  }

  /**
   * Strict decoding of the first character: the lead byte fixes the length, every further byte
   * must be a continuation byte, and overlong forms, surrogates and values past U+10FFFF are
   * rejected. Gives the character and the number of bytes it took.
   */
  function DecodeChar(bs: seq<byte>): (r: Option<(char, nat)>)
    ensures r.Some? ==> 1 <= r.value.1 <= |bs| && r.value.1 <= 4
  {
    if |bs| == 0 then None
    else
      var b0 := bs[0] as int;
      if b0 < 0x80 then Some((b0 as char, 1))
      else if 0xC2 <= b0 < 0xE0 then
        if |bs| < 2 || !IsCont(bs[1]) then None
        else Some((((b0 - 0xC0) * 64 + (bs[1] as int - 0x80)) as char, 2))
      else if 0xE0 <= b0 < 0xF0 then
        if |bs| < 3 || !IsCont(bs[1]) || !IsCont(bs[2]) then None
        else
          var n := (b0 - 0xE0) * 4096 + (bs[1] as int - 0x80) * 64 + (bs[2] as int - 0x80);
          if n < 0x800 || !IsScalar(n) then None else Some((n as char, 3))
      else if 0xF0 <= b0 < 0xF5 then
        if |bs| < 4 || !IsCont(bs[1]) || !IsCont(bs[2]) || !IsCont(bs[3]) then None
        else
          var n := (b0 - 0xF0) * 262144 + (bs[1] as int - 0x80) * 4096 + (bs[2] as int - 0x80) * 64 + (bs[3] as int - 0x80);
          if n < 0x10000 || !IsScalar(n) then None else Some((n as char, 4))
      else None
  }

  /** `bs.decode('utf-8')`, with `None` for a malformed sequence. */
  function Decode(bs: seq<byte>): Option<string>
    decreases |bs|
  {
    if |bs| == 0 then Some("")
    else
      match DecodeChar(bs)
      case None => None
      case Some((c, k)) =>
        match Decode(bs[k..])
        case None => None
        case Some(rest) => Some([c] + rest)
  }

  /** Decoding the encoding of a character reads back that character and nothing more. */
  lemma DecodeEncodeChar(c: char, rest: seq<byte>)
    ensures DecodeChar(EncodeChar(c) + rest) == Some((c, |EncodeChar(c)|))
  {
    var n := c as int;
    var bs := EncodeChar(c) + rest;
    if n < 0x80 {
    } else if n < 0x800 {
      assert n == (n / 64) * 64 + n % 64;
    } else if n < 0x10000 {
      assert n / 64 == (n / 4096) * 64 + n / 64 % 64;
      assert n == (n / 64) * 64 + n % 64;
    } else {
      assert n / 4096 == (n / 262144) * 64 + n / 4096 % 64;
      assert n / 64 == (n / 4096) * 64 + n / 64 % 64;
      assert n == (n / 64) * 64 + n % 64;
    }
  }

  /** Encoding then decoding gives back the string. */
  lemma {:induction false} DecodeEncode(s: string)
    ensures Decode(Encode(s)) == Some(s)
    decreases |s|
  {
    if |s| > 0 {
      var head := EncodeChar(s[0]);
      DecodeEncodeChar(s[0], Encode(s[1..]));
      assert (head + Encode(s[1..]))[|head|..] == Encode(s[1..]);
      DecodeEncode(s[1..]);
      assert [s[0]] + s[1..] == s;
    }
  }

  /** ASCII text encodes to one byte per character, each the character's code. */
  lemma {:induction false} EncodeAscii(s: string)
    requires forall i :: 0 <= i < |s| ==> s[i] as int < 0x80
    ensures |Encode(s)| == |s|
    ensures forall i :: 0 <= i < |s| ==> Encode(s)[i] as int == s[i] as int
    decreases |s|
  {
    if |s| > 0 {
      EncodeAscii(s[1..]);
    }
  }

  /** Encoding distributes over concatenation. */
  lemma {:induction false} EncodeConcat(a: string, b: string)
    ensures Encode(a + b) == Encode(a) + Encode(b)
    decreases |a|
  {
    if |a| > 0 {
      assert (a + b)[1..] == a[1..] + b;
      EncodeConcat(a[1..], b);
    } else {
      assert a + b == b;
    }
  }
}

=== FILE: values.dfy ===
/**
 * The Python objects the adapter handles: resolver results, event payloads and the pieces
 * of them the field resolver walks.
 */
module Values {
  import opened Wrappers

  /**
   * A graphene object type as far as the resolver sees it: its class name and the fields `f`
   * for which it defines a `resolve_f` hook.
   */
  datatype TypeDesc = TypeDesc(name: string, hooks: set<string>)

  /** The exceptions the modelled code raises or lets through. */
  datatype Exn =
    | AttributeError(attr: string)
    | TypeError(msg: string)
    | ValueError(msg: string)
    | KeyError(key: string)
    | ImproperlyConfigured(msg: string)
    /** An exception raised by application code (a resolver, hook or middleware). */
    | Raised(kind: string, msg: string)

  /** The Python sequence types the resolver distinguishes by class name. */
  datatype SeqKind = List | QuerySet | Tuple

  datatype Value =
    | Null
    /** The `lambda _, __: None` placeholder the default resolver returns for unknown fields. */
    | Missing
    | Bool(b: bool)
    | Int(i: int)
    | Str(s: string)
    /** `uuid.UUID(int=value)`. */
    | Uuid(value: nat)
    | Date(year: nat, month: nat, day: nat)
    | DateTime(year: nat, month: nat, day: nat, hour: nat, minute: nat, second: nat)
    /** A generator object, with the items it will yield. */
    | Generator(items: seq<Value>)
    | Seq(kind: SeqKind, items: seq<Value>)
    /** A Django `RelatedManager`/`ManyRelatedManager`; `.all()` gives a `QuerySet` of `items`. */
    | Manager(items: seq<Value>)
    /** A dictionary, with its keys in insertion order. */
    | Dict(keys: seq<string>, vals: map<string, Value>)
    /** Any other object: its attributes and, for a model, the graphene type it reverse-links to. */
    | Obj(attrs: map<string, Value>, reverse: Option<TypeDesc>)
    /** An exception object, as it appears in a promise's `reason`. */
    | ExnObj(exn: Exn)
    /** A Django `JsonResponse` whose content parses to `payload`. */
    | JsonResp(payload: Value)

  /** The keys of a list of entries. */
  function EntryKeys(entries: seq<(string, Value)>): set<string> {
    set i | 0 <= i < |entries| :: entries[i].0
  }

  /** A dictionary's key order lists each key of its value map exactly once. */
  ghost predicate WellFormedDict(d: Value)
    requires d.Dict?
  {
    && (forall i, j :: 0 <= i < j < |d.keys| ==> d.keys[i] != d.keys[j])
    && (forall k :: k in d.vals <==> k in d.keys)
  }

  /**
   * The dictionary built by inserting entries in order (`{k: v for ...}`, `dict(...)`, `**`):
   * a repeated key keeps its first position and takes its last value.
   */
  function DictOf(entries: seq<(string, Value)>): (d: Value)
    ensures d.Dict? && WellFormedDict(d)
    ensures d.vals.Keys == EntryKeys(entries)
    decreases |entries|
  {
    if |entries| == 0 then Dict([], map[])
    else
      var init := entries[..|entries| - 1];
      var rest := DictOf(init);
      var (k, v) := entries[|entries| - 1];
      assert EntryKeys(entries) == EntryKeys(init) + {k} by {
        forall x | x in EntryKeys(entries) ensures x in EntryKeys(init) + {k} {
          var i :| 0 <= i < |entries| && entries[i].0 == x;
          if i < |entries| - 1 { assert init[i] == entries[i]; }
        }
        forall x | x in EntryKeys(init) ensures x in EntryKeys(entries) {
          var i :| 0 <= i < |init| && init[i].0 == x;
          assert entries[i] == init[i];
        }
      }
      Dict(if k in rest.keys then rest.keys else rest.keys + [k], rest.vals[k := v])
  }

  lemma EntryKeysConcat(a: seq<(string, Value)>, b: seq<(string, Value)>)
    ensures EntryKeys(a + b) == EntryKeys(a) + EntryKeys(b)
  {
    var ab := a + b;
    forall x | x in EntryKeys(ab) ensures x in EntryKeys(a) + EntryKeys(b) {
      var i :| 0 <= i < |ab| && ab[i].0 == x;
      if i < |a| { assert ab[i] == a[i]; } else { assert ab[i] == b[i - |a|]; }
    }
    forall x | x in EntryKeys(a) + EntryKeys(b) ensures x in EntryKeys(ab) {
      if x in EntryKeys(a) {
        var i :| 0 <= i < |a| && a[i].0 == x;
        assert ab[i] == a[i];
      } else {
        var i :| 0 <= i < |b| && b[i].0 == x;
        assert ab[|a| + i] == b[i];
      }
    }
  }

  /** Each key of the built dictionary holds the value of its last entry. */
  lemma {:induction false} DictOfLastWins(entries: seq<(string, Value)>, j: nat)
    requires j < |entries|
    requires forall k :: j < k < |entries| ==> entries[k].0 != entries[j].0
    ensures entries[j].0 in DictOf(entries).vals
    ensures DictOf(entries).vals[entries[j].0] == entries[j].1
    decreases |entries|
  {
    var init := entries[..|entries| - 1];
    if j < |entries| - 1 {
      assert init[j] == entries[j];
      DictOfLastWins(init, j);
    }
  }

  /** `dict.get(key)`. */
  function DictGet(d: Value, key: string): Value
    requires d.Dict?
  {
    if key in d.vals then d.vals[key] else Null
  }

  /** `dict.get(key, default)`. */
  function DictGetOr(d: Value, key: string, default: Value): Value
    requires d.Dict?
  {
    if key in d.vals then d.vals[key] else default
  }

  const EmptyDict: Value := Dict([], map[])

  /** Python truthiness (`bool(v)`). */
  predicate Truthy(v: Value) {
    match v
    case Null => false
    case Bool(b) => b
    case Int(i) => i != 0
    case Str(s) => |s| > 0
    case Seq(_, items) => |items| > 0
    case Dict(keys, _) => |keys| > 0
    case _ => true
  }

  /** `getattr(obj, name)` for an ordinary object. */
  function GetAttr(v: Value, name: string): (r: Result<Value, Exn>)
    ensures r.Success? <==> v.Obj? && name in v.attrs
    ensures r.Failure? ==> r.error == AttributeError(name)
    ensures r.Success? ==> r.value == v.attrs[name]
  {
    if v.Obj? && name in v.attrs then Success(v.attrs[name]) else Failure(AttributeError(name))
  }
}

=== FILE: wrappers.dfy ===
/** Failure-compatible wrappers shared by every module of the model. */
module Wrappers {

  /** A value that may be absent (Python's `None` where the source uses it as "no value"). */
  datatype Option<+T> = None | Some(value: T)

  /** A computation that either returns a value or raises an exception. */
  datatype Result<+T, +E> = Success(value: T) | Failure(error: E) {

    predicate IsFailure() {
      Failure?
    }

    function PropagateFailure<U>(): Result<U, E>
      requires Failure?
    {
      Failure(error)
    }

    function Extract(): T
      requires Success?
    {
      value
    }
  }
}
